=== FILE: README.md ===
# http-simple-proxy: master, worker and port binder

http-simple-proxy is a reverse proxy for Node.js. A master process
(`HttpSimpleProxy`) either runs one in-process worker (`workerCount` 0)
or forks `workerCount` worker processes. Each worker
(`HttpSimpleProxyWorker`) binds every port of the configuration. It keeps
two registries that survive reloads:

- the raw TCP listeners, keyed by `host:port` or `port`;
- the HTTP/HTTPS application servers, tagged with a fingerprint of the TLS
  configuration they were built from.

A reload has three steps. First every server is unbound. Then every port
is bound again, reusing a listener that already exists, and reusing a
server whose fingerprint is unchanged. Finally every listener that no
port claimed is closed.

The master keeps a table of worker slots and replaces a worker that
crashes. It refuses a reload that changes `workerCount`. It drives an
unbind/reload handshake with every live worker. It also bridges TLS
sessions between workers.

This project models that core in Dafny:

| file | module | models |
|---|---|---|
| `js_values.dfy` | `JsValues` | JavaScript values, truthiness, property lookup, `Object.keys`, `extend({}, x)`, `JSON.stringify` |
| `port_spec.dfy` | `PortSpec` | the port-specification pattern `/((\S+):)?(\d+)/`, `parseInt`, the registry key |
| `router.dfy` | `Router` | how one port's middleware and router are put together |
| `registry.dfy` | `Registry` | `lazyGetTcpServer`, `serverForPortConfig`, the forwarder, the worker constructor |
| `worker.dfy` | `Worker` | `handleConfig`, `unbindAll`, `gcServers`, `loadConfig` |
| `session_store.dfy` | `SessionStore` | the worker's default TLS session store, with its Base64 keys |
| `handshake.dfy` | `Handshake` | the per-worker unbind/reload handshake and the whole fleet |
| `master.dfy` | `Master` | `exitIfEACCES`, crash replacement, the session bridge, `init`, `reload` |

`async.parallel` starts every port task before any new listener has
finished binding. A load therefore runs in two passes: first the
synchronous part of every port task, in port order; then the end of every
bind left under way. The binds end in port order, which is one admissible
order of the operating system's events. Whatever the outside world decides
is an input to the model:

- whether a server constructor throws;
- how a bind ends;
- whether a server emits `error` before it is listening;
- which messages a worker sends back;
- the order in which `started` replies arrive;
- the pool's secret token and the clock.

A port task that finds its listener already registered attaches to it
synchronously, even when an earlier task is still binding that listener.
Doing so strips the handlers of the listener
(src/HttpSimpleProxyWorker.js:228) and of the cached application server
(src/HttpSimpleProxyWorker.js:162). Two specifications that bind one key
that was not listening before the load, such as `"80"` and `"0080"`,
therefore leave the first task without a callback, and the load never
completes (`Worker.SharedFreshKeyStalls`, `Worker.FreshDuplicatePortStalls`).

Behaviour of the code that the model keeps:

- **A refused reload.** `reload` stores the new configuration before it
  checks `workerCount` (src/HttpSimpleProxy.js:189-194). No worker is
  touched, but a worker that crashes later is replaced with the rejected
  configuration (`Master.RejectedConfigReachesReplacement`).
- **Forked reload result.** The `started` handler calls `asyncCallback()`
  without the payload (src/HttpSimpleProxy.js:224-226). A forked reload
  therefore always ends with `null` (`Master.ForkedReload`).
- **The session bridge.** `tlsSession:get` assigns to a `const`, so it
  throws on every hit (src/HttpSimpleProxy.js:92-94; finding 3).
- **Permission errors.** On the in-process reload path, `exitIfEACCES` is
  applied to the whole errors object (src/HttpSimpleProxy.js:206). A
  refused bind (`EACCES`) therefore never ends the process there
  (finding 1).

## Model

| member | source | states |
|---|---|---|
| PortSpec.Parse | src/HttpSimpleProxyWorker.js:258-260 | a matched host is non-empty and contains no white space |
| PortSpec.ParseFailsIffNoDigit | src/HttpSimpleProxyWorker.js:258 | a port specification matches the pattern exactly when it contains a digit |
| PortSpec.HostAndPort | src/HttpSimpleProxyWorker.js:258-260 | `"h:ddd"` yields host `h` (which may contain colons, since the greedy group takes the last colon) and port `parseInt(ddd)` |
| PortSpec.BarePort | src/HttpSimpleProxyWorker.js:258-260 | an all-digit specification yields no host and its number |
| PortSpec.ParseDecimalOfDecimalString | src/HttpSimpleProxyWorker.js:260 | `parseInt` inverts the decimal rendering of a port number |
| PortSpec.KeyHasColonIffHost | src/HttpSimpleProxyWorker.js:30 | a registry key contains a colon exactly when the host is truthy |
| PortSpec.ListenerKeyInjective | src/HttpSimpleProxyWorker.js:30 | distinct (host, port) pairs never share a registry key |
| PortSpec.LeadingZerosShareKey | src/HttpSimpleProxyWorker.js:154 | `"0080"` and `"80"` are different specifications that map to the same registry key `"80"` |
| Router.NormaliseRouter | src/HttpSimpleProxyWorker.js:115-128 | a `null` port configuration throws; otherwise the pipeline starts with the worker middleware and ends with the router, and a non-object configuration is its own router |
| Router.NoMiddlewareIsRouterOnly | src/HttpSimpleProxyWorker.js:121-128 | with no middleware anywhere, the pipeline is exactly the router list |
| Router.PortMiddlewareOrder | src/HttpSimpleProxyWorker.js:125-128 | port middleware sits between the configuration middleware and the router |
| Registry.NewWorker | src/HttpSimpleProxyWorker.js:310-330 | a new worker has empty registries and no servers |
| Registry.Fingerprint | src/HttpSimpleProxyWorker.js:157 | the fingerprint is a serialised object, and `"{}"` when there is no TLS configuration |
| Registry.ServerForPortConfig | src/HttpSimpleProxyWorker.js:149-181 | an `undefined` port configuration throws when its `ssl` is read, before the cache is consulted, and changes nothing; otherwise reuses the cached server exactly when the fingerprint matches, and else a fresh HTTPS or HTTP server (by `ssl` truthiness) replaces the cache entry; a throwing constructor leaves the cache alone |
| Registry.ObtainListener | src/HttpSimpleProxyWorker.js:27-53 | a registered key is found without creating a socket, even one still binding; a new key is registered before `listen` and stays registered whether its bind is under way or `listen` threw |
| Registry.AttachForwarder | src/HttpSimpleProxyWorker.js:228-238 | the listener keeps its identity and ends with exactly one connection observer; no other listener changes |
| Registry.ObtainTwiceFindsFirst | src/HttpSimpleProxyWorker.js:31-32 | asking again for a freshly bound key returns that same listener and changes nothing |
| Registry.ServerTwiceReuses | src/HttpSimpleProxyWorker.js:159-165 | asking again with the same TLS configuration reuses the server just built |
| JsValues.SetProp | src/HttpSimpleProxyWorker.js:270 | after `errors[spec] = err`, `spec` reads `err` and every other name reads what it did before |
| Worker.SyncTask | src/HttpSimpleProxyWorker.js:254-264 | the synchronous part of one port task: an unmatched specification never calls back, a `null` port configuration throws, a matched one goes on to `BindPort` (properties: `Worker.PortTaskStarts`) |
| Worker.BindPort | src/HttpSimpleProxyWorker.js:186-197 | obtains the application server, stripping the one cached under the key; an `undefined` port configuration (which throws at line 157) or a throwing constructor ends the task with that error (properties: `Worker.PortTaskStarts`) |
| Worker.ConnectListener | src/HttpSimpleProxyWorker.js:183-240 | a found listener is stripped, gets the forwarder and the task calls back with its server at once; a new listener leaves the task awaiting its bind; a throwing `listen` calls back with the error (properties: `Worker.PortTaskStarts`) |
| Worker.SyncPass | src/HttpSimpleProxyWorker.js:254-280 | the synchronous part of every port task, in port order (properties: `Worker.SyncPassThrowsIff`) |
| Worker.PortTaskStarts | src/HttpSimpleProxyWorker.js:149-240 | one task's synchronous part adds exactly its own task: silent exactly when unmatched; awaiting only its own key with both hooks; an error only from an `undefined` port configuration (whose task then reports the `TypeError` and changes nothing else), the constructor or `listen`; an earlier task awaiting the key a later one reaches the cache under loses its server hook, and no other earlier task changes |
| Worker.SyncPassThrowsIff | src/HttpSimpleProxyWorker.js:254-264 | the synchronous pass throws exactly when a matched port entry has a `null` configuration |
| Worker.Fate | src/HttpSimpleProxyWorker.js:199-212 | a settled task is no longer awaiting and keeps its specification; a task that already called back or never will is unchanged |
| Worker.SettleAt | src/HttpSimpleProxyWorker.js:36-48 | the end of one task's bind keeps one task per port (properties: `Worker.BindErrorReachesTaskIff`, `Worker.BindSuccessServesIff`) |
| Worker.SettleFromFates | src/HttpSimpleProxyWorker.js:199-239 | ending the binds throws exactly when some task's fate is to throw; otherwise every later task has met its fate and the earlier ones are untouched |
| Worker.BindErrorReachesTaskIff | src/HttpSimpleProxyWorker.js:36-48 | a failed bind reaches its task exactly when the listener hook is in place and the server did not fail early; the task then reports the error with no server and the key is unregistered |
| Worker.BindSuccessServesIff | src/HttpSimpleProxyWorker.js:199-239 | a successful bind calls back with the server exactly when both hooks are in place or the server failed early (with that error); otherwise the task never calls back |
| Worker.HandleConfig | src/HttpSimpleProxyWorker.js:242-296 | starts every task, lets the binds end, and once every task called back keeps the servers and passes `null` or the errors object (properties: `Worker.LoadReportsEveryPort`) |
| Worker.ErrorsObjectEmptyIff | src/HttpSimpleProxyWorker.js:290-294 | the errors object is empty exactly when no callback carried an error |
| Worker.ErrorsObjectNamesOnly | src/HttpSimpleProxyWorker.js:270 | the errors object has no property but the specifications of the callbacks |
| Worker.ErrorsObjectLookup | src/HttpSimpleProxyWorker.js:270 | with distinct specifications, each one reads exactly the error its callback carried |
| Worker.LoadConfig | src/HttpSimpleProxyWorker.js:346-412 | unbind, handle the configuration, then collect idle listeners and report (properties: `Worker.LoadKeepsExactlyObtainedListeners`, `Worker.CleanLoadBindsEveryPort`) |
| Worker.Servers | src/HttpSimpleProxyWorker.js:287-289 | the active servers are exactly the servers the callbacks returned |
| Worker.UnbindAll | src/HttpSimpleProxyWorker.js:298-308 | every active server is unreferenced and forgotten; every listener loses its observers but stays registered |
| Worker.GcServers | src/HttpSimpleProxyWorker.js:414-433 | exactly the listeners without a connection observer are closed, together with their cached servers; everything else is untouched |
| Worker.LoadKeepsExactlyObtainedListeners | src/HttpSimpleProxyWorker.js:406-411 | after a load, the registry holds exactly the keys whose port obtained its listener, each with one forwarder and a cached server; a key kept across the load keeps the same socket |
| Worker.LoadReplacesServerIffFingerprintChanged | src/HttpSimpleProxyWorker.js:157-179 | a port that ends up listening keeps its old application server exactly when its TLS fingerprint is unchanged, and the cache records the new fingerprint |
| Worker.LoadReportsEveryPort | src/HttpSimpleProxyWorker.js:281-295 | one callback per port, in port order; the result is `null` exactly when no callback failed; `errors` names only port specifications and holds each failed port's error |
| Worker.UnmatchedPortStalls | src/HttpSimpleProxyWorker.js:254-280 | a specification without a digit is never called back, so the load never completes |
| Worker.LoadStallsIffUnmatchedPort | src/HttpSimpleProxyWorker.js:254-280 | for ports that bind distinct keys, a load that does not throw stalls (never collecting and never reporting) exactly when some specification has no digit |
| Worker.SharedFreshKeyStalls | src/HttpSimpleProxyWorker.js:159-228 | two specifications with defined configurations that bind one key that was not listening, the first of which reaches `listen` without error, keep the load from completing: the second strips the first task's server and listener handlers |
| Worker.FreshDuplicatePortStalls | src/HttpSimpleProxyWorker.js:254-280 | concrete case: a fresh worker given ports `80` and `0080` never completes its load, although every bind succeeds |
| Worker.CleanLoadBindsEveryPort | src/HttpSimpleProxyWorker.js:346-412 | when every specification matches, every port configuration is neither `null` nor `undefined`, and the environment lets every port through, the load never throws; it completes exactly when every key two ports share was listening before, and then reports no error and listens on exactly the configuration's keys |
| Worker.ReloadRoundTripRestoresPorts | src/HttpSimpleProxyWorker.js:406-411 | reloading from C1 to C2 and back to C1 binds the same ports as the first load of C1, when no load meets a shared key that is not yet listening |
| Worker.EmptyLoadClosesEverything | src/HttpSimpleProxyWorker.js:418-428 | a configuration without ports closes every listener |
| Worker.EarlyErrorStillServes | src/HttpSimpleProxyWorker.js:205-209 | a server that errs before its new listener is bound still serves; the error is recorded as well |
| Worker.FailedBindAfterEarlyErrorThrows | src/HttpSimpleProxyWorker.js:205-209 | an early server error followed by a failed bind calls back twice, and an early error after the server hook was stripped has no listener; either way the worker throws |
| Worker.SinglePortBindFails | src/HttpSimpleProxyWorker.js:264-271 | a one-port configuration whose bind fails still loads, and reports exactly that error |
| SessionStore.Base64 | src/HttpSimpleProxyWorker.js:317 | the key is four alphabet-or-`=` characters per started group of three bytes |
| SessionStore.Base64RoundTrip | src/HttpSimpleProxyWorker.js:321 | decoding the key gives back the session id |
| SessionStore.Base64Injective | src/HttpSimpleProxyWorker.js:321-322 | distinct session ids never share a slot |
| SessionStore.StoreSet | src/HttpSimpleProxyWorker.js:320-326 | `set` adds the id's slot to the store |
| SessionStore.StoreGet | src/HttpSimpleProxyWorker.js:316-319 | an id that was never stored reads `undefined` |
| SessionStore.SetThenGet | src/HttpSimpleProxyWorker.js:316-322 | `get` after `set` returns the data stored |
| SessionStore.SetLeavesOthers | src/HttpSimpleProxyWorker.js:320-322 | storing one id leaves every other id's data unchanged |
| SessionStore.LastWriteWins | src/HttpSimpleProxyWorker.js:322 | a second `set` of one id overrides the first |
| SessionStore.NeverEvicts | src/HttpSimpleProxyWorker.js:323 | a stored session survives any sequence of writes to other ids |
| SessionStore.ObjectRead | src/HttpSimpleProxyWorker.js:314 | reading a plain object returns the own property's value, else the `Object.prototype` member of that name, else nothing |
| SessionStore.StoreGetAsWritten | src/HttpSimpleProxyWorker.js:318 | where the as-written read finds an own property or nothing, it agrees with the intended `get` |
| SessionStore.UnknownIdReadsPrototype | src/HttpSimpleProxyWorker.js:318 | the never-stored id `[182,132,173,174,41,224]` reads `Object.prototype.toString` |
| SessionStore.AsWrittenAgreesOffPrototype | src/HttpSimpleProxyWorker.js:318 | when the key is not an inherited name, the as-written read is the intended one |
| SessionStore.OnlyTwoNamesReachable | src/HttpSimpleProxyWorker.js:314-318 | only `toString` and `propertyIsEnumerable` can be reached through a Base64 key |
| Handshake.Step | src/HttpSimpleProxy.js:222-228 | the new configuration is sent only in answer to the first `unbindFinished` |
| Handshake.Run | src/HttpSimpleProxy.js:222-229 | one worker's handshake after the messages it sent: its phase and everything the master sent it (properties: `Handshake.RunPhase`) |
| Handshake.RunPhase | src/HttpSimpleProxy.js:222-229 | a worker's handshake phase and the messages sent to it, given everything it has sent |
| Handshake.FinishedIffConfirmedThenStarted | src/HttpSimpleProxy.js:222-226 | a worker is done exactly when it confirmed the unbind and later reported `started` |
| Handshake.ReloadOnlyAfterConfirmation | src/HttpSimpleProxy.js:222-229 | `unbind` is sent first; the configuration is sent at most once, and exactly when the unbind was confirmed |
| Handshake.LiveIds | src/HttpSimpleProxy.js:217-219 | the handshake covers exactly the workers in live slots |
| Handshake.Fleet | src/HttpSimpleProxy.js:217-231 | messages go only to the given workers; only they can be pending |
| Handshake.FleetFinishedIff | src/HttpSimpleProxy.js:232-238 | the fleet reload completes exactly when every worker finished its handshake |
| Handshake.FleetContactsEveryLiveSlot | src/HttpSimpleProxy.js:217-231 | only live slots are contacted, and each of them is sent `unbind` |
| Master.ExitsOnError | src/HttpSimpleProxy.js:12-17 | `exitIfEACCES`'s test on a value (properties: `Master.ExitsOnNodeError`) |
| Master.ExitsOnNodeError | src/HttpSimpleProxy.js:12-17 | the check exits exactly for an `EACCES` failure of `bind` |
| Master.OnWorkerException | src/HttpSimpleProxy.js:80-82 | a worker exception either ends the master or changes nothing |
| Master.WorkerExceptionExitsIff | src/HttpSimpleProxy.js:80-82 | the master ends exactly for a worker exception that is an `EACCES` failure of `bind` |
| Master.NewMaster | src/HttpSimpleProxy.js:19-35 | a new master's slot table is well formed |
| Master.SetSlot | src/HttpSimpleProxy.js:43 | assigning past the end grows the table with holes; no other slot changes |
| Master.OnWorkerExit | src/HttpSimpleProxy.js:38-47 | with restarts on, the dead worker's slot is emptied and one replacement is forked and sent `start` with the current configuration and token; with restarts off, nothing happens |
| Master.OnReplacementStarted | src/HttpSimpleProxy.js:44-47 | the replacement takes its own slot, and the table stays well formed |
| Master.CrashReplacesWorker | src/HttpSimpleProxy.js:38-48 | a crash and the replacement's start swap exactly the dead worker for the new one among the live workers |
| Master.OnSessionSet | src/HttpSimpleProxy.js:84-89 | `tlsSession:set` overwrites the record of that id and leaves the others |
| Master.OnSessionGet | src/HttpSimpleProxy.js:91-97 | `tlsSession:get` throws exactly for a stored id or an inherited name; otherwise it replies `''` |
| Master.BridgeNeverServesStoredData | src/HttpSimpleProxy.js:91-97 | as written, a stored session is never handed back |
| Master.OnSessionGetIntended | src/HttpSimpleProxy.js:91-97 | the intended handler sends exactly one reply, to the asking worker, and `''` for an unknown id |
| Master.BridgeRoundTrip | src/HttpSimpleProxy.js:84-97 | with the intended handler, `get` after `set` replies with the stored data |
| Master.FirstError | src/HttpSimpleProxy.js:288-291 | `async.times` ends with the first truthy `started` payload, and with none exactly when all are falsy |
| Master.Init | src/HttpSimpleProxy.js:248-307 | `init`: throws on a `null` or `undefined` port configuration read by `preprocessConfig`, and on a configuration that is not an object, where `setupDi` fails; otherwise one in-process worker or `workerCount` forks, and the result from the `started` payloads (properties: `Master.InitThrowsIff`, `Master.InitModes`, `Master.InitForkedResult`) |
| Master.InitThrowsIff | src/HttpSimpleProxy.js:113-174 | `init` throws exactly when the configuration is not an object (the `Object.keys` call at line 170), one of its port configurations, matched or not, is `null` or `undefined`, or the in-process worker's load throws; it never ends the process |
| Master.InitModes | src/HttpSimpleProxy.js:257-303 | an in-process worker exactly when `workerCount` is falsy; otherwise exactly `n` forks with consecutive ids, stored in slot order and each sent `start` |
| Master.InitKeepsSlotsWellFormed | src/HttpSimpleProxy.js:297 | forking keeps the slot table well formed |
| Master.InitForkedResult | src/HttpSimpleProxy.js:298-303 | `initDone` runs once every worker started or one reported an error, and the first error wins |
| Master.ErrValue | src/HttpSimpleProxyWorker.js:290-294 | the load result is truthy exactly when there were errors |
| Master.ChangedWorkerCountRejected | src/HttpSimpleProxy.js:189-202 | a changed `workerCount` contacts no worker, reports an error and asks for a restart; the master keeps its workers and changes only its stored configuration |
| Master.RejectedConfigReachesReplacement | src/HttpSimpleProxy.js:189 | after a rejected reload, a crash is replaced with the rejected configuration |
| Master.Reload | src/HttpSimpleProxy.js:184-244 | `reload`: throw on a `null` or `undefined` port configuration, or on a configuration that is not an object (`setupDi`, before the gate), store the configuration, gate on `workerCount`, then the in-process reload as written or the fleet handshake (properties: `Master.ReloadThrowsIff`, `Master.ChangedWorkerCountRejected`, `Master.WorkerCountGate`, `Master.SingleReloadEvents`, `Master.ForkedReload`) |
| Master.ReloadThrowsIff | src/HttpSimpleProxy.js:113-174 | `reload` throws exactly when the configuration is not an object (the `Object.keys` call at line 170), one of its port configurations, matched or not, is `null` or `undefined`, or, with an unchanged `workerCount`, the in-process worker's load throws |
| Master.NullPortConfigThrows | src/HttpSimpleProxy.js:113 | concrete case: ports `{"abc": null}`, a specification no worker would bind, make both `init` and `reload` throw |
| Master.PrimitiveConfigThrows | src/HttpSimpleProxy.js:168-170 | concrete case: the configuration `true` makes `setupDi` throw in both `init` and `reload` |
| Master.WorkerCountGate | src/HttpSimpleProxy.js:194-229 | a live forked worker is sent `unbind` exactly when the new `workerCount` is strictly equal to the stored one |
| Master.SingleReloadAsWritten | src/HttpSimpleProxy.js:204-215 | the in-process reload as written, with `exitIfEACCES` on the whole errors object (properties: `Master.AsWrittenNeverExits`) |
| Master.SingleReload | src/HttpSimpleProxy.js:204-215 | the corrected in-process reload, with `exitIfEACCES` on each port's error (properties: `Master.SingleReloadExitsIff`) |
| Master.SingleReloadEvents | src/HttpSimpleProxy.js:204-215 | a `reload` of the in-process worker whose load completes never ends the process; it emits `allWorkersReloaded` twice on success, and `error` plus one `allWorkersReloaded` on failure, and passes the worker's result on |
| Master.ErrorsObjectNeverExits | src/HttpSimpleProxy.js:206 | the errors object of a load never satisfies `exitIfEACCES` |
| Master.AsWrittenNeverExits | src/HttpSimpleProxy.js:206 | as written, the in-process reload never ends the process |
| Master.SingleReloadExitsIff | src/HttpSimpleProxy.js:204-206 | the corrected in-process reload ends the process exactly when some port failed to bind with `EACCES` |
| Master.EaccesIgnoredAsWritten | src/HttpSimpleProxy.js:206 | a port refused with `EACCES` keeps the process alive as written, and ends it when corrected |
| Master.EaccesOnPort80 | src/HttpSimpleProxy.js:206 | concrete case: port 80 refused with `EACCES` during an in-process reload |
| Master.ForkedReload | src/HttpSimpleProxy.js:217-239 | only live workers are contacted, and all of them get `unbind`; the reload completes with `null` exactly when every live worker confirmed and then started |

## Left out

- The dependency-injection container, module loading (`setupDi`, `config.modules`), the service and middleware resolvers, and their error logging. These are foreign code; a module that fails to load is only logged. The one throw of `setupDi` that does not depend on a module, `Object.keys` on a configuration that is not an object, is modelled (`Master.IsObject`).
- Reading `ssl.key`/`cert`/`ca` from disk (`preprocessConfig`), `patchSslConfig`, OCSP, and `disableTlsClientRenegotiation`. These are file I/O and TLS library settings.
- The request, error, reject and upgrade handlers, and the routing engine (`entryParser`). The routing engine is a collaborator; the model stops at the pipeline it is given.
- `createHandlers` writes the pipeline back into `portConfig.router`. The model returns the pipeline instead.
- The cluster transport: `fork`, `JSONfn` serialisation, re-emission on the process bus, `logNotice`/`logError`, `masterLoadService`. The fork's answers are inputs.
- Token generation and the busy wait for the token. The token is a parameter.
- Concurrency. The synchronous parts of the port tasks run in port order, as `async.parallel` starts them. The binds left under way then end in port order; other orders of the operating system's events are not modelled. Messages from workers are given per worker.
- The order of the errors object's properties. The model adds them in port order; the code adds them in the order the callbacks arrive. Lookups do not depend on it.
- Handler stripping is modelled by registry key, not by object identity. A later task strips the handlers of the server cached under its key at that moment, and of the listener registered under its key.
- Timing between workers and timing within the async library.
- Floating-point numbers, and non-numeric `workerCount` values. Numbers are integers, and a non-number counts as zero forks.
- `close` on application servers, and the worker's `reload` event emitter. These are side effects without state the core reads back. The `removeAllListeners` calls at src/HttpSimpleProxyWorker.js:162 and 228 are modelled, through the hooks of a task awaiting its bind.
- Listeners of the master's events. The master's emitter is `eventemitter3` (src/HttpSimpleProxy.js:3 and 102), which drops an `error` event nobody listens to instead of throwing, so `restartIfPossible`, the second `allWorkersReloaded` and `reloadDone` always follow the `error` event. The model records the events emitted, not who hears them.
- A user-supplied `config.tlsSessionStore`, which replaces the default store.
- In the master, `tlsSession:set` with the id `__proto__` changes the store's prototype. This is not modelled.
- The single-worker `init` calls `initDone(err)` without checking that a callback was given. The model assumes a caller always passes one.
- Worker.LoadReplacesServerIffFingerprintChanged: stated only for configurations whose ports bind distinct keys. When two specifications share a key (such as `"0080"` and `"80"`), both tasks consult and may replace the cached server, and the lemma does not say which one decides.
- Worker.LoadStallsIffUnmatchedPort: stated only for configurations whose ports bind distinct keys. A key shared by two specifications also stalls a load when it was not listening before (`Worker.SharedFreshKeyStalls`).
- Worker.CleanLoadBindsEveryPort: the iff is stated for environments that let every port through. With errors, the outcome depends on which task meets them; `Worker.SharedFreshKeyStalls` and the per-bind lemmas cover those cases.
- Worker.ReloadRoundTripRestoresPorts: stated only when no load meets a shared key that is not yet listening, because such a load never completes.
- Worker.LoadReportsEveryPort: the contents of `errors` are stated per port only when the specifications are distinct, as the keys of a JavaScript object always are.
- Master.InitForkedResult: stated for at most `workerCount` `started` replies. Later replies are ignored.
- The `reload` event, which `reload` emits before `preprocessConfig` runs (src/HttpSimpleProxy.js:186). When `preprocessConfig` throws, the model reports only that `reload` threw.
- PortSpec.Parse: `parseInt` precision loss above 2^53 is not modelled.

## Findings

| source | as written | input that shows it | evidently intended | confidence | as-written member | corrected member |
|---|---|---|---|---|---|---|
| src/HttpSimpleProxy.js:206 | `exitIfEACCES` is applied to the errors object from `loadConfig`. That object's properties are port specifications, so it never has `syscall` or `code` | in-process proxy (`workerCount` 0) reloaded with ports `{"80": "http://localhost:8080"}` while binding port 80 fails with `EACCES` from `bind` | exit when any port's own error is an `EACCES` failure of `bind` | not executed | Master.EaccesOnPort80 | Master.SingleReloadExitsIff |
| src/HttpSimpleProxyWorker.js:318 | the default session store reads `store[base64(id)]` on a plain `{}` | `get` of the never-stored 6-byte id `[182,132,173,174,41,224]`, whose Base64 form is `"toString"` | `undefined` for a session id that was never stored | not executed | SessionStore.UnknownIdReadsPrototype | SessionStore.StoreGet |
| src/HttpSimpleProxy.js:92-94 | `data` is declared `const` and then assigned, so every hit throws a `TypeError` | `tlsSession:get` of any id earlier stored by `tlsSession:set` | reply with the stored session data | not executed | Master.BridgeNeverServesStoredData | Master.BridgeRoundTrip |

In Dafny:

- Finding 1: `Master.SingleReloadAsWritten` is the code as written, and `Master.Reload` uses it. `Master.SingleReload` is the corrected definition; `Master.SingleReloadExitsIff` is proved about it.
- Finding 2: `SessionStore.StoreGetAsWritten` is the code as written. `SessionStore.StoreGet` is the corrected definition; `SessionStore.SetThenGet` and `SessionStore.NeverEvicts` are proved about it.
- Finding 3: `Master.OnSessionGet` is the code as written. `Master.OnSessionGetIntended` is the corrected definition.

=== FILE: handshake.dfy ===
/** The master's two-phase reload of forked workers: each live worker is
    told to unbind, is sent the new configuration once it confirms, and is
    done when it reports `started`. Each worker's handshake is an
    independent linear protocol over the messages it sends back. */
module Handshake {
  import opened JsValues

  /** Messages the master sends a worker. */
  datatype ToWorker =
    | Start(config: JsValue, token: JsValue)
    | Unbind
    | Reload(config: JsValue)
    | Reply(kind: string, data: JsValue)

  /** Messages a worker sends the master, as far as the handshake listens. */
  datatype FromWorker = UnbindFinished | Started(payload: JsValue) | OtherMessage(kind: string)

  datatype Phase = AwaitingUnbind | AwaitingStarted | Finished

  /** One incoming message. `unbindFinished` is awaited once; only then is
      `started` awaited, once; everything else is ignored. */
  function Step(ph: Phase, msg: FromWorker, config: JsValue): (r: (Phase, seq<ToWorker>))
    ensures r.1 != [] ==> ph == AwaitingUnbind && msg == UnbindFinished && r.1 == [Reload(config)]
  {
    match (ph, msg)
    case (AwaitingUnbind, UnbindFinished) => (AwaitingStarted, [Reload(config)])
    case (AwaitingStarted, Started(_)) => (Finished, [])
    case _ => (ph, [])
  }

  /** The handshake with one worker after it has sent `msgs`: its phase and
      everything the master sent it, starting with `unbind`. */
  function Run(msgs: seq<FromWorker>, config: JsValue): (r: (Phase, seq<ToWorker>))
    decreases |msgs|
  {
    if msgs == [] then (AwaitingUnbind, [Unbind])
    else
      var (ph, sent) := Run(msgs[..|msgs| - 1], config);
      var (ph2, more) := Step(ph, msgs[|msgs| - 1], config);
      (ph2, sent + more)
  }

  predicate Confirmed(msgs: seq<FromWorker>) {
    exists i :: 0 <= i < |msgs| && msgs[i] == UnbindFinished
  }

  /** Some `started` arrives after some `unbindFinished`. */
  predicate ConfirmedThenStarted(msgs: seq<FromWorker>) {
    exists i, j :: 0 <= i < j < |msgs| && msgs[i] == UnbindFinished && msgs[j].Started?
  }

  lemma {:induction false} RunPhase(msgs: seq<FromWorker>, config: JsValue)
    ensures Run(msgs, config).0 ==
      if ConfirmedThenStarted(msgs) then Finished
      else if Confirmed(msgs) then AwaitingStarted
      else AwaitingUnbind
    ensures Run(msgs, config).1 == [Unbind] + if Confirmed(msgs) then [Reload(config)] else []
    decreases |msgs|
  {
    if msgs != [] {
      var prefix := msgs[..|msgs| - 1];
      var last := msgs[|msgs| - 1];
      RunPhase(prefix, config);
      assert forall i :: 0 <= i < |prefix| ==> msgs[i] == prefix[i];
      if ConfirmedThenStarted(prefix) {
        var i, j :| 0 <= i < j < |prefix| && prefix[i] == UnbindFinished && prefix[j].Started?;
        assert msgs[i] == UnbindFinished && msgs[j].Started?;
      }
      if Confirmed(prefix) {
        var i :| 0 <= i < |prefix| && prefix[i] == UnbindFinished;
        assert msgs[i] == UnbindFinished;
        if last.Started? {
          assert msgs[|msgs| - 1].Started?;
        }
      }
      if last == UnbindFinished {
        assert msgs[|msgs| - 1] == UnbindFinished;
      }
    }
  }

  /** A worker's handshake is done exactly when it confirmed the unbind and
      later reported `started`, whatever the payload. */
  lemma FinishedIffConfirmedThenStarted(msgs: seq<FromWorker>, config: JsValue)
    ensures Run(msgs, config).0 == Finished <==> ConfirmedThenStarted(msgs)
  {
    RunPhase(msgs, config);
  }

  /** The worker first gets `unbind`; it gets the new configuration at most
      once, and exactly when it confirmed the unbind. */
  lemma ReloadOnlyAfterConfirmation(msgs: seq<FromWorker>, config: JsValue)
    ensures var sent := Run(msgs, config).1;
      && 1 <= |sent| <= 2 && sent[0] == Unbind
      && (Reload(config) in sent <==> Confirmed(msgs))
  {
    RunPhase(msgs, config);
  }

  // ---------------------------------------------------------------------
  // The whole fleet

  /** The ids of the live slots, in slot order (a crashed worker leaves an
      empty slot). */
  function LiveIds(slots: seq<Option<nat>>): (ids: seq<nat>)
    ensures forall x :: x in ids <==> Some(x) in slots
    decreases |slots|
  {
    if slots == [] then []
    else
      var rest := LiveIds(slots[..|slots| - 1]);
      var last := slots[|slots| - 1];
      assert slots == slots[..|slots| - 1] + [last];
      rest + if last.Some? then [last.value] else []
  }

  datatype FleetState = FleetState(sent: seq<(nat, ToWorker)>, pending: set<nat>)

  /** The handshakes of the given workers after each sent `traces(id)`: all
      messages sent, tagged with their addressee, and the workers not yet done. */
  function Fleet(ids: seq<nat>, config: JsValue, traces: nat -> seq<FromWorker>): (r: FleetState)
    ensures forall k :: 0 <= k < |r.sent| ==> r.sent[k].0 in ids
    ensures r.pending <= set x | x in ids
    decreases |ids|
  {
    if ids == [] then FleetState([], {})
    else
      var rest := Fleet(ids[..|ids| - 1], config, traces);
      var id := ids[|ids| - 1];
      var (ph, sent) := Run(traces(id), config);
      assert forall x :: x in ids[..|ids| - 1] ==> x in ids;
      FleetState(rest.sent + seq(|sent|, k requires 0 <= k < |sent| => (id, sent[k])),
                 rest.pending + if ph == Finished then {} else {id})
  }

  /** The reload is over (`reloadDone` runs, with no error, and
      `allWorkersReloaded` is emitted) exactly when every live worker
      confirmed the unbind and then reported `started`. */
  lemma {:induction false} FleetFinishedIff(ids: seq<nat>, config: JsValue, traces: nat -> seq<FromWorker>)
    ensures Fleet(ids, config, traces).pending == {} <==> forall x :: x in ids ==> ConfirmedThenStarted(traces(x))
    decreases |ids|
  {
    if ids != [] {
      var prefix := ids[..|ids| - 1];
      var id := ids[|ids| - 1];
      FleetFinishedIff(prefix, config, traces);
      FinishedIffConfirmedThenStarted(traces(id), config);
      assert forall x :: x in ids <==> x in prefix || x == id by {
        assert ids == prefix + [id];
      }
    }
  }

  /** Only live slots are contacted, and each of them gets `unbind`. */
  lemma {:induction false} FleetContactsEveryLiveSlot(slots: seq<Option<nat>>, config: JsValue, traces: nat -> seq<FromWorker>)
    ensures var r := Fleet(LiveIds(slots), config, traces);
      && (forall k :: 0 <= k < |r.sent| ==> Some(r.sent[k].0) in slots)
      && (forall x :: Some(x) in slots ==> (x, Unbind) in r.sent)
  {
    UnbindSentToAll(LiveIds(slots), config, traces);
  }

  lemma {:induction false} UnbindSentToAll(ids: seq<nat>, config: JsValue, traces: nat -> seq<FromWorker>)
    ensures forall x :: x in ids ==> (x, Unbind) in Fleet(ids, config, traces).sent
    decreases |ids|
  {
    if ids != [] {
      var prefix := ids[..|ids| - 1];
      var id := ids[|ids| - 1];
      UnbindSentToAll(prefix, config, traces);
      RunPhase(traces(id), config);
      var r := Fleet(ids, config, traces);
      var rest := Fleet(prefix, config, traces);
      assert r.sent[|rest.sent|] == (id, Unbind);
      forall x | x in ids ensures (x, Unbind) in r.sent {
        if x != id {
          assert x in prefix by { assert ids == prefix + [id]; }
          assert r.sent[..|rest.sent|] == rest.sent;
        }
      }
    }
  }
}

=== FILE: js_values.dfy ===
/** The JavaScript values the proxy's configuration, messages and errors are
    made of, and the few language operations the core applies to them:
    truthiness, property lookup, `Object.keys`, `[].concat`, strict equality,
    `extend({}, x)` and `JSON.stringify`. */
module JsValues {

  /** A JSON-like JavaScript value. An object keeps its own enumerable
      properties in enumeration order (names are distinct in a real object;
      lookup takes the first). Numbers are integers: floating point is not
      modelled. */
  datatype JsValue =
    | JUndefined
    | JNull
    | JBool(b: bool)
    | JNum(n: int)
    | JStr(s: string)
    | JArr(elems: seq<JsValue>)
    | JObj(props: seq<Prop>)

  datatype Prop = Prop(name: string, value: JsValue)

  predicate IsNullish(v: JsValue) {
    v.JUndefined? || v.JNull?
  }

  /** JavaScript truthiness: `undefined`, `null`, `false`, `0` and `""` are falsy. */
  predicate Truthy(v: JsValue) {
    match v
    case JUndefined => false
    case JNull => false
    case JBool(b) => b
    case JNum(n) => n != 0
    case JStr(s) => s != []
    case _ => true
  }

  /** The properties every plain object inherits from `Object.prototype`:
      `obj[name]` reads one of these (a function, or the prototype itself)
      when `obj` has no own property `name`. */
  const ObjectPrototypeNames: set<string> := {
    "constructor", "__defineGetter__", "__defineSetter__", "hasOwnProperty",
    "__lookupGetter__", "__lookupSetter__", "isPrototypeOf", "propertyIsEnumerable",
    "toString", "valueOf", "__proto__", "toLocaleString"}

  /** `v || fallback` */
  function Or(v: JsValue, fallback: JsValue): JsValue {
    if Truthy(v) then v else fallback
  }

  /** The first property called `name`, or `undefined`. */
  function Lookup(props: seq<Prop>, name: string): JsValue
  {
    if props == [] then JUndefined
    else if props[0].name == name then props[0].value
    else Lookup(props[1..], name)
  }

  /** `v.name` for a value that is not `null`/`undefined` (the caller decides
      what a nullish receiver does). Only own properties of objects are
      modelled; the properties the core reads (`ssl`, `router`, `middleware`,
      `ports`, `workerCount`, `syscall`, `code`) are undefined on primitives
      and arrays. */
  function Get(v: JsValue, name: string): JsValue {
    match v
    case JObj(props) => Lookup(props, name)
    case _ => JUndefined
  }

  /** `obj[name] = value` on an object's property list: overwrites in place,
      or appends a new property at the end of the enumeration order. */
  function SetProp(props: seq<Prop>, name: string, value: JsValue): (r: seq<Prop>)
    ensures Lookup(r, name) == value
    ensures forall other :: other != name ==> Lookup(r, other) == Lookup(props, other)
    ensures |r| == |props| || |r| == |props| + 1
  {
    if props == [] then [Prop(name, value)]
    else if props[0].name == name then [Prop(name, value)] + props[1..]
    else [props[0]] + SetProp(props[1..], name, value)
  }

  /** Decimal rendering of a natural number, as `String(n)` writes it. */
  function DecimalString(n: nat): (r: string)
    ensures r != []
    ensures forall i :: 0 <= i < |r| ==> '0' <= r[i] <= '9'
  {
    if n < 10 then [DigitChar(n)] else DecimalString(n / 10) + [DigitChar(n % 10)]
  }

  function DigitChar(d: nat): (c: char)
    requires d < 10
    ensures '0' <= c <= '9'
  {
    ['0', '1', '2', '3', '4', '5', '6', '7', '8', '9'][d]
  }

  /** `String(n)` for an integer. */
  function NumberString(n: int): string {
    if n < 0 then "-" + DecimalString(-n) else DecimalString(n)
  }

  /** `Object.keys(v)` paired with the values, for a non-nullish `v`:
      an object's own properties, an array's or a string's indices. */
  function OwnEntries(v: JsValue): (r: seq<Prop>)
    ensures v.JObj? ==> r == v.props
    ensures v.JArr? ==> |r| == |v.elems|
    ensures v.JStr? ==> |r| == |v.s|
    ensures !(v.JObj? || v.JArr? || v.JStr?) ==> r == []
  {
    match v
    case JObj(props) => props
    case JArr(elems) => seq(|elems|, i requires 0 <= i < |elems| => Prop(DecimalString(i), elems[i]))
    case JStr(s) => seq(|s|, i requires 0 <= i < |s| => Prop(DecimalString(i), JStr([s[i]])))
    case _ => []
  }

  /** The elements `[].concat(v)` contributes: an array is spread, anything
      else is appended as one element. */
  function Spread(v: JsValue): seq<JsValue> {
    if v.JArr? then v.elems else [v]
  }

  /** `a === b`. Objects and arrays compare by reference; every configuration
      arrives as a freshly parsed object, so two of them are never identical. */
  predicate StrictEquals(a: JsValue, b: JsValue) {
    match (a, b)
    case (JUndefined, JUndefined) => true
    case (JNull, JNull) => true
    case (JBool(x), JBool(y)) => x == y
    case (JNum(x), JNum(y)) => x == y
    case (JStr(x), JStr(y)) => x == y
    case _ => false
  }

  /** `extend({}, v)`: a shallow copy of the enumerable properties of `v` into
      a new object, skipping `undefined` values; `null`/`undefined` and other
      primitives contribute nothing, arrays and strings their indices. */
  function ShallowCopy(v: JsValue): (r: JsValue)
    ensures r.JObj?
    ensures forall i :: 0 <= i < |r.props| ==> !r.props[i].value.JUndefined?
  {
    var entries := if v.JObj? || v.JArr? || v.JStr? then OwnEntries(v) else [];
    JObj(DefinedOnly(entries))
  }

  function DefinedOnly(props: seq<Prop>): (r: seq<Prop>)
    ensures forall i :: 0 <= i < |r| ==> !r[i].value.JUndefined?
    ensures forall i :: 0 <= i < |r| ==> r[i] in props
  {
    if props == [] then []
    else if props[0].value.JUndefined? then DefinedOnly(props[1..])
    else [props[0]] + DefinedOnly(props[1..])
  }

  /** `JSON.stringify(v)`: `None` where JSON.stringify returns `undefined`
      (for `undefined` itself). Object properties whose value serialises to
      nothing are omitted; such array elements become `null`. */
  function Stringify(v: JsValue): (r: Option<string>)
    ensures r.None? <==> v.JUndefined?
    decreases v
  {
    match v
    case JUndefined => None
    case JNull => Some("null")
    case JBool(b) => Some(if b then "true" else "false")
    case JNum(n) => Some(NumberString(n))
    case JStr(s) => Some(Quote(s))
    case JArr(elems) =>
      var parts := seq(|elems|, i requires 0 <= i < |elems| =>
        match Stringify(elems[i]) case Some(t) => t case None => "null");
      Some("[" + Join(parts) + "]")
    case JObj(props) =>
      var parts := seq(|props|, i requires 0 <= i < |props| =>
        match Stringify(props[i].value)
        case Some(t) => [Quote(props[i].name) + ":" + t]
        case None => []);
      Some("{" + Join(Flatten(parts)) + "}")
  }

  datatype Option<T> = None | Some(value: T)

  /** A Node.js system error as far as the core inspects it: its `code`
      (`"EACCES"`, `"EADDRINUSE"`, ...) and the `syscall` that failed. */
  datatype NodeError = NodeError(code: Option<string>, syscall: Option<string>)

  /** The error object itself: an object carrying the fields that are set. */
  function ErrorValue(e: NodeError): (v: JsValue)
    ensures Truthy(v)
  {
    JObj((if e.code.Some? then [Prop("code", JStr(e.code.value))] else [])
      + (if e.syscall.Some? then [Prop("syscall", JStr(e.syscall.value))] else []))
  }

  function Flatten<T>(xss: seq<seq<T>>): seq<T> {
    if xss == [] then [] else xss[0] + Flatten(xss[1..])
  }

  /** The parts separated by commas. */
  function Join(parts: seq<string>): string {
    if parts == [] then ""
    else if |parts| == 1 then parts[0]
    else parts[0] + "," + Join(parts[1..])
  }

  /** A JSON string literal: quotes, backslashes and control characters escaped. */
  function Quote(s: string): string {
    "\"" + Flatten(seq(|s|, i requires 0 <= i < |s| => EscapeChar(s[i]))) + "\""
  }

  function EscapeChar(c: char): string {
    if c == '"' then "\\\""
    else if c == '\\' then "\\\\"
    else if c == '\U{8}' then "\\b"
    else if c == '\U{C}' then "\\f"
    else if c == '\n' then "\\n"
    else if c == '\r' then "\\r"
    else if c == '\t' then "\\t"
    else if (c as int) < 0x20 then "\\u00" + [HexChar((c as int) / 16), HexChar((c as int) % 16)]
    else [c]
  }

  function HexChar(d: nat): char
    requires d < 16
  {
    "0123456789abcdef"[d]
  }
}

=== FILE: master.dfy ===
/** The master process (`HttpSimpleProxy`): the table of forked workers and
    its crash replacement, the TLS session bridge, `init`'s choice between
    one in-process worker and forked workers, and `reload` with its
    `workerCount` gate. Processes are identities; what workers send back is
    an input. */
module Master {
  import opened JsValues
  import opened PortSpec
  import opened Registry
  import opened Worker
  import opened Handshake

  // ---------------------------------------------------------------------
  // exitIfEACCES

  /** `exitIfEACCES(err)`: the process exits for a permission error raised
      by `bind`. */
  predicate ExitsOnError(err: JsValue) {
    && Truthy(err)
    && StrictEquals(Get(err, "syscall"), JStr("bind"))
    && StrictEquals(Get(err, "code"), JStr("EACCES"))
  }

  lemma ErrorFields(e: NodeError)
    ensures Get(ErrorValue(e), "code") == if e.code.Some? then JStr(e.code.value) else JUndefined
    ensures Get(ErrorValue(e), "syscall") == if e.syscall.Some? then JStr(e.syscall.value) else JUndefined
  {
    var props := ErrorValue(e).props;
    if e.code.Some? && e.syscall.Some? {
      assert props == [Prop("code", JStr(e.code.value)), Prop("syscall", JStr(e.syscall.value))];
      assert props[0].name != "syscall" && props[1..] == [Prop("syscall", JStr(e.syscall.value))];
      assert Lookup(props, "syscall") == Lookup(props[1..], "syscall") == JStr(e.syscall.value);
    } else if e.code.Some? {
      assert props == [Prop("code", JStr(e.code.value))];
      assert props[0].name != "syscall" && props[1..] == [];
      assert Lookup(props, "syscall") == Lookup(props[1..], "syscall") == JUndefined;
    } else if e.syscall.Some? {
      assert props == [Prop("syscall", JStr(e.syscall.value))];
      assert props[0].name != "code" && props[1..] == [];
      assert Lookup(props, "code") == Lookup(props[1..], "code") == JUndefined;
    } else {
      assert props == [];
    }
  }

  /** For a Node.js error: exactly a `bind` that failed with `EACCES`. */
  lemma ExitsOnNodeError(e: NodeError)
    ensures ExitsOnError(ErrorValue(e)) <==> e.syscall == Some("bind") && e.code == Some("EACCES")
  {
    ErrorFields(e);
  }

  lemma SyscallNamesNoPort(entries: seq<Prop>)
    requires forall j :: 0 <= j < |entries| ==> !NoDigit(entries[j].name)
    ensures "syscall" !in Names(entries)
  {
    assert NoDigit("syscall");
  }

  /** The errors object of a load names port specifications only, and each
      of them contains a digit, so it never has a `syscall` property. */
  lemma ErrorsObjectNeverExits(st: WorkerState, config: JsValue, oracle: string -> PortOracle)
    requires LoadConfig(st, config, oracle).Loaded?
    requires LoadConfig(st, config, oracle).err.Some?
    ensures !ExitsOnError(JObj(LoadConfig(st, config, oracle).err.value))
  {
    LoadedSpecsHaveDigits(st, config, oracle);
    SyscallNamesNoPort(PortEntries(config));
    LoadedErrorsNameOnlyPorts(st, config, oracle, "syscall");
  }

  /** A worker's `exception` message: the master exits for a refused
      `bind` and otherwise carries on unchanged. */
  function OnWorkerException(m: MasterState, err: JsValue): (r: Outcome)
    ensures r.Exited? || r == Ran(Effect(m, [], [], NotCalled))
  {
    if ExitsOnError(err) then Exited else Ran(Effect(m, [], [], NotCalled))
  }

  /** The master ends exactly for a worker exception that is an `EACCES`
      failure of `bind`. */
  lemma WorkerExceptionExitsIff(m: MasterState, e: NodeError)
    ensures OnWorkerException(m, ErrorValue(e)).Exited? <==> e.syscall == Some("bind") && e.code == Some("EACCES")
  {
    ExitsOnNodeError(e);
  }

  // ---------------------------------------------------------------------
  // State

  datatype SessionRecord = SessionRecord(data: JsValue, created: int)

  /** Events the master emits. */
  datatype Event = ReloadBegun | AllWorkersStarted | AllWorkersReloaded | ErrorEvent(err: JsValue) | RestartIfPossible

  /** Whether a completion callback (`initDone`, `reloadDone`) ran, and with what. */
  datatype Done = NotCalled | CalledWith(err: JsValue)

  /** `workers` is the slot table: worker `id` lives in slot `id - 1`, a
      crashed worker leaves an empty slot. `nextWorkerId` is the id the
      next `cluster.fork()` returns. `single` is the in-process worker of
      `workerCount` 0. */
  datatype MasterState = MasterState(
    config: JsValue,
    workerCount: JsValue,
    single: Option<WorkerState>,
    slots: seq<Option<nat>>,
    nextWorkerId: nat,
    sessions: map<string, SessionRecord>,
    autoRestart: bool,
    token: JsValue)

  /** A new master: no workers, empty session bridge, automatic restarts on;
      cluster ids start at 1. */
  function NewMaster(): (m: MasterState)
    ensures SlotsWellFormed(m)
  {
    MasterState(JUndefined, JUndefined, None, [], 1, map[], true, JUndefined)
  }

  /** Slot `i` holds worker `i + 1` or nothing, and every id was handed out. */
  predicate SlotsWellFormed(m: MasterState) {
    && m.nextWorkerId >= 1
    && forall i :: 0 <= i < |m.slots| && m.slots[i].Some? ==> m.slots[i].value == i + 1 && i + 1 < m.nextWorkerId
  }

  /** What a handler did: the new state, the events emitted, the messages
      sent (to a worker id) and the completion callback. */
  datatype Effect = Effect(m: MasterState, events: seq<Event>, sent: seq<(nat, ToWorker)>, done: Done)

  /** A handler runs to its end, throws, or ends the process (`process.exit(1)`). */
  datatype Outcome = Ran(effect: Effect) | Threw | Exited

  // ---------------------------------------------------------------------
  // The slot table

  /** `workers[i] = v`: an index past the end grows the array, leaving holes. */
  function SetSlot(slots: seq<Option<nat>>, i: nat, v: Option<nat>): (r: seq<Option<nat>>)
    ensures |r| == if i < |slots| then |slots| else i + 1
    ensures r[i] == v
    ensures forall j :: 0 <= j < |r| && j != i ==> r[j] == if j < |slots| then slots[j] else None
  {
    if i < |slots| then slots[i := v]
    else slots + seq(i - |slots|, _ => None) + [v]
  }

  /** The cluster's `exit` handler: with automatic restarts on, the dead
      worker's slot is emptied and a replacement is forked and sent `start`
      with the current configuration and token. */
  function OnWorkerExit(m: MasterState, id: nat): (r: Effect)
    requires id >= 1
    ensures !m.autoRestart ==> r == Effect(m, [], [], NotCalled)
    ensures m.autoRestart ==>
      && |r.m.slots| >= |m.slots| && |r.m.slots| >= id
      && r.m.slots[id - 1].None?
      && (forall j :: 0 <= j < |m.slots| && j != id - 1 ==> r.m.slots[j] == m.slots[j])
      && r.sent == [(m.nextWorkerId, Start(m.config, m.token))]
      && m.nextWorkerId < r.m.nextWorkerId
    ensures SlotsWellFormed(m) ==> SlotsWellFormed(r.m)
  {
    if !m.autoRestart then Effect(m, [], [], NotCalled)
    else
      var newId := m.nextWorkerId;
      Effect(m.(slots := SetSlot(m.slots, id - 1, None), nextWorkerId := newId + 1),
             [], [(newId, Start(m.config, m.token))], NotCalled)
  }

  /** The replacement's `started`: it is stored in its own slot. */
  function OnReplacementStarted(m: MasterState, newId: nat): (r: MasterState)
    requires newId >= 1
    ensures |r.slots| >= |m.slots| && |r.slots| >= newId
    ensures r.slots[newId - 1] == Some(newId)
    ensures SlotsWellFormed(m) && newId < m.nextWorkerId ==> SlotsWellFormed(r)
  {
    m.(slots := SetSlot(m.slots, newId - 1, Some(newId)))
  }

  /** A crash followed by the replacement's start swaps the dead worker for
      the new one among the live workers; the table never shrinks. */
  lemma CrashReplacesWorker(m: MasterState, id: nat)
    requires SlotsWellFormed(m) && m.autoRestart
    requires 1 <= id <= |m.slots| && m.slots[id - 1] == Some(id)
    ensures var e := OnWorkerExit(m, id);
      var newId := m.nextWorkerId;
      var r := OnReplacementStarted(e.m, newId);
      && SlotsWellFormed(r)
      && |r.slots| >= |m.slots|
      && (forall x :: Some(x) in r.slots <==> (Some(x) in m.slots && x != id) || x == newId)
  {
    var e := OnWorkerExit(m, id);
    var newId := m.nextWorkerId;
    var r := OnReplacementStarted(e.m, newId);
    forall x ensures Some(x) in r.slots <==> (Some(x) in m.slots && x != id) || x == newId {
      if Some(x) in r.slots {
        var j :| 0 <= j < |r.slots| && r.slots[j] == Some(x);
        if j != newId - 1 {
          assert j != id - 1 && j < |m.slots| && m.slots[j] == Some(x);
        }
      }
      if Some(x) in m.slots && x != id {
        var j :| 0 <= j < |m.slots| && m.slots[j] == Some(x);
        assert j != newId - 1;
        assert r.slots[j] == Some(x);
      }
    }
  }

  // ---------------------------------------------------------------------
  // The session bridge

  /** `tlsSession:set`: the record for the id is overwritten. */
  function OnSessionSet(m: MasterState, id: string, data: JsValue, now: int): (r: MasterState)
    ensures r.sessions.Keys == m.sessions.Keys + {id}
    ensures r.sessions[id] == SessionRecord(data, now)
    ensures forall k :: k in m.sessions && k != id ==> r.sessions[k] == m.sessions[k]
    ensures r == m.(sessions := r.sessions)
  {
    m.(sessions := m.sessions[id := SessionRecord(data, now)])
  }

  /** `tlsSession:get` from worker `worker`: a miss replies `''` on
      `session:<id>`; a hit (an own record, or a member inherited from
      `Object.prototype`) reaches the assignment to a `const` and throws, so
      nothing is sent. */
  function OnSessionGet(m: MasterState, worker: nat, id: string): (r: Outcome)
    ensures r.Threw? <==> id in m.sessions || id in ObjectPrototypeNames
    ensures r.Ran? ==> r.effect == Effect(m, [], [(worker, Reply("session:" + id, JStr("")))], NotCalled)
  {
    if id in m.sessions || id in ObjectPrototypeNames then Threw
    else Ran(Effect(m, [], [(worker, Reply("session:" + id, JStr("")))], NotCalled))
  }

  /** The bridge never hands stored session data back: asking for a stored
      id throws, asking for any other id replies with the empty string. */
  lemma BridgeNeverServesStoredData(m: MasterState, worker: nat, id: string, data: JsValue, now: int, other: string)
    ensures OnSessionGet(OnSessionSet(m, id, data, now), worker, id).Threw?
    ensures var r := OnSessionGet(OnSessionSet(m, id, data, now), worker, other);
      r.Ran? ==> other != id && r.effect.sent[0].1.data == JStr("")
  {
  }

  /** `tlsSession:get` as evidently intended: a stored id is answered with
      its data, anything else with `''`. */
  function OnSessionGetIntended(m: MasterState, worker: nat, id: string): (r: Effect)
    ensures r.m == m && |r.sent| == 1 && r.sent[0].0 == worker
    ensures id !in m.sessions ==> r.sent[0].1 == Reply("session:" + id, JStr(""))
  {
    var data := if id in m.sessions then m.sessions[id].data else JStr("");
    Effect(m, [], [(worker, Reply("session:" + id, data))], NotCalled)
  }

  /** With the intended handler the bridge round-trips: what a worker stored
      under an id is what a worker asking for that id receives. */
  lemma BridgeRoundTrip(m: MasterState, worker: nat, id: string, data: JsValue, now: int)
    ensures OnSessionGetIntended(OnSessionSet(m, id, data, now), worker, id).sent
      == [(worker, Reply("session:" + id, data))]
  {
  }

  // ---------------------------------------------------------------------
  // init

  /** `config.workerCount || 0` */
  function WorkerCountOf(config: JsValue): JsValue {
    Or(Get(config, "workerCount"), JNum(0))
  }

  /** How many workers `async.times` forks for a worker count. Only numbers
      are modelled; a negative count forks none. */
  function ForkCount(workerCount: JsValue): nat {
    if workerCount.JNum? && workerCount.n > 0 then workerCount.n else 0
  }

  /** The first truthy `started` payload, in arrival order: the error
      `async.times` ends with. */
  function FirstError(payloads: seq<JsValue>): (r: Option<JsValue>)
    ensures r.None? <==> forall i :: 0 <= i < |payloads| ==> !Truthy(payloads[i])
    ensures r.Some? ==> exists i :: (0 <= i < |payloads| && payloads[i] == r.value && Truthy(r.value)
      && forall j :: 0 <= j < i ==> !Truthy(payloads[j]))
  {
    if payloads == [] then None
    else if Truthy(payloads[0]) then Some(payloads[0])
    else
      var r := FirstError(payloads[1..]);
      if r.Some? then
        var i :| 0 <= i < |payloads[1..]| && payloads[1..][i] == r.value && Truthy(r.value)
          && forall j :: 0 <= j < i ==> !Truthy(payloads[1..][j]);
        assert payloads[i + 1] == r.value;
        r
      else r
  }

  /** `preprocessConfig` reads the `ssl` property of every port's
      configuration (`HttpSimpleProxy.js` lines 113 and 160-174), matched
      specification or not, before `init` or `reload` goes on: a `null` or
      `undefined` port configuration throws there. */
  predicate PortValuesPresent(config: JsValue) {
    forall j :: 0 <= j < |PortEntries(config)| ==> !IsNullish(PortEntries(config)[j].value)
  }

  /** `setupDi` writes `config.modules = config.modules || {}` and then
      calls `Object.keys(config.modules)` (`HttpSimpleProxy.js` lines
      168-170). Outside strict mode the write to a primitive is dropped, so
      `Object.keys(undefined)` throws: only an object or an array gets
      through. `init` (line 255) and `reload` (line 192, before the
      worker-count gate) both call it outside any `try`. */
  predicate IsObject(config: JsValue) {
    config.JObj? || config.JArr?
  }

  /** `init`. A `workerCount` of 0 (or none) loads the configuration into
      one in-process worker; otherwise `workerCount` workers are forked, in
      order, each sent `start` with the configuration and token, and the
      `started` payloads (`started`, in arrival order) decide the result.
      `oracle` answers for the in-process worker's ports. */
  function Init(m: MasterState, config: JsValue, token: string, oracle: string -> PortOracle, started: seq<JsValue>)
    : (r: Outcome)
  {
    if !IsObject(config) || !PortValuesPresent(config) then Threw
    else
      var m1 := m.(config := config, workerCount := WorkerCountOf(config));
      if StrictEquals(m1.workerCount, JNum(0)) then
        match LoadConfig(NewWorker(JUndefined), config, oracle)
        case LoadThrew => Threw
        case NeverLoaded(st) => Ran(Effect(m1.(single := Some(st)), [], [], NotCalled))
        case Loaded(st, err, _, _) =>
          var m2 := m1.(single := Some(st));
          if err.Some? then Ran(Effect(m2, [], [], CalledWith(JObj(err.value))))
          else Ran(Effect(m2, [AllWorkersStarted], [], CalledWith(JUndefined)))
      else
        var n := ForkCount(m1.workerCount);
        var first := m.nextWorkerId;
        var m2 := m1.(token := JStr(token),
                      slots := m.slots + seq(n, i => Some(first + i)),
                      nextWorkerId := first + n);
        var sent := seq(n, i => (first + i, Start(config, JStr(token))));
        var payloads := if |started| <= n then started else started[..n];
        var done :=
          if FirstError(payloads).Some? then CalledWith(FirstError(payloads).value)
          else if |payloads| == n then CalledWith(JNull)
          else NotCalled;
        Ran(Effect(m2, if done.CalledWith? then [AllWorkersStarted] else [], sent, done))
  }

  /** The mode `init` chooses: an in-process worker exactly when the worker
      count is falsy; otherwise exactly `n` forks with consecutive ids,
      stored in order in the slot table and each sent `start`. */
  lemma InitModes(m: MasterState, config: JsValue, token: string, oracle: string -> PortOracle, started: seq<JsValue>)
    requires !IsNullish(config) && m.single.None?
    requires Init(m, config, token, oracle, started).Ran?
    ensures var e := Init(m, config, token, oracle, started).effect;
      && e.m.config == config
      && (e.m.single.Some? <==> !Truthy(Get(config, "workerCount")))
      && (e.m.single.Some? ==> e.sent == [] && e.m.slots == m.slots)
      && (e.m.single.None? ==>
            var n := ForkCount(Get(config, "workerCount"));
            && |e.sent| == n
            && e.m.slots == m.slots + seq(n, i => Some(m.nextWorkerId + i))
            && forall i :: 0 <= i < n ==> e.sent[i] == (m.nextWorkerId + i, Start(config, JStr(token))))
  {
  }

  /** Forking keeps the slot table well formed on a fresh master. */
  lemma InitKeepsSlotsWellFormed(config: JsValue, token: string, oracle: string -> PortOracle, started: seq<JsValue>)
    requires Init(NewMaster(), config, token, oracle, started).Ran?
    ensures SlotsWellFormed(Init(NewMaster(), config, token, oracle, started).effect.m)
  {
  }

  /** Forked workers: `allWorkersStarted` is emitted once the result is known,
      whether or not a worker reported an error; the first error wins. */
  lemma InitForkedResult(m: MasterState, config: JsValue, token: string, oracle: string -> PortOracle, started: seq<JsValue>)
    requires IsObject(config) && PortValuesPresent(config) && Truthy(Get(config, "workerCount"))
    requires |started| <= ForkCount(Get(config, "workerCount"))
    ensures Init(m, config, token, oracle, started).Ran?
    ensures var e := Init(m, config, token, oracle, started).effect;
      && (e.done.CalledWith? <==> |started| == ForkCount(Get(config, "workerCount")) || exists i :: 0 <= i < |started| && Truthy(started[i]))
      && (e.done.CalledWith? ==> e.events == [AllWorkersStarted])
      && (e.done.CalledWith? && Truthy(e.done.err) ==>
            exists i :: 0 <= i < |started| && started[i] == e.done.err && forall j :: 0 <= j < i ==> !Truthy(started[j]))
  {
  }

  /** `init` throws exactly when the configuration is not an object, one of
      its port configurations is `null` or `undefined`, or the in-process
      worker's load throws. */
  lemma InitThrowsIff(m: MasterState, config: JsValue, token: string, oracle: string -> PortOracle, started: seq<JsValue>)
    ensures Init(m, config, token, oracle, started).Threw? <==>
      || !IsObject(config)
      || (exists j :: 0 <= j < |PortEntries(config)| && IsNullish(PortEntries(config)[j].value))
      || (!Truthy(Get(config, "workerCount")) && LoadConfig(NewWorker(JUndefined), config, oracle).LoadThrew?)
    ensures !Init(m, config, token, oracle, started).Exited?
  {
    if IsObject(config) && PortValuesPresent(config) {
      assert StrictEquals(WorkerCountOf(config), JNum(0)) <==> !Truthy(Get(config, "workerCount"));
    }
  }

  // ---------------------------------------------------------------------
  // reload

  /** The error `reload` reports when the worker count changed. */
  const WorkerCountMismatch: JsValue := JObj([Prop("message", JStr("Got different workerCount than initialized with"))])

  /** The value `loadConfig` passes to its callback: `null` or the errors object. */
  function ErrValue(err: Option<seq<Prop>>): (v: JsValue)
    ensures Truthy(v) <==> err.Some?
  {
    if err.Some? then JObj(err.value) else JNull
  }

  /** Some port of the load failed with an error `exitIfEACCES` exits for. */
  predicate ExitDemanded(reports: seq<Report>) {
    exists j :: 0 <= j < |reports| && reports[j].err.Some? && ExitsOnError(ErrorValue(reports[j].err.value))
  }

  lemma ExitDemandedIff(reports: seq<Report>)
    ensures ExitDemanded(reports) <==> exists j :: (0 <= j < |reports| && reports[j].err.Some?
      && reports[j].err.value.syscall == Some("bind") && reports[j].err.value.code == Some("EACCES"))
  {
    forall j | 0 <= j < |reports| && reports[j].err.Some? {
      ExitsOnNodeError(reports[j].err.value);
    }
  }

  /** The single worker's reload callback, once it knows whether to exit:
      `allWorkersReloaded` twice on success, `error` then
      `allWorkersReloaded` on failure, then `reloadDone(err)`. */
  function AfterSingleLoad(m1: MasterState, lo: LoadOutcome, exits: bool): Outcome {
    match lo
    case LoadThrew => Threw
    case NeverLoaded(st) => Ran(Effect(m1.(single := Some(st)), [ReloadBegun], [], NotCalled))
    case Loaded(st, err, _, _) =>
      if exits then Exited
      else
        Ran(Effect(m1.(single := Some(st)),
                   [ReloadBegun] + (if err.None? then [AllWorkersReloaded] else [ErrorEvent(ErrValue(err))]) + [AllWorkersReloaded],
                   [], CalledWith(ErrValue(err))))
  }

  /** The single-worker reload as written: `exitIfEACCES` is applied to the
      whole errors object. */
  function SingleReloadAsWritten(m1: MasterState, config: JsValue, oracle: string -> PortOracle): Outcome
    requires m1.single.Some?
  {
    var lo := LoadConfig(m1.single.value, config, oracle);
    AfterSingleLoad(m1, lo, lo.Loaded? && ExitsOnError(ErrValue(lo.err)))
  }

  /** The single-worker reload corrected to what `exitIfEACCES` is for:
      the process ends when a privileged port's bind is refused, so the
      check is applied to each port's error rather than to the errors
      object. */
  function SingleReload(m1: MasterState, config: JsValue, oracle: string -> PortOracle): Outcome
    requires m1.single.Some?
  {
    var lo := LoadConfig(m1.single.value, config, oracle);
    AfterSingleLoad(m1, lo, lo.Loaded? && ExitDemanded(lo.reports))
  }

  /** `reload`. The configuration is stored first; a changed worker count
      then stops the reload before any worker is touched. Otherwise the
      in-process worker reloads, or every live forked worker goes through
      the unbind/reload handshake, having sent `traces(id)` back. */
  function Reload(m: MasterState, config: JsValue, oracle: string -> PortOracle, traces: nat -> seq<FromWorker>)
    : (r: Outcome)
  {
    if !IsObject(config) || !PortValuesPresent(config) then Threw
    else
      var m1 := m.(config := config);
      if !StrictEquals(WorkerCountOf(config), m.workerCount) then
        Ran(Effect(m1, [ReloadBegun, ErrorEvent(WorkerCountMismatch), RestartIfPossible], [], CalledWith(WorkerCountMismatch)))
      else if m.single.Some? then SingleReloadAsWritten(m1, config, oracle)
      else
        var f := Fleet(LiveIds(m.slots), config, traces);
        if f.pending == {} then Ran(Effect(m1, [ReloadBegun, AllWorkersReloaded], f.sent, CalledWith(JNull)))
        else Ran(Effect(m1, [ReloadBegun], f.sent, NotCalled))
  }

  /** `reload` throws exactly when the configuration is not an object, one
      of its port configurations is `null` or `undefined`, or, with an
      unchanged worker count, the in-process worker's load throws. */
  lemma ReloadThrowsIff(m: MasterState, config: JsValue, oracle: string -> PortOracle, traces: nat -> seq<FromWorker>)
    ensures Reload(m, config, oracle, traces).Threw? <==>
      || !IsObject(config)
      || (exists j :: 0 <= j < |PortEntries(config)| && IsNullish(PortEntries(config)[j].value))
      || (StrictEquals(WorkerCountOf(config), m.workerCount) && m.single.Some?
          && LoadConfig(m.single.value, config, oracle).LoadThrew?)
  {
    if IsObject(config) && PortValuesPresent(config) && StrictEquals(WorkerCountOf(config), m.workerCount) && m.single.Some? {
      AsWrittenNeverExits(m.(config := config), config, oracle);
    }
  }

  /** The concrete case: a port specification `abc`, which no worker would
      ever bind, configured as `null` makes both `init` and `reload` throw. */
  lemma NullPortConfigThrows(m: MasterState, token: string, oracle: string -> PortOracle, started: seq<JsValue>,
                             traces: nat -> seq<FromWorker>)
    ensures var config := JObj([Prop("ports", JObj([Prop("abc", JNull)]))]);
      Init(m, config, token, oracle, started).Threw? && Reload(m, config, oracle, traces).Threw?
  {
    var config := JObj([Prop("ports", JObj([Prop("abc", JNull)]))]);
    assert PortEntries(config) == [Prop("abc", JNull)];
    InitThrowsIff(m, config, token, oracle, started);
    ReloadThrowsIff(m, config, oracle, traces);
  }

  /** The concrete case: a configuration `true` has no `modules` property
      to write, so `setupDi` throws in both `init` and `reload`, whatever
      the worker count. */
  lemma PrimitiveConfigThrows(m: MasterState, token: string, oracle: string -> PortOracle, started: seq<JsValue>,
                              traces: nat -> seq<FromWorker>)
    ensures Init(m, JBool(true), token, oracle, started).Threw? && Reload(m, JBool(true), oracle, traces).Threw?
  {
    InitThrowsIff(m, JBool(true), token, oracle, started);
    ReloadThrowsIff(m, JBool(true), oracle, traces);
  }

  /** A changed worker count: no worker hears of the reload, the caller gets
      an error, a restart is requested, and the new configuration has
      nevertheless replaced the old one; nothing else of the master changes. */
  lemma ChangedWorkerCountRejected(m: MasterState, config: JsValue, oracle: string -> PortOracle, traces: nat -> seq<FromWorker>)
    requires IsObject(config) && PortValuesPresent(config)
    requires !StrictEquals(WorkerCountOf(config), m.workerCount)
    ensures var r := Reload(m, config, oracle, traces);
      && r.Ran? && r.effect.sent == [] && r.effect.m == m.(config := config)
      && r.effect.done.CalledWith? && Truthy(r.effect.done.err)
      && RestartIfPossible in r.effect.events && AllWorkersReloaded !in r.effect.events
  {
  }

  /** A worker that crashes after a rejected reload is replaced with the
      rejected configuration. */
  lemma RejectedConfigReachesReplacement(m: MasterState, config: JsValue, oracle: string -> PortOracle,
                                         traces: nat -> seq<FromWorker>, id: nat)
    requires IsObject(config) && PortValuesPresent(config) && id >= 1 && m.autoRestart
    requires !StrictEquals(WorkerCountOf(config), m.workerCount)
    ensures OnWorkerExit(Reload(m, config, oracle, traces).effect.m, id).sent == [(m.nextWorkerId, Start(config, m.token))]
  {
  }

  /** The worker-count gate: a live forked worker is sent `unbind` exactly
      when the new count is strictly equal to the one `init` stored. */
  lemma WorkerCountGate(m: MasterState, config: JsValue, oracle: string -> PortOracle,
                        traces: nat -> seq<FromWorker>, x: nat)
    requires IsObject(config) && PortValuesPresent(config) && m.single.None? && Some(x) in m.slots
    ensures Reload(m, config, oracle, traces).Ran?
    ensures (x, Unbind) in Reload(m, config, oracle, traces).effect.sent <==>
      StrictEquals(WorkerCountOf(config), m.workerCount)
  {
    if StrictEquals(WorkerCountOf(config), m.workerCount) {
      FleetContactsEveryLiveSlot(m.slots, config, traces);
    }
  }

  /** The in-process worker's reload, which as written never ends the
      process: `allWorkersReloaded` twice on success; `error` and one
      `allWorkersReloaded` on failure; the caller gets the worker's result. */
  lemma SingleReloadEvents(m: MasterState, config: JsValue, oracle: string -> PortOracle, traces: nat -> seq<FromWorker>)
    requires IsObject(config) && PortValuesPresent(config) && m.single.Some?
    requires StrictEquals(WorkerCountOf(config), m.workerCount)
    requires LoadConfig(m.single.value, config, oracle).Loaded?
    ensures Reload(m, config, oracle, traces).Ran?
    ensures var lo := LoadConfig(m.single.value, config, oracle);
      var e := Reload(m, config, oracle, traces).effect;
      && e.done == CalledWith(ErrValue(lo.err))
      && e.m.single == Some(lo.st)
      && e.sent == []
      && (lo.err.None? ==> e.events == [ReloadBegun, AllWorkersReloaded, AllWorkersReloaded])
      && (lo.err.Some? ==> e.events == [ReloadBegun, ErrorEvent(JObj(lo.err.value)), AllWorkersReloaded])
  {
    AsWrittenNeverExits(m.(config := config), config, oracle);
  }

  /** As written, the in-process reload never exits: the errors object has
      no `syscall` property, whatever the ports' errors were. */
  lemma AsWrittenNeverExits(m1: MasterState, config: JsValue, oracle: string -> PortOracle)
    requires m1.single.Some?
    ensures !SingleReloadAsWritten(m1, config, oracle).Exited?
  {
    var lo := LoadConfig(m1.single.value, config, oracle);
    if lo.Loaded? && lo.err.Some? {
      ErrorsObjectNeverExits(m1.single.value, config, oracle);
    }
  }

  /** The in-process reload exits exactly when some port failed to bind
      with `EACCES`. */
  lemma SingleReloadExitsIff(m1: MasterState, config: JsValue, oracle: string -> PortOracle)
    requires m1.single.Some?
    ensures var lo := LoadConfig(m1.single.value, config, oracle);
      SingleReload(m1, config, oracle).Exited? <==>
        lo.Loaded? && exists j :: (0 <= j < |lo.reports| && lo.reports[j].err.Some?
          && lo.reports[j].err.value.syscall == Some("bind") && lo.reports[j].err.value.code == Some("EACCES"))
  {
    var lo := LoadConfig(m1.single.value, config, oracle);
    if lo.Loaded? {
      ExitDemandedIff(lo.reports);
    }
  }

  /** A port whose bind is refused with `EACCES` keeps the process alive as
      written, and ends it with the corrected check. */
  lemma EaccesIgnoredAsWritten(m1: MasterState, config: JsValue, oracle: string -> PortOracle, j: int)
    requires m1.single.Some?
    requires LoadConfig(m1.single.value, config, oracle).Loaded?
    requires var reps := LoadConfig(m1.single.value, config, oracle).reports;
      0 <= j < |reps| && reps[j].err == Some(NodeError(Some("EACCES"), Some("bind")))
    ensures SingleReloadAsWritten(m1, config, oracle).Ran?
    ensures SingleReload(m1, config, oracle).Exited?
  {
    AsWrittenNeverExits(m1, config, oracle);
    SingleReloadExitsIff(m1, config, oracle);
  }

  lemma Port80Key()
    ensures EntryKey(Prop("80", JStr("http://localhost:8080"))) == Some("80")
  {
    BarePort("80");
    assert ParseDecimal("80") == 80;
    assert DecimalString(80) == "80";
  }

  /** The concrete case: an in-process proxy reloaded with port 80 only,
      where binding port 80 is refused with `EACCES`, keeps running as
      written and exits with the corrected check. */
  lemma EaccesOnPort80(oracle: string -> PortOracle)
    requires oracle("80") == PortOracle(None, None, Some(NodeError(Some("EACCES"), Some("bind"))), None)
    ensures var m1 := NewMaster().(single := Some(NewWorker(JUndefined)));
      var config := JObj([Prop("ports", JObj([Prop("80", JStr("http://localhost:8080"))]))]);
      SingleReloadAsWritten(m1, config, oracle).Ran? && SingleReload(m1, config, oracle).Exited?
  {
    var m1 := NewMaster().(single := Some(NewWorker(JUndefined)));
    var entry := Prop("80", JStr("http://localhost:8080"));
    var config := JObj([Prop("ports", JObj([entry]))]);
    Port80Key();
    assert PortEntries(config) == [entry];
    SinglePortBindFails(m1.single.value, config, entry, oracle, NodeError(Some("EACCES"), Some("bind")));
    EaccesIgnoredAsWritten(m1, config, oracle, 0);
  }

  /** Forked workers: only live slots are contacted; the reload completes,
      with no error, exactly when every live worker confirmed its unbind and
      then reported `started`. */
  lemma ForkedReload(m: MasterState, config: JsValue, oracle: string -> PortOracle, traces: nat -> seq<FromWorker>)
    requires IsObject(config) && PortValuesPresent(config) && m.single.None?
    requires StrictEquals(WorkerCountOf(config), m.workerCount)
    ensures var r := Reload(m, config, oracle, traces);
      && r.Ran?
      && (forall k :: 0 <= k < |r.effect.sent| ==> Some(r.effect.sent[k].0) in m.slots)
      && (forall x :: Some(x) in m.slots ==> (x, Unbind) in r.effect.sent)
      && (r.effect.done.CalledWith? <==> forall x :: Some(x) in m.slots ==> ConfirmedThenStarted(traces(x)))
      && (r.effect.done.CalledWith? ==> r.effect.done.err == JNull && r.effect.events == [ReloadBegun, AllWorkersReloaded])
  {
    FleetContactsEveryLiveSlot(m.slots, config, traces);
    FleetFinishedIff(LiveIds(m.slots), config, traces);
  }
}

=== FILE: port_spec.dfy ===
/** Port specifications (`"8080"`, `"example.com:443"`) as the worker reads
    them from the keys of `config.ports`, and the registry key a listener is
    stored under. */
module PortSpec {
  import opened JsValues

  predicate IsDigit(c: char) {
    '0' <= c <= '9'
  }

  /** `\s` of a JavaScript regular expression: the WhiteSpace and
      LineTerminator code points. */
  predicate IsSpace(c: char) {
    || c == '\t' || c == '\n' || c == '\U{B}' || c == '\U{C}' || c == '\r' || c == ' '
    || c == '\U{A0}' || c == '\U{1680}' || ('\U{2000}' <= c <= '\U{200A}')
    || c == '\U{2028}' || c == '\U{2029}' || c == '\U{202F}' || c == '\U{205F}'
    || c == '\U{3000}' || c == '\U{FEFF}'
  }

  predicate AllDigits(s: string) {
    forall i :: 0 <= i < |s| ==> IsDigit(s[i])
  }

  predicate NoDigit(s: string) {
    forall i :: 0 <= i < |s| ==> !IsDigit(s[i])
  }

  predicate NoSpace(s: string) {
    forall i :: 0 <= i < |s| ==> !IsSpace(s[i])
  }

  /** A `:` that the pattern's `:(\d+)` can match at position `j`. */
  predicate ColonBeforeDigit(s: string, j: int) {
    0 <= j && j + 1 < |s| && s[j] == ':' && IsDigit(s[j + 1])
  }

  /** End of the maximal run of non-space characters starting at `i`. */
  function NonSpaceEnd(s: string, i: nat): (e: nat)
    requires i <= |s|
    ensures i <= e <= |s|
    ensures forall k :: i <= k < e ==> !IsSpace(s[k])
    ensures e < |s| ==> IsSpace(s[e])
    decreases |s| - i
  {
    if i == |s| || IsSpace(s[i]) then i else NonSpaceEnd(s, i + 1)
  }

  /** End of the maximal run of digits starting at `i`. */
  function DigitEnd(s: string, i: nat): (e: nat)
    requires i <= |s|
    ensures i <= e <= |s|
    ensures forall k :: i <= k < e ==> IsDigit(s[k])
    ensures e < |s| ==> !IsDigit(s[e])
    decreases |s| - i
  {
    if i == |s| || !IsDigit(s[i]) then i else DigitEnd(s, i + 1)
  }

  /** Where the greedy `(\S+):` settles when the match starts at `lo` and the
      non-space run ends at `hi`: the last colon in `(lo, hi)` that is
      followed by a digit (backtracking gives up characters from the right). */
  function GroupColon(s: string, lo: nat, hi: nat): (r: Option<nat>)
    requires lo <= hi <= |s|
    ensures r.Some? ==> lo < r.value < hi && ColonBeforeDigit(s, r.value)
    ensures r.Some? ==> forall j :: r.value < j < hi ==> !ColonBeforeDigit(s, j)
    ensures r.None? ==> forall j :: lo < j < hi ==> !ColonBeforeDigit(s, j)
    decreases hi
  {
    if hi <= lo + 1 then None
    else if ColonBeforeDigit(s, hi - 1) then Some(hi - 1)
    else GroupColon(s, lo, hi - 1)
  }

  /** What `/((\S+):)?(\d+)/` captures: group 2 (the host, if the optional
      group took part) and group 3 (the digits). */
  datatype Match = Match(host: Option<string>, digits: string)

  predicate WellFormedMatch(m: Match) {
    && m.digits != [] && AllDigits(m.digits)
    && (m.host.Some? ==> m.host.value != [] && NoSpace(m.host.value))
  }

  /** The match attempt starting at position `i`: the optional group is tried
      first, then the bare digits. */
  function MatchAt(s: string, i: nat): (r: Option<Match>)
    requires i <= |s|
    ensures r.Some? ==> WellFormedMatch(r.value)
  {
    var e := NonSpaceEnd(s, i);
    match GroupColon(s, i, e)
    case Some(j) =>
      Some(Match(Some(s[i..j]), s[j + 1..DigitEnd(s, j + 1)]))
    case None =>
      if i < |s| && IsDigit(s[i]) then Some(Match(None, s[i..DigitEnd(s, i)])) else None
  }

  /** The leftmost match at or after `i` (the pattern is not anchored). */
  function MatchFrom(s: string, i: nat): (r: Option<Match>)
    requires i <= |s|
    ensures r.Some? ==> WellFormedMatch(r.value)
    decreases |s| - i
  {
    if i == |s| then None
    else match MatchAt(s, i)
      case Some(m) => Some(m)
      case None => MatchFrom(s, i + 1)
  }

  /** Numeric value of a digit string, as `parseInt` reads it (leading zeros
      allowed; precision loss beyond 2^53 is not modelled). */
  function ParseDecimal(d: string): nat
    requires AllDigits(d)
  {
    if d == [] then 0
    else ParseDecimal(d[..|d| - 1]) * 10 + ((d[|d| - 1] as int) - ('0' as int))
  }

  /** A parsed port specification: the listen host (absent for a bare port)
      and the port number. */
  datatype Spec = Spec(host: Option<string>, port: nat)

  /** `portEntry.match(/((\S+):)?(\d+)/)` followed by `parseInt` of the digits;
      `None` when the pattern does not match at all. */
  function Parse(spec: string): (r: Option<Spec>)
    ensures r.Some? && r.value.host.Some? ==> r.value.host.value != [] && NoSpace(r.value.host.value)
  {
    match MatchFrom(spec, 0)
    case None => None
    case Some(m) => Some(Spec(m.host, ParseDecimal(m.digits)))
  }

  /** The key of the listener and application-server registries:
      `host ? host + ':' + port : port`, where a number used as an object key
      becomes its decimal string. An empty host is falsy. */
  function ListenerKey(host: Option<string>, port: nat): string {
    if host.Some? && host.value != [] then host.value + ":" + DecimalString(port)
    else DecimalString(port)
  }

  function SpecKey(s: Spec): string {
    ListenerKey(s.host, s.port)
  }

  // ---------------------------------------------------------------------
  // Properties of the pattern

  lemma {:induction false} MatchAtDigit(s: string, i: nat)
    requires i < |s| && IsDigit(s[i])
    ensures MatchAt(s, i).Some?
  {
  }

  lemma {:induction false} MatchFromReachesDigit(s: string, i: nat, k: nat)
    requires i <= k < |s| && IsDigit(s[k])
    ensures MatchFrom(s, i).Some?
    decreases k - i
  {
    if MatchAt(s, i).None? {
      if i == k {
        MatchAtDigit(s, k);
      } else {
        MatchFromReachesDigit(s, i + 1, k);
      }
    }
  }

  lemma {:induction false} MatchFromNeedsDigit(s: string, i: nat)
    requires i <= |s|
    requires forall k :: i <= k < |s| ==> !IsDigit(s[k])
    ensures MatchFrom(s, i).None?
    decreases |s| - i
  {
    if i < |s| {
      MatchFromNeedsDigit(s, i + 1);
    }
  }

  /** A specification is accepted exactly when it contains a digit somewhere;
      any other string never reaches the port binder. */
  lemma ParseFailsIffNoDigit(spec: string)
    ensures Parse(spec).None? <==> NoDigit(spec)
  {
    if NoDigit(spec) {
      MatchFromNeedsDigit(spec, 0);
    } else {
      var k :| 0 <= k < |spec| && IsDigit(spec[k]);
      MatchFromReachesDigit(spec, 0, k);
    }
  }

  /** `"h:ddd"` with a space-free host yields host `h` and port `ddd`; a colon
      inside `h` stays in the host (the greedy group takes the last colon). */
  lemma HostAndPort(h: string, d: string)
    requires h != [] && NoSpace(h)
    requires d != [] && AllDigits(d)
    ensures Parse(h + ":" + d) == Some(Spec(Some(h), ParseDecimal(d)))
  {
    var s := h + ":" + d;
    assert forall k :: 0 <= k < |s| ==> !IsSpace(s[k]) by {
      forall k | 0 <= k < |s| ensures !IsSpace(s[k]) {
        if k < |h| { assert s[k] == h[k]; }
        else if k > |h| { assert s[k] == d[k - |h| - 1]; }
      }
    }
    assert NonSpaceEnd(s, 0) == |s|;
    assert ColonBeforeDigit(s, |h|) by { assert s[|h| + 1] == d[0]; }
    var g := GroupColon(s, 0, |s|);
    assert g == Some(|h|);
    assert forall k :: |h| + 1 <= k < |s| ==> IsDigit(s[k]) by {
      forall k | |h| + 1 <= k < |s| ensures IsDigit(s[k]) {
        assert s[k] == d[k - |h| - 1];
      }
    }
    assert DigitEnd(s, |h| + 1) == |s|;
    assert s[0..|h|] == h;
    assert s[|h| + 1..|s|] == d;
  }

  /** An all-digit specification yields no host. */
  lemma BarePort(d: string)
    requires d != [] && AllDigits(d)
    ensures Parse(d) == Some(Spec(None, ParseDecimal(d)))
  {
    assert NoSpace(d);
    assert NonSpaceEnd(d, 0) == |d|;
    assert GroupColon(d, 0, |d|).None?;
    assert DigitEnd(d, 0) == |d|;
    assert d[0..|d|] == d;
  }

  // ---------------------------------------------------------------------
  // Properties of the registry key

  lemma {:induction false} ParseDecimalOfDecimalString(n: nat)
    ensures ParseDecimal(DecimalString(n)) == n
  {
    var d := DecimalString(n);
    if n >= 10 {
      ParseDecimalOfDecimalString(n / 10);
      assert d[..|d| - 1] == DecimalString(n / 10);
    }
  }

  lemma DecimalStringInjective(a: nat, b: nat)
    requires DecimalString(a) == DecimalString(b)
    ensures a == b
  {
    ParseDecimalOfDecimalString(a);
    ParseDecimalOfDecimalString(b);
  }

  /** In `h + ":" + d` with `d` all digits, the colon after `h` is the last one. */
  lemma LastColon(h: string, d: string)
    requires AllDigits(d)
    ensures (h + ":" + d)[|h|] == ':'
    ensures forall j :: |h| < j < |h + ":" + d| ==> (h + ":" + d)[j] != ':'
  {
    var k := h + ":" + d;
    forall j | |h| < j < |k| ensures k[j] != ':' {
      assert k[j] == d[j - |h| - 1];
    }
  }

  predicate TruthyHost(host: Option<string>) {
    host.Some? && host.value != []
  }

  predicate HasColon(s: string) {
    exists j :: 0 <= j < |s| && s[j] == ':'
  }

  lemma KeyHasColonIffHost(host: Option<string>, port: nat)
    ensures HasColon(ListenerKey(host, port)) <==> TruthyHost(host)
  {
    if TruthyHost(host) {
      LastColon(host.value, DecimalString(port));
    }
  }

  /** Distinct (host, port) pairs never share a registry key: the port part
      is all digits, so the last colon of a key separates host and port. */
  lemma ListenerKeyInjective(h1: Option<string>, p1: nat, h2: Option<string>, p2: nat)
    requires ListenerKey(h1, p1) == ListenerKey(h2, p2)
    ensures TruthyHost(h1) <==> TruthyHost(h2)
    ensures TruthyHost(h1) ==> h1.value == h2.value
    ensures p1 == p2
  {
    var k := ListenerKey(h1, p1);
    var d1, d2 := DecimalString(p1), DecimalString(p2);
    KeyHasColonIffHost(h1, p1);
    KeyHasColonIffHost(h2, p2);
    if TruthyHost(h1) && TruthyHost(h2) {
      var a, b := h1.value, h2.value;
      LastColon(a, d1);
      LastColon(b, d2);
      assert |a| == |b|;
      assert a == k[..|a|] == b;
      assert d1 == k[|a| + 1..] == d2;
    }
    DecimalStringInjective(p1, p2);
  }

  /** Two different specifications that differ only in leading zeros of the
      port map to the same registry key: `"0080"` and `"80"` both key `"80"`. */
  lemma LeadingZerosShareKey()
    ensures Parse("0080").Some? && Parse("80").Some?
    ensures SpecKey(Parse("0080").value) == SpecKey(Parse("80").value) == "80"
  {
    BarePort("0080");
    BarePort("80");
    Eighty();
  }

  lemma Eighty()
    ensures ParseDecimal("0080") == 80 && ParseDecimal("80") == 80
    ensures DecimalString(80) == "80"
  {
    assert "0080"[..3] == "008";
    assert "008"[..2] == "00";
    assert "00"[..1] == "0";
    assert "80"[..1] == "8";
  }
}

=== FILE: registry.dfy ===
/** A worker's two registries and the two lookups that fill them:
    raw listeners keyed by `host:port` (`tcpServers`, `lazyGetTcpServer`) and
    application servers tagged with a TLS fingerprint (`cachedServers`,
    `serverForPortConfig`). Sockets and servers are opaque identities. */
module Registry {
  import opened JsValues

  /** A raw listener (`net.Server`): its identity and how many observers its
      `connection` event has. */
  datatype Listener = Listener(id: nat, observers: nat)

  /** An application server: `tls` tells an HTTPS server from an HTTP one. */
  datatype AppServer = AppServer(id: nat, tls: bool)

  /** A `cachedServers` entry: the server and the fingerprint of the TLS
      configuration it was built from. */
  datatype CacheEntry = CacheEntry(server: AppServer, fingerprint: string)

  /** Everything a worker keeps between configuration loads. `unreferenced`
      holds the servers `unref()` was called on; `nextId` supplies identities
      for new listeners and servers. */
  datatype WorkerState = WorkerState(
    config: JsValue,
    middleware: seq<JsValue>,
    listeners: map<string, Listener>,
    cache: map<string, CacheEntry>,
    servers: seq<AppServer>,
    unreferenced: set<nat>,
    nextId: nat)

  /** Every identity in use was drawn from the supply. */
  predicate FreshIds(st: WorkerState) {
    && (forall k :: k in st.listeners ==> st.listeners[k].id < st.nextId)
    && (forall k :: k in st.cache ==> st.cache[k].server.id < st.nextId)
    && (forall i :: 0 <= i < |st.servers| ==> st.servers[i].id < st.nextId)
  }

  /** The worker constructor: empty registries, no servers, no middleware. */
  function NewWorker(config: JsValue): (st: WorkerState)
    ensures FreshIds(st)
    ensures st.listeners == map[] && st.cache == map[] && st.servers == []
  {
    WorkerState(Or(config, JObj([])), [], map[], map[], [], {}, 0)
  }

  /** `JSON.stringify(extend({}, ssl))`: the fingerprint a TLS configuration
      is cached under. An absent configuration has fingerprint `"{}"`. */
  function Fingerprint(ssl: JsValue): (fp: string)
    ensures IsNullish(ssl) ==> fp == "{}"
    ensures |fp| >= 2 && fp[0] == '{' && fp[|fp| - 1] == '}'
  {
    var copy := ShallowCopy(ssl);
    assert IsNullish(ssl) ==> copy.props == [];
    Stringify(copy).value
  }

  /** The `TypeError` JavaScript throws when a property of `undefined` is
      read: it has neither a `code` nor a `syscall`. */
  const PropertyOfUndefined := NodeError(None, None)

  /** How a request for an application server was served. `ReadThrew`:
      reading the port configuration's `ssl` threw before the cache was
      consulted. */
  datatype ServerResult =
    | Reused(server: AppServer)
    | Created(server: AppServer)
    | ConstructFailed(err: NodeError)
    | ReadThrew(err: NodeError)

  /** `serverForPortConfig`: an `undefined` port configuration throws when
      its `ssl` is read; otherwise the cached server under `key` when its
      fingerprint matches the port's `ssl`, or else a fresh HTTPS (when `ssl`
      is truthy) or HTTP server replaces the cache entry. When construction
      throws (`constructError`) the cache keeps its old entry. */
  function ServerForPortConfig(st: WorkerState, key: string, portConfig: JsValue, constructError: Option<NodeError>)
    : (r: (WorkerState, ServerResult))
    ensures FreshIds(st) ==> FreshIds(r.0)
    ensures r.1.ReadThrew? <==> portConfig.JUndefined?
    ensures r.1.ReadThrew? ==> r.0 == st && r.1.err == PropertyOfUndefined
    ensures r.1.Reused? <==>
      !portConfig.JUndefined? && key in st.cache && st.cache[key].fingerprint == Fingerprint(Get(portConfig, "ssl"))
    ensures r.1.Reused? ==> r.0 == st && r.1.server == st.cache[key].server
    ensures r.1.ConstructFailed? <==> !r.1.ReadThrew? && !r.1.Reused? && constructError.Some?
    ensures r.1.ConstructFailed? ==> r.0 == st && constructError == Some(r.1.err)
    ensures r.1.Created? ==>
      && r.1.server.tls == Truthy(Get(portConfig, "ssl"))
      && r.1.server.id >= st.nextId
      && r.0.cache == st.cache[key := CacheEntry(r.1.server, Fingerprint(Get(portConfig, "ssl")))]
      && r.0.listeners == st.listeners && r.0.servers == st.servers
      && r.0.config == st.config && r.0.middleware == st.middleware
      && r.0.unreferenced == st.unreferenced && r.0.nextId > st.nextId
  {
    var ssl := Get(portConfig, "ssl");
    var fp := Fingerprint(ssl);
    if portConfig.JUndefined? then (st, ReadThrew(PropertyOfUndefined))
    else if key in st.cache && st.cache[key].fingerprint == fp then
      (st, Reused(st.cache[key].server))
    else if constructError.Some? then
      (st, ConstructFailed(constructError.value))
    else
      var server := AppServer(st.nextId, Truthy(ssl));
      (st.(cache := st.cache[key := CacheEntry(server, fp)], nextId := st.nextId + 1), Created(server))
  }

  /** What `lazyGetTcpServer` hands back during the synchronous part of a
      port task: the listener already registered under the key, a new
      listener whose bind is still under way, or the error `listen` threw
      at once. */
  datatype ListenerResult =
    | Found(listener: Listener)
    | Registered(listener: Listener)
    | ListenThrew(err: NodeError)

  /** `lazyGetTcpServer` up to its return: the listener registered under `key`
      if there is one (no new socket); otherwise a new listener is
      registered under `key` before `listen` is called, and stays registered
      whether the bind is under way or `listen` threw. */
  function ObtainListener(st: WorkerState, key: string, listenError: Option<NodeError>) : (r: (WorkerState, ListenerResult))
    ensures FreshIds(st) ==> FreshIds(r.0)
    ensures r.1.Found? <==> key in st.listeners
    ensures r.1.Found? ==> r.0 == st && r.1.listener == st.listeners[key]
    ensures !r.1.Found? ==>
      && r.0.listeners.Keys == st.listeners.Keys + {key}
      && r.0.listeners[key].observers == 0 && r.0.listeners[key].id >= st.nextId
      && forall k :: k in st.listeners ==> r.0.listeners[k] == st.listeners[k]
    ensures r.1.Registered? <==> key !in st.listeners && listenError.None?
    ensures r.1.Registered? ==> r.1.listener == r.0.listeners[key]
    ensures r.1.ListenThrew? ==> listenError == Some(r.1.err)
    ensures r.0.cache == st.cache && r.0.servers == st.servers
    ensures r.0.config == st.config && r.0.middleware == st.middleware
    ensures r.0.unreferenced == st.unreferenced && r.0.nextId >= st.nextId
  {
    if key in st.listeners then (st, Found(st.listeners[key]))
    else
      var created := Listener(st.nextId, 0);
      var registered := st.(listeners := st.listeners[key := created], nextId := st.nextId + 1);
      if listenError.Some? then (registered, ListenThrew(listenError.value))
      else (registered, Registered(created))
  }

  /** `HttpSimpleProxyWorker.js` lines 228-238: strip every observer of the listener and attach one
      connection forwarder to the port's application server. */
  function AttachForwarder(st: WorkerState, key: string): (r: WorkerState)
    requires key in st.listeners
    ensures r.listeners.Keys == st.listeners.Keys
    ensures r.listeners[key] == Listener(st.listeners[key].id, 1)
    ensures forall k :: k in st.listeners && k != key ==> r.listeners[k] == st.listeners[k]
    ensures r == st.(listeners := r.listeners)
  {
    st.(listeners := st.listeners[key := Listener(st.listeners[key].id, 1)])
  }

  /** A second lookup of a key whose new listener is still binding finds
      that very listener and creates no socket. */
  lemma ObtainTwiceFindsFirst(st: WorkerState, key: string, e1: Option<NodeError>, e2: Option<NodeError>)
    requires ObtainListener(st, key, e1).1.Registered?
    ensures var st1 := ObtainListener(st, key, e1).0;
      ObtainListener(st1, key, e2) == (st1, Found(ObtainListener(st, key, e1).1.listener))
  {
  }

  /** Asking twice with the same TLS configuration reuses the server built by
      the first request. */
  lemma ServerTwiceReuses(st: WorkerState, key: string, portConfig: JsValue, e1: Option<NodeError>, e2: Option<NodeError>)
    requires ServerForPortConfig(st, key, portConfig, e1).1.Created? || ServerForPortConfig(st, key, portConfig, e1).1.Reused?
    ensures var (st1, first) := ServerForPortConfig(st, key, portConfig, e1);
      ServerForPortConfig(st1, key, portConfig, e2) == (st1, Reused(first.server))
  {
  }
}

=== FILE: router.dfy ===
/** Normalisation of one port's routing configuration into the middleware
    pipeline handed to the routing collaborator (`createHandlers`). */
module Router {
  import opened JsValues

  /** A port configuration that is not a plain object (a bare target string, a
      number, an array of rules, ...) stands for `{router: portConfig}`.
      `typeof null` is `"object"`, so `null` is kept and fails later. */
  function AsPortObject(portConfig: JsValue): JsValue {
    if portConfig.JObj? || portConfig.JNull? then portConfig
    else JObj([Prop("router", portConfig)])
  }

  /** The rule list of a router value: an array as it is, anything else as a
      one-element list. */
  function RouterList(router: JsValue): seq<JsValue> {
    if router.JArr? then router.elems else [router]
  }

  /** The final router: worker middleware, then the configuration-wide
      `middleware`, then the port's own `middleware`, then the port's router.
      `None` when reading `.router` throws (the port configuration is `null`). */
  function NormaliseRouter(workerMiddleware: seq<JsValue>, configMiddleware: JsValue, portConfig: JsValue)
    : (r: Option<seq<JsValue>>)
    ensures r.None? <==> portConfig.JNull?
    ensures r.Some? ==> |r.value| >= |workerMiddleware| && r.value[..|workerMiddleware|] == workerMiddleware
    ensures r.Some? && !portConfig.JObj? ==>
      r.value == workerMiddleware + Spread(Or(configMiddleware, JArr([]))) + RouterList(portConfig)
    ensures r.Some? && portConfig.JObj? && !Get(portConfig, "router").JArr? ==>
      |r.value| > 0 && r.value[|r.value| - 1] == Get(portConfig, "router")
  {
    var port := AsPortObject(portConfig);
    assert !portConfig.JObj? && !portConfig.JNull? ==>
      Get(port, "middleware") == JUndefined && Get(port, "router") == portConfig by {
      if !portConfig.JObj? && !portConfig.JNull? {
        assert port.props[0].name == "router" != "middleware";
        assert Lookup(port.props[1..], "middleware") == JUndefined;
      }
    }
    if port.JNull? then None
    else
      Some(workerMiddleware
        + Spread(Or(configMiddleware, JArr([])))
        + Spread(Or(Get(port, "middleware"), JArr([])))
        + RouterList(Get(port, "router")))
  }

  /** Without any middleware anywhere, an object configuration's router list
      is the pipeline itself. */
  lemma NoMiddlewareIsRouterOnly(portConfig: JsValue, rules: seq<JsValue>)
    requires portConfig.JObj?
    requires Get(portConfig, "router") == JArr(rules)
    requires !Truthy(Get(portConfig, "middleware"))
    ensures NormaliseRouter([], JUndefined, portConfig) == Some(rules)
  {
  }

  /** Port middleware runs after configuration middleware and before the
      router; a non-array middleware value counts as one middleware. */
  lemma PortMiddlewareOrder(workerMiddleware: seq<JsValue>, configMiddleware: JsValue, portConfig: JsValue)
    requires portConfig.JObj?
    requires Truthy(Get(portConfig, "middleware"))
    ensures NormaliseRouter(workerMiddleware, configMiddleware, portConfig).Some?
    ensures var r := NormaliseRouter(workerMiddleware, configMiddleware, portConfig).value;
      var c := |workerMiddleware| + |Spread(Or(configMiddleware, JArr([])))|;
      var m := Spread(Get(portConfig, "middleware"));
      && |r| == c + |m| + |RouterList(Get(portConfig, "router"))|
      && r[c..c + |m|] == m
      && r[c + |m|..] == RouterList(Get(portConfig, "router"))
  {
    var r := NormaliseRouter(workerMiddleware, configMiddleware, portConfig).value;
    var w := workerMiddleware + Spread(Or(configMiddleware, JArr([])));
    var m := Spread(Get(portConfig, "middleware"));
    var rl := RouterList(Get(portConfig, "router"));
    assert r == w + m + rl;
    assert (w + m + rl)[|w|..|w| + |m|] == m;
    assert (w + m + rl)[|w| + |m|..] == rl;
  }
}

=== FILE: session_store.dfy ===
/** The worker's default TLS session store: a plain object keyed by the
    Base64 rendering of the session id. */
module SessionStore {
  import opened JsValues

  newtype byte = x: int | 0 <= x < 256

  /** The character for a 6-bit value in the standard Base64 alphabet of
      section 4 of RFC 4648. */
  function Base64Digit(v: int): (c: char)
    requires 0 <= v < 64
    ensures IsBase64Digit(c)
  {
    if v < 26 then ('A' as int + v) as char
    else if v < 52 then ('a' as int + (v - 26)) as char
    else if v < 62 then ('0' as int + (v - 52)) as char
    else if v == 62 then '+'
    else '/'
  }

  predicate IsBase64Digit(c: char) {
    'A' <= c <= 'Z' || 'a' <= c <= 'z' || '0' <= c <= '9' || c == '+' || c == '/'
  }

  /** The 6-bit value of an alphabet character (0 for anything else). */
  function Base64Value(c: char): (v: int)
    ensures 0 <= v < 64
  {
    if 'A' <= c <= 'Z' then c as int - 'A' as int
    else if 'a' <= c <= 'z' then c as int - 'a' as int + 26
    else if '0' <= c <= '9' then c as int - '0' as int + 52
    else if c == '+' then 62
    else if c == '/' then 63
    else 0
  }

  lemma DigitValue(v: int)
    requires 0 <= v < 64
    ensures Base64Value(Base64Digit(v)) == v
  {
  }

  /** `buffer.toString('base64')`: every three bytes become four characters,
      a final one or two bytes are padded with `=`. */
  function Base64(bs: seq<byte>): (s: string)
    ensures |s| == 4 * ((|bs| + 2) / 3)
    ensures forall i :: 0 <= i < |s| ==> IsBase64Digit(s[i]) || s[i] == '='
    decreases |bs|
  {
    if |bs| == 0 then ""
    else if |bs| == 1 then
      [Base64Digit(bs[0] as int / 4), Base64Digit(bs[0] as int % 4 * 16), '=', '=']
    else if |bs| == 2 then
      [Base64Digit(bs[0] as int / 4), Base64Digit(bs[0] as int % 4 * 16 + bs[1] as int / 16),
       Base64Digit(bs[1] as int % 16 * 4), '=']
    else
      assert (|bs| + 2) / 3 == (|bs[3..]| + 2) / 3 + 1;
      Quad(bs[0] as int, bs[1] as int, bs[2] as int) + Base64(bs[3..])
  }

  function Quad(b0: int, b1: int, b2: int): (s: string)
    requires 0 <= b0 < 256 && 0 <= b1 < 256 && 0 <= b2 < 256
    ensures |s| == 4 && forall i :: 0 <= i < 4 ==> IsBase64Digit(s[i])
  {
    [Base64Digit(b0 / 4), Base64Digit(b0 % 4 * 16 + b1 / 16), Base64Digit(b1 % 16 * 4 + b2 / 64), Base64Digit(b2 % 64)]
  }

  /** Decoding of padded Base64, the inverse of `Base64`. */
  function Unbase64(s: string): seq<byte>
    decreases |s|
  {
    if |s| < 4 then []
    else
      var v0, v1, v2, v3 := Base64Value(s[0]), Base64Value(s[1]), Base64Value(s[2]), Base64Value(s[3]);
      var b0 := (v0 * 4 + v1 / 16) as byte;
      var b1 := (v1 % 16 * 16 + v2 / 4) as byte;
      var b2 := (v2 % 4 * 64 + v3) as byte;
      if s[2] == '=' then [b0]
      else if s[3] == '=' then [b0, b1]
      else [b0, b1, b2] + Unbase64(s[4..])
  }

  lemma SplitByte(b: int, k: int)
    requires 0 <= b < 256 && 0 < k
    ensures b / k * k + b % k == b
  {
  }

  lemma QuadDecodes(b0: int, b1: int, b2: int)
    requires 0 <= b0 < 256 && 0 <= b1 < 256 && 0 <= b2 < 256
    ensures var s := Quad(b0, b1, b2);
      && Base64Value(s[0]) * 4 + Base64Value(s[1]) / 16 == b0
      && Base64Value(s[1]) % 16 * 16 + Base64Value(s[2]) / 4 == b1
      && Base64Value(s[2]) % 4 * 64 + Base64Value(s[3]) == b2
  {
    DigitValue(b0 / 4);
    DigitValue(b0 % 4 * 16 + b1 / 16);
    DigitValue(b1 % 16 * 4 + b2 / 64);
    DigitValue(b2 % 64);
    SplitByte(b0, 4);
    SplitByte(b1, 16);
    SplitByte(b2, 64);
  }

  lemma OneByteRoundTrip(bs: seq<byte>)
    requires |bs| == 1
    ensures Unbase64(Base64(bs)) == bs
  {
    DigitValue(bs[0] as int / 4);
    DigitValue(bs[0] as int % 4 * 16);
    SplitByte(bs[0] as int, 4);
  }

  lemma DivMod16(hi: int, lo: int)
    requires 0 <= lo < 16
    ensures (hi * 16 + lo) / 16 == hi && (hi * 16 + lo) % 16 == lo
  {
  }

  lemma DivMod4(hi: int)
    ensures (hi * 4) / 4 == hi
  {
  }

  lemma TwoBytesRoundTrip(bs: seq<byte>)
    requires |bs| == 2
    ensures Unbase64(Base64(bs)) == bs
  {
    var a, b := bs[0] as int, bs[1] as int;
    var s := Base64(bs);
    TwoBytesDigits(a, b);
    assert s == [Base64Digit(a / 4), Base64Digit(a % 4 * 16 + b / 16), Base64Digit(b % 16 * 4), '='];
    UnbaseTwo(s, a, b);
    assert [a as byte, b as byte] == bs;
  }

  /** The values of the three digits that encode two bytes `a`, `b`. */
  lemma TwoBytesDigits(a: int, b: int)
    requires 0 <= a < 256 && 0 <= b < 256
    ensures var d0, d1, d2 := a / 4, a % 4 * 16 + b / 16, b % 16 * 4;
      && Base64Value(Base64Digit(d0)) * 4 + Base64Value(Base64Digit(d1)) / 16 == a
      && Base64Value(Base64Digit(d1)) % 16 * 16 + Base64Value(Base64Digit(d2)) / 4 == b
  {
    var d0, d1, d2 := a / 4, a % 4 * 16 + b / 16, b % 16 * 4;
    DigitValue(d0);
    DigitValue(d1);
    DigitValue(d2);
    DivMod16(a % 4, b / 16);
    DivMod4(b % 16);
    SplitByte(a, 4);
    SplitByte(b, 16);
  }

  lemma UnbaseTwo(s: string, a: int, b: int)
    requires |s| == 4 && IsBase64Digit(s[2]) && s[3] == '='
    requires 0 <= a < 256 && 0 <= b < 256
    requires Base64Value(s[0]) * 4 + Base64Value(s[1]) / 16 == a
    requires Base64Value(s[1]) % 16 * 16 + Base64Value(s[2]) / 4 == b
    ensures Unbase64(s) == [a as byte, b as byte]
  {
  }

  lemma QuadThenRest(b0: byte, b1: byte, b2: byte, rest: string)
    ensures Unbase64(Quad(b0 as int, b1 as int, b2 as int) + rest) == [b0, b1, b2] + Unbase64(rest)
  {
    var s := Quad(b0 as int, b1 as int, b2 as int) + rest;
    QuadDecodes(b0 as int, b1 as int, b2 as int);
    assert s[4..] == rest;
  }

  lemma Base64Step(bs: seq<byte>)
    requires |bs| >= 3
    ensures Base64(bs) == Quad(bs[0] as int, bs[1] as int, bs[2] as int) + Base64(bs[3..])
  {
  }

  lemma SplitThree(bs: seq<byte>)
    requires |bs| >= 3
    ensures bs == [bs[0], bs[1], bs[2]] + bs[3..]
  {
  }

  lemma {:induction false} Base64RoundTrip(bs: seq<byte>)
    ensures Unbase64(Base64(bs)) == bs
    decreases |bs|
  {
    if |bs| == 1 {
      OneByteRoundTrip(bs);
    } else if |bs| == 2 {
      TwoBytesRoundTrip(bs);
    } else if |bs| >= 3 {
      var rest := bs[3..];
      calc {
        Unbase64(Base64(bs));
        { Base64Step(bs); }
        Unbase64(Quad(bs[0] as int, bs[1] as int, bs[2] as int) + Base64(rest));
        { QuadThenRest(bs[0], bs[1], bs[2], Base64(rest)); }
        [bs[0], bs[1], bs[2]] + Unbase64(Base64(rest));
        { Base64RoundTrip(rest); }
        [bs[0], bs[1], bs[2]] + rest;
        { SplitThree(bs); }
        bs;
      }
    }
  }

  /** Distinct session ids never share a slot of the store. */
  lemma Base64Injective(a: seq<byte>, b: seq<byte>)
    ensures Base64(a) == Base64(b) ==> a == b
  {
    Base64RoundTrip(a);
    Base64RoundTrip(b);
  }

  /** The store: Base64 key to session data. */
  datatype Store = Store(slots: map<string, JsValue>)

  const EmptyStore := Store(map[])

  /** `set(id, data)`: the slot of `id` is overwritten. */
  function StoreSet(st: Store, id: seq<byte>, data: JsValue): (r: Store)
    ensures r.slots.Keys == st.slots.Keys + {Base64(id)}
  {
    Store(st.slots[Base64(id) := data])
  }

  /** `get(id)` as intended: the data stored for `id`, `undefined` for an
      id never stored. */
  function StoreGet(st: Store, id: seq<byte>): (v: JsValue)
    ensures Base64(id) !in st.slots ==> v == JUndefined
  {
    if Base64(id) in st.slots then st.slots[Base64(id)] else JUndefined
  }

  lemma SetThenGet(st: Store, id: seq<byte>, data: JsValue)
    ensures StoreGet(StoreSet(st, id, data), id) == data
  {
  }

  /** Storing one session leaves every other session's data alone. */
  lemma SetLeavesOthers(st: Store, id: seq<byte>, other: seq<byte>, data: JsValue)
    requires other != id
    ensures StoreGet(StoreSet(st, id, data), other) == StoreGet(st, other)
  {
    Base64Injective(id, other);
  }

  lemma LastWriteWins(st: Store, id: seq<byte>, d1: JsValue, d2: JsValue)
    ensures StoreSet(StoreSet(st, id, d1), id, d2) == StoreSet(st, id, d2)
  {
  }

  /** Nothing is ever evicted: a stored session stays readable through any
      sequence of later writes to other ids. */
  lemma {:induction false} NeverEvicts(st: Store, id: seq<byte>, writes: seq<(seq<byte>, JsValue)>)
    requires forall i :: 0 <= i < |writes| ==> writes[i].0 != id
    ensures StoreGet(SetAll(st, writes), id) == StoreGet(st, id)
    decreases |writes|
  {
    if writes != [] {
      var last := writes[|writes| - 1];
      NeverEvicts(st, id, writes[..|writes| - 1]);
      SetLeavesOthers(SetAll(st, writes[..|writes| - 1]), last.0, id, last.1);
    }
  }

  function SetAll(st: Store, writes: seq<(seq<byte>, JsValue)>): Store
    decreases |writes|
  {
    if writes == [] then st
    else
      var last := writes[|writes| - 1];
      StoreSet(SetAll(st, writes[..|writes| - 1]), last.0, last.1)
  }

  /** What reading `obj[key]` yields on a plain object: an own property, an
      inherited `Object.prototype` member, or `undefined`. */
  datatype Read = Own(v: JsValue) | Inherited(name: string) | Missing

  function ObjectRead(slots: map<string, JsValue>, key: string): (r: Read)
    ensures r.Own? <==> key in slots
    ensures r.Inherited? <==> key !in slots && key in ObjectPrototypeNames
    ensures r.Own? ==> r.v == slots[key]
    ensures r.Inherited? ==> r.name == key
  {
    if key in slots then Own(slots[key])
    else if key in ObjectPrototypeNames then Inherited(key)
    else Missing
  }

  /** `get(id)` as written: `store[id.toString('base64')]` on a plain object. */
  function StoreGetAsWritten(st: Store, id: seq<byte>): (r: Read)
    ensures r.Own? ==> r.v == StoreGet(st, id)
    ensures r.Missing? ==> StoreGet(st, id) == JUndefined
  {
    ObjectRead(st.slots, Base64(id))
  }

  /** A six-byte session id that was never stored reads as
      `Object.prototype.toString` instead of `undefined`. */
  lemma UnknownIdReadsPrototype()
    ensures StoreGetAsWritten(EmptyStore, [182, 132, 173, 174, 41, 224]) == Inherited("toString")
    ensures StoreGet(EmptyStore, [182, 132, 173, 174, 41, 224]) == JUndefined
  {
    EncodesToString();
  }

  lemma EncodesToString()
    ensures Base64([182, 132, 173, 174, 41, 224]) == "toString"
  {
    var id: seq<byte> := [182, 132, 173, 174, 41, 224];
    QuadToSt();
    QuadRing();
    Base64Step(id);
    Base64Step(id[3..]);
    assert id[3..][3..] == [];
  }

  lemma QuadToSt()
    ensures Quad(182, 132, 173) == "toSt"
  {
    assert 182 / 4 == 45 && 182 % 4 * 16 + 132 / 16 == 40 && 132 % 16 * 4 + 173 / 64 == 18 && 173 % 64 == 45;
    assert Base64Digit(45) == 't' && Base64Digit(40) == 'o' && Base64Digit(18) == 'S';
  }

  lemma QuadRing()
    ensures Quad(174, 41, 224) == "ring"
  {
    assert 174 / 4 == 43 && 174 % 4 * 16 + 41 / 16 == 34 && 41 % 16 * 4 + 224 / 64 == 39 && 224 % 64 == 32;
    assert Base64Digit(43) == 'r' && Base64Digit(34) == 'i' && Base64Digit(39) == 'n' && Base64Digit(32) == 'g';
  }

  /** The two readings agree on every id whose key is not an inherited name. */
  lemma AsWrittenAgreesOffPrototype(st: Store, id: seq<byte>)
    requires Base64(id) !in ObjectPrototypeNames
    ensures StoreGetAsWritten(st, id) == if Base64(id) in st.slots then Own(StoreGet(st, id)) else Missing
  {
  }

  /** The shape of every Base64 rendering. */
  predicate Base64Shaped(k: string) {
    |k| % 4 == 0 && forall i :: 0 <= i < |k| ==> IsBase64Digit(k[i]) || k[i] == '='
  }

  lemma ShapedPrototypeNames(k: string)
    requires k in ObjectPrototypeNames && Base64Shaped(k)
    ensures k == "toString" || k == "propertyIsEnumerable"
  {
    assert k[0] != '_';
    assert |k| != 11 && |k| != 7 && |k| != 9 && |k| != 13;
    assert k != "hasOwnProperty" && k != "toLocaleString";
  }

  /** Only two inherited names are Base64 renderings at all: the others
      contain `_` or have a length that is not a multiple of four. */
  lemma OnlyTwoNamesReachable(st: Store, id: seq<byte>)
    ensures StoreGetAsWritten(st, id).Inherited? ==>
      Base64(id) == "toString" || Base64(id) == "propertyIsEnumerable"
  {
    var k := Base64(id);
    Base64IsShaped(id);
    if k in ObjectPrototypeNames {
      ShapedPrototypeNames(k);
    }
  }

  lemma Base64IsShaped(bs: seq<byte>)
    ensures Base64Shaped(Base64(bs))
  {
    FourTimesMod((|bs| + 2) / 3);
  }

  lemma FourTimesMod(n: int)
    ensures (4 * n) % 4 == 0
  {
  }
}

=== FILE: worker.dfy ===
/** One worker's configuration load (`loadConfig`): unbind every server,
    bind every port of the new configuration through the two registries,
    then close the listeners nothing observes any more.

    `async.parallel` starts every port task, one after another, before any
    new listener has finished binding. The load therefore runs in two
    passes: the synchronous part of every task in port order, then the end
    of every bind that was left under way. The operating system's and the
    server constructor's answers are inputs. */
module Worker {
  import opened JsValues
  import opened PortSpec
  import opened Router
  import opened Registry

  /** The environment's answers for one port entry: whether building a new
      application server throws, whether `listen` throws at once, whether
      the bind of a new listener ends with an `error` event, and whether the
      application server emits `error` while its new listener is binding. */
  datatype PortOracle = PortOracle(
    constructError: Option<NodeError>,
    listenError: Option<NodeError>,
    bindError: Option<NodeError>,
    earlyError: Option<NodeError>)

  /** An environment that lets a port through. */
  const Clean := PortOracle(None, None, None, None)

  /** What one port task passed to its callback: `callback(err, server)`. */
  datatype Report = Report(spec: string, err: Option<NodeError>, server: Option<AppServer>)

  /** Where one port task stands. A `Silent` task never calls back. An
      `Awaiting` task's new listener is still binding: `serverHooked` says
      whether its `listening`/`error` handlers are still on its application
      server, `listenerHooked` whether its listen callback and its
      bind-error handler are still on the listener. */
  datatype Task =
    | Silent(spec: string)
    | Called(spec: string, err: Option<NodeError>, server: Option<AppServer>)
    | Awaiting(spec: string, key: string, app: AppServer, serverHooked: bool, listenerHooked: bool)

  /** The load's accumulator: the worker state, one task per port entry
      started so far, and the keys whose listener got a connection
      forwarder during this load. */
  datatype Progress = Progress(st: WorkerState, tasks: seq<Task>, obtained: set<string>)

  /** The port entries `Object.keys(config.ports || {})` walks. */
  function PortEntries(config: JsValue): seq<Prop> {
    OwnEntries(Or(Get(config, "ports"), JObj([])))
  }

  // ---------------------------------------------------------------------
  // The synchronous pass

  /** `server.removeAllListeners()` on the server cached under `key`
      (`HttpSimpleProxyWorker.js` line 162): a task still waiting on that
      server hears nothing from it any more. Every cache entry holds a server
      of its own, so the server is identified by its key. */
  function LoseServer(t: Task, key: string): Task {
    if t.Awaiting? && t.key == key then t.(serverHooked := false) else t
  }

  /** `tcpServer.removeAllListeners()` on the listener registered under
      `key` (line 228): the listen callback and the bind-error handler of a
      task waiting on that listener are gone. */
  function LoseListener(t: Task, key: string): Task {
    if t.Awaiting? && t.key == key then t.(listenerHooked := false) else t
  }

  function StripServer(tasks: seq<Task>, key: string): (r: seq<Task>)
    ensures |r| == |tasks|
  {
    seq(|tasks|, j requires 0 <= j < |tasks| => LoseServer(tasks[j], key))
  }

  function StripListener(tasks: seq<Task>, key: string): (r: seq<Task>)
    ensures |r| == |tasks|
  {
    seq(|tasks|, j requires 0 <= j < |tasks| => LoseListener(tasks[j], key))
  }

  /** The synchronous part of one port task (`HttpSimpleProxyWorker.js`
      lines 256-264). A specification the pattern does not match never calls
      back. `None` when the worker throws: a `null` port configuration
      breaks router normalisation. */
  function SyncTask(p: Progress, entry: Prop, o: PortOracle, configMiddleware: JsValue): Option<Progress> {
    match Parse(entry.name)
    case None => Some(p.(tasks := p.tasks + [Silent(entry.name)]))
    case Some(ps) =>
      if NormaliseRouter(p.st.middleware, configMiddleware, entry.value).None? then None
      else Some(BindPort(p, entry.name, SpecKey(ps), entry.value, o))
  }

  /** `HttpSimpleProxyWorker.js` lines 186-197 and 225: obtain the
      application server, which strips the server cached under the key,
      then the listener. An `undefined` port configuration throws before the
      cache is consulted, and a constructor that throws after the strip; the
      `try` turns either into the task's error. */
  function BindPort(p: Progress, spec: string, key: string, portConfig: JsValue, o: PortOracle): Progress {
    var (st1, made) := ServerForPortConfig(p.st, key, portConfig, o.constructError);
    if made.ReadThrew? then Progress(p.st, p.tasks + [Called(spec, Some(made.err), None)], p.obtained)
    else
      var tasks := StripServer(p.tasks, key);
      if made.ConstructFailed? then Progress(st1, tasks + [Called(spec, Some(made.err), None)], p.obtained)
      else ConnectListener(Progress(st1, tasks, p.obtained), spec, key, made.server, o)
  }

  /** `HttpSimpleProxyWorker.js` lines 27-52 and 225-238, up to the return to
      the event loop. A listener already registered, even one still binding
      for an earlier task, is stripped and gets the forwarder, and the task
      calls back with its server at once. A new listener leaves the task
      awaiting its bind. A `listen` that throws calls back with the error. */
  function ConnectListener(p: Progress, spec: string, key: string, server: AppServer, o: PortOracle): Progress {
    var (st2, got) := ObtainListener(p.st, key, o.listenError);
    match got
    case Found(_) =>
      Progress(AttachForwarder(st2, key), StripListener(p.tasks, key) + [Called(spec, None, Some(server))], p.obtained + {key})
    case Registered(_) =>
      Progress(st2, p.tasks + [Awaiting(spec, key, server, true, true)], p.obtained)
    case ListenThrew(e) =>
      Progress(st2, p.tasks + [Called(spec, Some(e), None)], p.obtained)
  }

  /** The synchronous part of every port task, in port order. */
  function SyncPass(start: WorkerState, entries: seq<Prop>, oracle: string -> PortOracle, configMiddleware: JsValue): Option<Progress>
    decreases |entries|
  {
    if entries == [] then Some(Progress(start, [], {}))
    else match SyncPass(start, entries[..|entries| - 1], oracle, configMiddleware)
      case None => None
      case Some(p) => SyncTask(p, entries[|entries| - 1], oracle(entries[|entries| - 1].name), configMiddleware)
  }

  // ---------------------------------------------------------------------
  // The binds left under way

  /** What becomes of a task once its bind has ended; `None` when the
      worker throws. An early `error` reaches the task's `errorHandler`
      (lines 205-209) while the server hook is in place; otherwise it hits a
      server whose `error` listeners are gone. A failed bind reaches the task
      through the handler of lines 45-48 while the listener hook is in place,
      and that second callback after an early error makes `async` throw;
      without the hook, the forwarder of the task that stripped the listener
      hands the error to a server without an `error` listener. A successful
      bind reaches the task's `listening` handler only while both hooks are
      in place. */
  function Fate(t: Task, o: PortOracle): (r: Option<Task>)
    ensures r.Some? ==> !r.value.Awaiting? && r.value.spec == t.spec
    ensures !t.Awaiting? ==> r == Some(t)
  {
    if !t.Awaiting? then Some(t)
    else if o.earlyError.Some? && !t.serverHooked then None
    else if o.bindError.Some? then
      if !t.listenerHooked || o.earlyError.Some? then None
      else Some(Called(t.spec, o.bindError, None))
    else if o.earlyError.Some? then Some(Called(t.spec, o.earlyError, Some(t.app)))
    else if t.serverHooked && t.listenerHooked then Some(Called(t.spec, None, Some(t.app)))
    else Some(Silent(t.spec))
  }

  /** The end of task `i`'s bind. While the listener hook is in place, a
      successful bind gives the listener its forwarder (lines 225-237) and a
      failed one removes its registration (line 46). */
  function SettleAt(p: Progress, i: nat, oracle: string -> PortOracle): (r: Option<Progress>)
    ensures r.Some? ==> |r.value.tasks| == |p.tasks|
  {
    if i >= |p.tasks| || !p.tasks[i].Awaiting? then Some(p)
    else
      var t := p.tasks[i];
      var o := oracle(t.spec);
      match Fate(t, o)
      case None => None
      case Some(after) =>
        if !t.listenerHooked then Some(p.(tasks := p.tasks[i := after]))
        else if o.bindError.Some? then
          Some(Progress(p.st.(listeners := p.st.listeners - {t.key}), p.tasks[i := after], p.obtained))
        else if t.key in p.st.listeners then
          Some(Progress(AttachForwarder(p.st, t.key), p.tasks[i := after], p.obtained + {t.key}))
        else Some(p.(tasks := p.tasks[i := after]))
  }

  /** The binds under way end in port order, one admissible order of the
      operating system's events. */
  function SettleFrom(p: Progress, i: nat, oracle: string -> PortOracle): Option<Progress>
    decreases |p.tasks| - i
  {
    if i >= |p.tasks| then Some(p)
    else match SettleAt(p, i, oracle)
      case None => None
      case Some(q) => SettleFrom(q, i + 1, oracle)
  }

  // ---------------------------------------------------------------------
  // The end of the load

  predicate AllCalled(tasks: seq<Task>) {
    forall j :: 0 <= j < |tasks| ==> tasks[j].Called?
  }

  /** The arguments each task passed to its callback, in port order. */
  function Reports(tasks: seq<Task>): (r: seq<Report>)
    ensures |r| == |tasks|
  {
    seq(|tasks|, j requires 0 <= j < |tasks| =>
      if tasks[j].Called? then Report(tasks[j].spec, tasks[j].err, tasks[j].server) else Report(tasks[j].spec, None, None))
  }

  /** The `errors` object: `errors[spec] = err` for every callback that
      carried an error (line 270), in port order. */
  function ErrorsObject(reports: seq<Report>): seq<Prop>
    decreases |reports|
  {
    if reports == [] then []
    else
      var last := reports[|reports| - 1];
      var before := ErrorsObject(reports[..|reports| - 1]);
      if last.err.Some? then SetProp(before, last.spec, ErrorValue(last.err.value)) else before
  }

  /** The non-null results, in port order (`results.filter(...)`). */
  function Servers(reports: seq<Report>): (r: seq<AppServer>)
    ensures |r| <= |reports|
    ensures forall s :: s in r <==> exists j :: 0 <= j < |reports| && reports[j].server == Some(s)
  {
    if reports == [] then []
    else
      var last := reports[|reports| - 1];
      Servers(reports[..|reports| - 1]) + (if last.server.Some? then [last.server.value] else [])
  }

  datatype HandleOutcome =
    | Handled(st: WorkerState, err: Option<seq<Prop>>, obtained: set<string>, reports: seq<Report>)
    | Unfinished(st: WorkerState)
    | HandleThrew

  /** `handleConfig`: start every port task, let the binds end; once every
      task has called back, keep the servers and pass `null` or the `errors`
      object to the caller. */
  function HandleConfig(st: WorkerState, config: JsValue, oracle: string -> PortOracle): HandleOutcome
  {
    var st0 := st.(config := config);
    match SyncPass(st0, PortEntries(config), oracle, Get(config, "middleware"))
    case None => HandleThrew
    case Some(p) =>
      match SettleFrom(p, 0, oracle)
      case None => HandleThrew
      case Some(q) =>
        if !AllCalled(q.tasks) then Unfinished(q.st)
        else
          var reports := Reports(q.tasks);
          var errors := ErrorsObject(reports);
          Handled(q.st.(servers := Servers(reports)), if errors == [] then None else Some(errors), q.obtained, reports)
  }

  function ServerIds(servers: seq<AppServer>): set<nat> {
    set i | 0 <= i < |servers| :: servers[i].id
  }

  /** `unbindAll`: every active server is unreferenced and forgotten, every
      listener loses all its observers; no registry key is removed. */
  function UnbindAll(st: WorkerState): (r: WorkerState)
    ensures r.servers == []
    ensures r.unreferenced == st.unreferenced + ServerIds(st.servers)
    ensures r.listeners.Keys == st.listeners.Keys
    ensures forall k :: k in r.listeners ==> r.listeners[k] == Listener(st.listeners[k].id, 0)
    ensures r.cache == st.cache && r.config == st.config && r.middleware == st.middleware && r.nextId == st.nextId
  {
    st.(servers := [],
        unreferenced := st.unreferenced + ServerIds(st.servers),
        listeners := map k | k in st.listeners :: Listener(st.listeners[k].id, 0))
  }

  /** `gcServers`: every listener without a `connection` observer is closed
      and removed together with its cached application server; everything
      else stays. The closed listeners' identities are returned. */
  function GcServers(st: WorkerState): (r: (WorkerState, set<nat>))
    ensures forall k :: k in r.0.listeners <==> k in st.listeners && st.listeners[k].observers > 0
    ensures forall k :: k in r.0.listeners ==> r.0.listeners[k] == st.listeners[k]
    ensures forall k :: k in r.0.cache <==> k in st.cache && !(k in st.listeners && st.listeners[k].observers == 0)
    ensures forall k :: k in r.0.cache ==> r.0.cache[k] == st.cache[k]
    ensures r.1 == set k | k in st.listeners && st.listeners[k].observers == 0 :: st.listeners[k].id
    ensures r.0.servers == st.servers && r.0.nextId == st.nextId && r.0.config == st.config
    ensures r.0.middleware == st.middleware && r.0.unreferenced == st.unreferenced
  {
    var idle := set k | k in st.listeners && st.listeners[k].observers == 0;
    (st.(listeners := st.listeners - idle, cache := st.cache - idle),
     set k | k in idle :: st.listeners[k].id)
  }

  datatype LoadOutcome =
    | Loaded(st: WorkerState, err: Option<seq<Prop>>, obtained: set<string>, reports: seq<Report>)
    | NeverLoaded(st: WorkerState)
    | LoadThrew

  /** `loadConfig`: unbind, rebind every port, collect idle listeners, then
      report. A nullish configuration throws on `config.modules`; a load
      some of whose port tasks never call back never collects or reports. */
  function LoadConfig(st: WorkerState, config: JsValue, oracle: string -> PortOracle): LoadOutcome
  {
    if IsNullish(config) then LoadThrew
    else
      match HandleConfig(UnbindAll(st.(config := config)), config, oracle)
      case HandleThrew => LoadThrew
      case Unfinished(st1) => NeverLoaded(st1)
      case Handled(st1, err, obtained, reports) => Loaded(GcServers(st1).0, err, obtained, reports)
  }

  /** The state the port tasks start from. */
  function Unbound(st: WorkerState, config: JsValue): WorkerState {
    UnbindAll(st.(config := config)).(config := config)
  }

  // ---------------------------------------------------------------------
  // Port entries and their keys

  /** The listener key a port entry binds, when its specification parses. */
  function EntryKey(entry: Prop): Option<string> {
    match Parse(entry.name)
    case None => None
    case Some(ps) => Some(SpecKey(ps))
  }

  function DoneKeys(done: seq<Prop>): set<string> {
    set j | 0 <= j < |done| && EntryKey(done[j]).Some? :: EntryKey(done[j]).value
  }

  /** No two port entries of the configuration bind the same key. */
  ghost predicate DistinctKeys(entries: seq<Prop>) {
    forall i, j :: 0 <= i < j < |entries| && EntryKey(entries[i]).Some? && EntryKey(entries[j]).Some? ==>
      EntryKey(entries[i]).value != EntryKey(entries[j]).value
  }

  /** The key under which a port entry's task reaches the server cache
      (line 159) and may strip hooks: its registry key, unless its
      configuration is `undefined` and the task throws first (line 157). */
  function ReachedKey(entry: Prop): (r: Option<string>)
    ensures r.Some? <==> EntryKey(entry).Some? && !entry.value.JUndefined?
    ensures r.Some? ==> r == EntryKey(entry)
  {
    if entry.value.JUndefined? then None else EntryKey(entry)
  }

  /** No entry after the `j`-th reaches the cache under the key the `j`-th
      binds. */
  ghost predicate NoLaterKey(entries: seq<Prop>, j: int) {
    forall m :: 0 <= j < m < |entries| ==> ReachedKey(entries[m]) != EntryKey(entries[j])
  }

  /** Every key two port entries share is listening already. */
  ghost predicate SharedKeysListening(entries: seq<Prop>, listening: set<string>) {
    forall i, j :: 0 <= i < j < |entries| && EntryKey(entries[i]).Some? && EntryKey(entries[j]) == EntryKey(entries[i]) ==>
      EntryKey(entries[i]).value in listening
  }

  function Names(entries: seq<Prop>): set<string> {
    set j | 0 <= j < |entries| :: entries[j].name
  }

  /** The port specifications are distinct, as the keys of a JavaScript
      object are. */
  ghost predicate DistinctNames(entries: seq<Prop>) {
    forall i, j :: 0 <= i < j < |entries| ==> entries[i].name != entries[j].name
  }

  /** The value the `errors` object should hold for a callback. */
  function ErrorOf(rep: Report): JsValue {
    if rep.err.Some? then ErrorValue(rep.err.value) else JUndefined
  }

  lemma SplitLast(s: seq<Prop>)
    requires s != []
    ensures s[..|s| - 1] + [s[|s| - 1]] == s
  {
  }

  lemma DoneKeysAppend(done: seq<Prop>, entry: Prop, all: seq<Prop>)
    requires all == done + [entry]
    ensures DoneKeys(all) == DoneKeys(done) + (if EntryKey(entry).Some? then {EntryKey(entry).value} else {})
  {
    assert forall j :: 0 <= j < |done| ==> all[j] == done[j];
    assert all[|done|] == entry;
  }

  lemma NoLaterKeyAppend(done: seq<Prop>, entry: Prop, all: seq<Prop>, j: int)
    requires all == done + [entry] && 0 <= j < |done|
    ensures NoLaterKey(all, j) <==> NoLaterKey(done, j) && ReachedKey(entry) != EntryKey(done[j])
  {
    assert forall m :: 0 <= m < |done| ==> all[m] == done[m];
    assert all[|done|] == entry;
  }

  // ---------------------------------------------------------------------
  // What the synchronous part of one task does

  /** `u` is `t`, with at most some hooks removed. */
  ghost predicate Weakened(t: Task, u: Task) {
    if t.Awaiting? then
      && u.Awaiting? && u.spec == t.spec && u.key == t.key && u.app == t.app
      && (u.serverHooked ==> t.serverHooked) && (u.listenerHooked ==> t.listenerHooked)
    else u == t
  }

  lemma StripFacts(tasks: seq<Task>, key: string)
    ensures forall j :: 0 <= j < |tasks| ==> Weakened(tasks[j], StripServer(tasks, key)[j])
    ensures forall j :: 0 <= j < |tasks| ==> Weakened(tasks[j], StripListener(tasks, key)[j])
    ensures forall j :: 0 <= j < |tasks| && !(tasks[j].Awaiting? && tasks[j].key == key) ==>
      StripServer(tasks, key)[j] == tasks[j] && StripListener(tasks, key)[j] == tasks[j]
    ensures forall j :: 0 <= j < |tasks| && tasks[j].Awaiting? && tasks[j].key == key ==>
      !StripServer(tasks, key)[j].serverHooked && StripServer(tasks, key)[j].listenerHooked == tasks[j].listenerHooked
      && !StripListener(tasks, key)[j].listenerHooked && StripListener(tasks, key)[j].serverHooked == tasks[j].serverHooked
  {
  }

  /** The synchronous part of one port task adds exactly its own task at the
      end: `Silent` when its specification does not match, otherwise called
      back, with a server unless it carries the constructor's or `listen`'s
      error or the `TypeError` of an `undefined` configuration, or awaiting
      its own new listener with both hooks in place. An `undefined`
      configuration changes nothing else. An earlier task waiting on the
      key the new task reaches the cache under loses its server hook; no
      other earlier task changes, and no earlier task gains a hook. */
  lemma PortTaskStarts(p: Progress, entry: Prop, o: PortOracle, cm: JsValue)
    requires SyncTask(p, entry, o, cm).Some?
    ensures var q := SyncTask(p, entry, o, cm).value; var n := |p.tasks|;
      && |q.tasks| == n + 1
      && q.tasks[n].spec == entry.name
      && (q.tasks[n].Silent? <==> EntryKey(entry).None?)
      && (q.tasks[n].Awaiting? ==>
            EntryKey(entry) == Some(q.tasks[n].key) && q.tasks[n].serverHooked && q.tasks[n].listenerHooked)
      && (q.tasks[n].Called? && q.tasks[n].err.None? ==> q.tasks[n].server.Some?)
      && (q.tasks[n].Called? && q.tasks[n].err.Some? ==>
            o.constructError.Some? || o.listenError.Some? || entry.value.JUndefined?)
      && (EntryKey(entry).Some? && entry.value.JUndefined? ==>
            q.tasks[n] == Called(entry.name, Some(PropertyOfUndefined), None) && q.st == p.st)
      && (forall j :: 0 <= j < n ==> Weakened(p.tasks[j], q.tasks[j]))
      && (forall j :: 0 <= j < n && p.tasks[j].Awaiting? && ReachedKey(entry) == Some(p.tasks[j].key) ==>
            !q.tasks[j].serverHooked)
      && (forall j :: 0 <= j < n && p.tasks[j].Awaiting? && ReachedKey(entry) != Some(p.tasks[j].key) ==>
            q.tasks[j] == p.tasks[j])
  {
    match Parse(entry.name)
    case None =>
    case Some(ps) => BindPortStarts(p, entry.name, SpecKey(ps), entry.value, o);
  }

  lemma ConnectListenerStarts(p: Progress, spec: string, key: string, server: AppServer, o: PortOracle)
    ensures var q := ConnectListener(p, spec, key, server, o); var n := |p.tasks|;
      && |q.tasks| == n + 1
      && q.tasks[n].spec == spec && !q.tasks[n].Silent?
      && (q.tasks[n].Awaiting? ==> q.tasks[n].key == key && q.tasks[n].serverHooked && q.tasks[n].listenerHooked)
      && (q.tasks[n].Called? && q.tasks[n].err.None? ==> q.tasks[n].server.Some?)
      && (q.tasks[n].Called? && q.tasks[n].err.Some? ==> o.listenError.Some?)
      && (forall j :: 0 <= j < n ==> Weakened(p.tasks[j], q.tasks[j]))
      && (forall j :: 0 <= j < n && p.tasks[j].Awaiting? ==> q.tasks[j].serverHooked == p.tasks[j].serverHooked)
      && (forall j :: 0 <= j < n && !(p.tasks[j].Awaiting? && p.tasks[j].key == key) ==> q.tasks[j] == p.tasks[j])
  {
    StripFacts(p.tasks, key);
    var (st2, got) := ObtainListener(p.st, key, o.listenError);
  }

  lemma BindPortStarts(p: Progress, spec: string, key: string, portConfig: JsValue, o: PortOracle)
    ensures var q := BindPort(p, spec, key, portConfig, o); var n := |p.tasks|;
      && |q.tasks| == n + 1
      && q.tasks[n].spec == spec && !q.tasks[n].Silent?
      && (q.tasks[n].Awaiting? ==> q.tasks[n].key == key && q.tasks[n].serverHooked && q.tasks[n].listenerHooked)
      && (q.tasks[n].Called? && q.tasks[n].err.None? ==> q.tasks[n].server.Some?)
      && (q.tasks[n].Called? && q.tasks[n].err.Some? ==>
            o.constructError.Some? || o.listenError.Some? || portConfig.JUndefined?)
      && (portConfig.JUndefined? ==> q.tasks[n] == Called(spec, Some(PropertyOfUndefined), None) && q.st == p.st)
      && (forall j :: 0 <= j < n ==> Weakened(p.tasks[j], q.tasks[j]))
      && (forall j :: 0 <= j < n && p.tasks[j].Awaiting? && !portConfig.JUndefined? && p.tasks[j].key == key ==>
            !q.tasks[j].serverHooked)
      && (forall j :: 0 <= j < n && p.tasks[j].Awaiting? && (portConfig.JUndefined? || p.tasks[j].key != key) ==>
            q.tasks[j] == p.tasks[j])
  {
    var q := BindPort(p, spec, key, portConfig, o);
    var n := |p.tasks|;
    var (st1, made) := ServerForPortConfig(p.st, key, portConfig, o.constructError);
    if made.ReadThrew? {
      assert forall j :: 0 <= j < n ==> q.tasks[j] == p.tasks[j];
    } else {
      var stripped := StripServer(p.tasks, key);
      StripFacts(p.tasks, key);
      if made.ConstructFailed? {
        assert forall j :: 0 <= j < n ==> q.tasks[j] == stripped[j];
      } else {
        ConnectListenerStarts(Progress(st1, stripped, p.obtained), spec, key, made.server, o);
      }
    }
  }

  // ---------------------------------------------------------------------
  // The listener registry across a load

  /** A task awaiting its bind waits on a key that was not listening when
      the load began and has a cached server; while its listener hook is in
      place, its listener is registered and has no forwarder yet, and once
      the hook is gone some later task has attached its forwarder. */
  ghost predicate AwaitFits(st0: WorkerState, p: Progress, t: Task)
    requires t.Awaiting?
  {
    && t.key !in st0.listeners
    && t.key in p.st.cache
    && (t.listenerHooked ==> t.key in p.st.listeners && t.key !in p.obtained)
    && (!t.listenerHooked ==> t.key in p.obtained)
  }

  /** The load's invariant relative to the unbound state `st0`. */
  ghost predicate ListenersTrack(st0: WorkerState, p: Progress) {
    && p.obtained <= p.st.listeners.Keys
    && p.obtained <= p.st.cache.Keys
    && (forall k :: k in p.st.listeners ==> p.st.listeners[k].observers == if k in p.obtained then 1 else 0)
    && (forall k :: k in st0.listeners ==> k in p.st.listeners && p.st.listeners[k].id == st0.listeners[k].id)
    && (forall j :: 0 <= j < |p.tasks| && p.tasks[j].Awaiting? ==> AwaitFits(st0, p, p.tasks[j]))
    && (forall i, j ::
          (0 <= i < j < |p.tasks| && p.tasks[i].Awaiting? && p.tasks[j].Awaiting?
           && p.tasks[i].listenerHooked && p.tasks[j].listenerHooked) ==> p.tasks[i].key != p.tasks[j].key)
  }

  ghost predicate Unattached(st: WorkerState) {
    forall k :: k in st.listeners ==> st.listeners[k].observers == 0
  }

  lemma ServerTracks(st0: WorkerState, p: Progress, key: string, portConfig: JsValue, o: PortOracle)
    requires ListenersTrack(st0, p)
    ensures var (st1, made) := ServerForPortConfig(p.st, key, portConfig, o.constructError);
      && ListenersTrack(st0, Progress(st1, StripServer(p.tasks, key), p.obtained))
      && (made.Created? || made.Reused? ==> key in st1.cache)
  {
    var stripped := StripServer(p.tasks, key);
    StripFacts(p.tasks, key);
    assert forall j :: 0 <= j < |stripped| ==> stripped[j].Awaiting? == p.tasks[j].Awaiting?;
  }

  lemma ConnectListenerTracks(st0: WorkerState, p: Progress, spec: string, key: string, server: AppServer, o: PortOracle)
    requires ListenersTrack(st0, p)
    requires key in p.st.cache
    ensures ListenersTrack(st0, ConnectListener(p, spec, key, server, o))
  {
    var (st2, got) := ObtainListener(p.st, key, o.listenError);
    if got.Found? {
      ConnectFoundTracks(st0, p, spec, key, server);
    } else {
      ConnectNewTracks(st0, p, st2, key, ConnectListener(p, spec, key, server, o).tasks[|p.tasks|]);
    }
  }

  /** A key already listening: the new task takes the listener hook of any
      earlier task waiting on it and attaches the forwarder. */
  lemma ConnectFoundTracks(st0: WorkerState, p: Progress, spec: string, key: string, server: AppServer)
    requires ListenersTrack(st0, p)
    requires key in p.st.cache && key in p.st.listeners
    ensures ListenersTrack(st0, Progress(AttachForwarder(p.st, key), StripListener(p.tasks, key) + [Called(spec, None, Some(server))],
                                         p.obtained + {key}))
  {
    var q := Progress(AttachForwarder(p.st, key), StripListener(p.tasks, key) + [Called(spec, None, Some(server))], p.obtained + {key});
    var n := |p.tasks|;
    var stripped := StripListener(p.tasks, key);
    StripFacts(p.tasks, key);
    assert forall j :: 0 <= j < n ==> q.tasks[j] == stripped[j];
    assert forall j :: 0 <= j < n && q.tasks[j].Awaiting? && q.tasks[j].listenerHooked ==> q.tasks[j].key != key;
  }

  /** A key not yet listening: a new listener without forwarder is
      registered and the new task, if it awaits, waits on it. */
  lemma ConnectNewTracks(st0: WorkerState, p: Progress, st2: WorkerState, key: string, t: Task)
    requires ListenersTrack(st0, p)
    requires key in p.st.cache && key !in p.st.listeners
    requires st2.cache == p.st.cache && st2.listeners.Keys == p.st.listeners.Keys + {key}
    requires st2.listeners[key].observers == 0
    requires forall k :: k in p.st.listeners ==> st2.listeners[k] == p.st.listeners[k]
    requires t.Awaiting? ==> t.key == key && t.listenerHooked
    ensures ListenersTrack(st0, Progress(st2, p.tasks + [t], p.obtained))
  {
    var q := Progress(st2, p.tasks + [t], p.obtained);
    var n := |p.tasks|;
    assert forall j :: 0 <= j < n ==> q.tasks[j] == p.tasks[j];
    assert forall j :: 0 <= j < n && p.tasks[j].Awaiting? && p.tasks[j].listenerHooked ==> p.tasks[j].key != key;
  }

  lemma AppendSettledTracks(st0: WorkerState, p: Progress, t: Task)
    requires ListenersTrack(st0, p) && !t.Awaiting?
    ensures ListenersTrack(st0, p.(tasks := p.tasks + [t]))
  {
    var q := p.(tasks := p.tasks + [t]);
    assert forall j :: 0 <= j < |p.tasks| ==> q.tasks[j] == p.tasks[j];
  }

  lemma BindPortTracks(st0: WorkerState, p: Progress, spec: string, key: string, portConfig: JsValue, o: PortOracle)
    requires ListenersTrack(st0, p)
    ensures ListenersTrack(st0, BindPort(p, spec, key, portConfig, o))
  {
    ServerTracks(st0, p, key, portConfig, o);
    var (st1, made) := ServerForPortConfig(p.st, key, portConfig, o.constructError);
    if made.ReadThrew? {
      AppendSettledTracks(st0, p, Called(spec, Some(made.err), None));
    } else if made.ConstructFailed? {
      AppendSettledTracks(st0, Progress(st1, StripServer(p.tasks, key), p.obtained), Called(spec, Some(made.err), None));
    } else {
      ConnectListenerTracks(st0, Progress(st1, StripServer(p.tasks, key), p.obtained), spec, key, made.server, o);
    }
  }

  lemma SyncTaskTracks(st0: WorkerState, p: Progress, entry: Prop, o: PortOracle, cm: JsValue)
    requires ListenersTrack(st0, p)
    requires SyncTask(p, entry, o, cm).Some?
    ensures ListenersTrack(st0, SyncTask(p, entry, o, cm).value)
  {
    match Parse(entry.name)
    case None => AppendSettledTracks(st0, p, Silent(entry.name));
    case Some(ps) => BindPortTracks(st0, p, entry.name, SpecKey(ps), entry.value, o);
  }

  /** The entries, tasks and keys of the synchronous pass line up. */
  ghost predicate ServedTrack(st0: WorkerState, done: seq<Prop>, p: Progress) {
    && |p.tasks| == |done|
    && p.obtained <= DoneKeys(done)
    && p.st.listeners.Keys <= st0.listeners.Keys + DoneKeys(done)
    && (forall j :: 0 <= j < |done| ==> p.tasks[j].spec == done[j].name)
    && (forall j :: 0 <= j < |done| && p.tasks[j].Awaiting? ==> EntryKey(done[j]) == Some(p.tasks[j].key))
    && (forall j :: 0 <= j < |done| && p.tasks[j].Called? && p.tasks[j].server.Some? ==>
          EntryKey(done[j]).Some? && EntryKey(done[j]).value in p.obtained)
  }

  /** What the synchronous pass promises about the `j`-th task: it is
      `Silent` exactly when its specification does not match; awaiting its
      bind, it keeps its server hook exactly when no later entry shares its
      key, and then its listener hook too; called back, it carries a server
      or the constructor's or `listen`'s error or the `TypeError` of an
      `undefined` configuration. */
  ghost predicate PassFits(oracle: string -> PortOracle, done: seq<Prop>, j: int, t: Task)
    requires 0 <= j < |done|
  {
    && (t.Silent? <==> EntryKey(done[j]).None?)
    && (t.Awaiting? ==> (t.serverHooked <==> NoLaterKey(done, j)) && (NoLaterKey(done, j) ==> t.listenerHooked))
    && (t.Called? && t.err.None? ==> t.server.Some?)
    && (t.Called? && t.err.Some? ==>
          oracle(done[j].name).constructError.Some? || oracle(done[j].name).listenError.Some? || done[j].value.JUndefined?)
  }

  ghost predicate PassTrack(oracle: string -> PortOracle, done: seq<Prop>, p: Progress) {
    |p.tasks| == |done| && forall j :: 0 <= j < |done| ==> PassFits(oracle, done, j, p.tasks[j])
  }

  function KeySet(entry: Prop): set<string> {
    if EntryKey(entry).Some? then {EntryKey(entry).value} else {}
  }

  lemma SyncTaskState(p: Progress, entry: Prop, o: PortOracle, cm: JsValue)
    requires SyncTask(p, entry, o, cm).Some?
    ensures var q := SyncTask(p, entry, o, cm).value;
      && p.obtained <= q.obtained <= p.obtained + KeySet(entry)
      && q.st.listeners.Keys <= p.st.listeners.Keys + KeySet(entry)
      && (|q.tasks| == |p.tasks| + 1 && q.tasks[|p.tasks|].Called? && q.tasks[|p.tasks|].server.Some? ==>
            EntryKey(entry).Some? && EntryKey(entry).value in q.obtained)
  {
    match Parse(entry.name)
    case None =>
    case Some(ps) => BindPortState(p, entry.name, SpecKey(ps), entry.value, o);
  }

  lemma BindPortState(p: Progress, spec: string, key: string, portConfig: JsValue, o: PortOracle)
    ensures var q := BindPort(p, spec, key, portConfig, o);
      && p.obtained <= q.obtained <= p.obtained + {key}
      && q.st.listeners.Keys <= p.st.listeners.Keys + {key}
      && |q.tasks| == |p.tasks| + 1
      && (q.tasks[|p.tasks|].Called? && q.tasks[|p.tasks|].server.Some? ==> key in q.obtained)
  {
    var (st1, made) := ServerForPortConfig(p.st, key, portConfig, o.constructError);
    if made.Created? || made.Reused? {
      var (st2, got) := ObtainListener(st1, key, o.listenError);
    }
  }

  /** `q` is `p` after the synchronous part of the task for `entry`, as far
      as the alignment of tasks, entries and keys goes. */
  ghost predicate ServedStep(p: Progress, q: Progress, entry: Prop) {
    && |q.tasks| == |p.tasks| + 1
    && p.obtained <= q.obtained <= p.obtained + KeySet(entry)
    && q.st.listeners.Keys <= p.st.listeners.Keys + KeySet(entry)
    && q.tasks[|p.tasks|].spec == entry.name
    && (q.tasks[|p.tasks|].Awaiting? ==> EntryKey(entry) == Some(q.tasks[|p.tasks|].key))
    && (q.tasks[|p.tasks|].Called? && q.tasks[|p.tasks|].server.Some? ==>
          EntryKey(entry).Some? && EntryKey(entry).value in q.obtained)
    && (forall j :: 0 <= j < |p.tasks| ==> Weakened(p.tasks[j], q.tasks[j]))
  }

  lemma ServedStepTracks(st0: WorkerState, done: seq<Prop>, p: Progress, q: Progress, entry: Prop)
    requires ServedTrack(st0, done, p) && ServedStep(p, q, entry)
    ensures ServedTrack(st0, done + [entry], q)
  {
    var all := done + [entry];
    var n := |done|;
    DoneKeysAppend(done, entry, all);
    forall j | 0 <= j < |all|
      ensures q.tasks[j].spec == all[j].name
      ensures q.tasks[j].Awaiting? ==> EntryKey(all[j]) == Some(q.tasks[j].key)
      ensures q.tasks[j].Called? && q.tasks[j].server.Some? ==> EntryKey(all[j]).Some? && EntryKey(all[j]).value in q.obtained
    {
      if j < n {
        assert all[j] == done[j];
        assert Weakened(p.tasks[j], q.tasks[j]);
      } else {
        assert all[j] == entry;
      }
    }
  }

  lemma SyncTaskServed(st0: WorkerState, done: seq<Prop>, p: Progress, entry: Prop, o: PortOracle, cm: JsValue)
    requires ServedTrack(st0, done, p)
    requires SyncTask(p, entry, o, cm).Some?
    ensures ServedTrack(st0, done + [entry], SyncTask(p, entry, o, cm).value)
  {
    PortTaskStarts(p, entry, o, cm);
    SyncTaskState(p, entry, o, cm);
    ServedStepTracks(st0, done, p, SyncTask(p, entry, o, cm).value, entry);
  }

  lemma SyncTaskPass(oracle: string -> PortOracle, st0: WorkerState, done: seq<Prop>, p: Progress, entry: Prop, cm: JsValue)
    requires PassTrack(oracle, done, p) && ServedTrack(st0, done, p)
    requires SyncTask(p, entry, oracle(entry.name), cm).Some?
    ensures PassTrack(oracle, done + [entry], SyncTask(p, entry, oracle(entry.name), cm).value)
  {
    PortTaskStarts(p, entry, oracle(entry.name), cm);
    PassAppend(oracle, st0, done, p, SyncTask(p, entry, oracle(entry.name), cm).value, entry);
  }

  lemma PassAppend(oracle: string -> PortOracle, st0: WorkerState, done: seq<Prop>, p: Progress, q: Progress, entry: Prop)
    requires PassTrack(oracle, done, p) && ServedTrack(st0, done, p)
    requires var o := oracle(entry.name); var n := |p.tasks|;
      && |q.tasks| == n + 1
      && q.tasks[n].spec == entry.name
      && (q.tasks[n].Silent? <==> EntryKey(entry).None?)
      && (q.tasks[n].Awaiting? ==>
            EntryKey(entry) == Some(q.tasks[n].key) && q.tasks[n].serverHooked && q.tasks[n].listenerHooked)
      && (q.tasks[n].Called? && q.tasks[n].err.None? ==> q.tasks[n].server.Some?)
      && (q.tasks[n].Called? && q.tasks[n].err.Some? ==>
            o.constructError.Some? || o.listenError.Some? || entry.value.JUndefined?)
      && (forall j :: 0 <= j < n ==> Weakened(p.tasks[j], q.tasks[j]))
      && (forall j :: 0 <= j < n && p.tasks[j].Awaiting? && ReachedKey(entry) == Some(p.tasks[j].key) ==>
            !q.tasks[j].serverHooked)
      && (forall j :: 0 <= j < n && p.tasks[j].Awaiting? && ReachedKey(entry) != Some(p.tasks[j].key) ==>
            q.tasks[j] == p.tasks[j])
    ensures PassTrack(oracle, done + [entry], q)
  {
    var all := done + [entry];
    assert forall j :: 0 <= j < |done| ==> all[j] == done[j];
    assert NoLaterKey(all, |done|);
    forall j | 0 <= j < |done|
      ensures PassFits(oracle, all, j, q.tasks[j])
    {
      NoLaterKeyAppend(done, entry, all, j);
    }
  }

  lemma {:induction false} SyncPassTracks(st0: WorkerState, entries: seq<Prop>, oracle: string -> PortOracle, cm: JsValue)
    requires Unattached(st0)
    requires SyncPass(st0, entries, oracle, cm).Some?
    ensures var p := SyncPass(st0, entries, oracle, cm).value;
      ListenersTrack(st0, p) && ServedTrack(st0, entries, p) && PassTrack(oracle, entries, p)
    decreases |entries|
  {
    if entries != [] {
      var prefix := entries[..|entries| - 1];
      var last := entries[|entries| - 1];
      SyncPassTracks(st0, prefix, oracle, cm);
      var p := SyncPass(st0, prefix, oracle, cm).value;
      SplitLast(entries);
      SyncTaskTracks(st0, p, last, oracle(last.name), cm);
      SyncTaskServed(st0, prefix, p, last, oracle(last.name), cm);
      SyncTaskPass(oracle, st0, prefix, p, last, cm);
    }
  }

  // ---------------------------------------------------------------------
  // The end of the binds

  lemma SettleAtFate(p: Progress, i: nat, oracle: string -> PortOracle)
    requires i < |p.tasks|
    ensures SettleAt(p, i, oracle).Some? <==> Fate(p.tasks[i], oracle(p.tasks[i].spec)).Some?
    ensures SettleAt(p, i, oracle).Some? ==>
      SettleAt(p, i, oracle).value.tasks == p.tasks[i := Fate(p.tasks[i], oracle(p.tasks[i].spec)).value]
  {
    if !p.tasks[i].Awaiting? {
      assert p.tasks[i := p.tasks[i]] == p.tasks;
    }
  }

  /** Ending the binds from the `i`-th task on throws exactly when some
      task's fate is to throw; otherwise every task from the `i`-th on has
      met its fate, and the earlier ones are untouched. */
  lemma {:induction false} SettleFromFates(p: Progress, i: nat, oracle: string -> PortOracle)
    ensures SettleFrom(p, i, oracle).Some? <==>
      forall j :: i <= j < |p.tasks| ==> Fate(p.tasks[j], oracle(p.tasks[j].spec)).Some?
    ensures SettleFrom(p, i, oracle).Some? ==>
      var q := SettleFrom(p, i, oracle).value;
      && |q.tasks| == |p.tasks|
      && (forall j :: 0 <= j < i && j < |p.tasks| ==> q.tasks[j] == p.tasks[j])
      && (forall j :: i <= j < |p.tasks| ==> q.tasks[j] == Fate(p.tasks[j], oracle(p.tasks[j].spec)).value)
    decreases |p.tasks| - i
  {
    if i < |p.tasks| {
      SettleAtFate(p, i, oracle);
      var t := p.tasks[i];
      if Fate(t, oracle(t.spec)).Some? {
        var q := SettleAt(p, i, oracle).value;
        SettleFromFates(q, i + 1, oracle);
        assert forall j :: i < j < |p.tasks| ==> q.tasks[j] == p.tasks[j];
        assert q.tasks[i] == Fate(t, oracle(t.spec)).value;
        assert Fate(q.tasks[i], oracle(q.tasks[i].spec)).Some?;
      }
    }
  }

  /** `q` is `p` with its `i`-th task, which was awaiting its bind, settled
      into `after`. */
  ghost predicate SettledTask(p: Progress, q: Progress, i: int, after: Task) {
    && 0 <= i < |p.tasks| && p.tasks[i].Awaiting?
    && !after.Awaiting? && after.spec == p.tasks[i].spec
    && q.tasks == p.tasks[i := after]
  }

  lemma SettledServed(st0: WorkerState, entries: seq<Prop>, p: Progress, q: Progress, i: int, after: Task)
    requires ServedTrack(st0, entries, p) && SettledTask(p, q, i, after)
    requires p.obtained <= q.obtained <= p.obtained + {p.tasks[i].key}
    requires q.st.listeners.Keys <= p.st.listeners.Keys
    requires after.Called? && after.server.Some? ==> p.tasks[i].key in q.obtained
    ensures ServedTrack(st0, entries, q)
  {
    assert EntryKey(entries[i]) == Some(p.tasks[i].key);
    assert p.tasks[i].key in DoneKeys(entries);
    forall j | 0 <= j < |entries|
      ensures q.tasks[j].spec == entries[j].name
      ensures q.tasks[j].Awaiting? ==> EntryKey(entries[j]) == Some(q.tasks[j].key)
      ensures q.tasks[j].Called? && q.tasks[j].server.Some? ==> EntryKey(entries[j]).Some? && EntryKey(entries[j]).value in q.obtained
    {
      if j != i {
        assert q.tasks[j] == p.tasks[j];
      }
    }
  }

  lemma SettledQuietly(st0: WorkerState, p: Progress, q: Progress, i: int, after: Task)
    requires ListenersTrack(st0, p)
    requires SettledTask(p, q, i, after) && q.st == p.st && q.obtained == p.obtained
    ensures ListenersTrack(st0, q)
  {
    forall j | 0 <= j < |q.tasks| && q.tasks[j].Awaiting?
      ensures AwaitFits(st0, q, q.tasks[j])
    {
      assert q.tasks[j] == p.tasks[j];
    }
  }

  lemma SettledRemoved(st0: WorkerState, p: Progress, q: Progress, i: int, after: Task)
    requires ListenersTrack(st0, p)
    requires SettledTask(p, q, i, after) && p.tasks[i].listenerHooked
    requires q.st == p.st.(listeners := p.st.listeners - {p.tasks[i].key}) && q.obtained == p.obtained
    ensures ListenersTrack(st0, q)
  {
    var t := p.tasks[i];
    assert AwaitFits(st0, p, t);
    forall j | 0 <= j < |q.tasks| && q.tasks[j].Awaiting?
      ensures AwaitFits(st0, q, q.tasks[j])
    {
      assert q.tasks[j] == p.tasks[j];
      if p.tasks[j].listenerHooked {
        assert p.tasks[j].key != t.key by {
          if j < i {} else {}
        }
      }
    }
  }

  lemma SettledAttached(st0: WorkerState, p: Progress, q: Progress, i: int, after: Task)
    requires ListenersTrack(st0, p)
    requires SettledTask(p, q, i, after) && p.tasks[i].listenerHooked && p.tasks[i].key in p.st.listeners
    requires q.st == AttachForwarder(p.st, p.tasks[i].key) && q.obtained == p.obtained + {p.tasks[i].key}
    ensures ListenersTrack(st0, q)
  {
    var t := p.tasks[i];
    assert AwaitFits(st0, p, t);
    forall j | 0 <= j < |q.tasks| && q.tasks[j].Awaiting?
      ensures AwaitFits(st0, q, q.tasks[j])
    {
      assert q.tasks[j] == p.tasks[j];
      if p.tasks[j].listenerHooked {
        assert p.tasks[j].key != t.key by {
          if j < i {} else {}
        }
      }
    }
  }

  lemma SettleAtTracks(st0: WorkerState, entries: seq<Prop>, p: Progress, i: nat, oracle: string -> PortOracle)
    requires ListenersTrack(st0, p) && ServedTrack(st0, entries, p)
    requires i < |p.tasks| && SettleAt(p, i, oracle).Some?
    ensures ListenersTrack(st0, SettleAt(p, i, oracle).value) && ServedTrack(st0, entries, SettleAt(p, i, oracle).value)
  {
    var t := p.tasks[i];
    if t.Awaiting? {
      var q := SettleAt(p, i, oracle).value;
      var o := oracle(t.spec);
      var after := Fate(t, o).value;
      assert AwaitFits(st0, p, t);
      if !t.listenerHooked {
        SettledQuietly(st0, p, q, i, after);
      } else if o.bindError.Some? {
        SettledRemoved(st0, p, q, i, after);
      } else {
        SettledAttached(st0, p, q, i, after);
      }
      SettledServed(st0, entries, p, q, i, after);
    }
  }

  lemma {:induction false} SettleFromTracks(st0: WorkerState, entries: seq<Prop>, p: Progress, i: nat, oracle: string -> PortOracle)
    requires ListenersTrack(st0, p) && ServedTrack(st0, entries, p)
    requires SettleFrom(p, i, oracle).Some?
    ensures ListenersTrack(st0, SettleFrom(p, i, oracle).value) && ServedTrack(st0, entries, SettleFrom(p, i, oracle).value)
    decreases |p.tasks| - i
  {
    if i < |p.tasks| {
      SettleAtTracks(st0, entries, p, i, oracle);
      SettleFromTracks(st0, entries, SettleAt(p, i, oracle).value, i + 1, oracle);
    }
  }

  // ---------------------------------------------------------------------
  // The application-server cache across a load

  /** The cache entry under `k` was decided by the fingerprint `fp` against
      the cache of `st0`: the old server when the fingerprints agree, a new
      one otherwise. */
  ghost predicate ReuseDecided(st0: WorkerState, k: string, fp: string, e: CacheEntry) {
    && e.fingerprint == fp
    && if k in st0.cache && st0.cache[k].fingerprint == fp then e.server == st0.cache[k].server
       else e.server.id >= st0.nextId
  }

  /** The cache against the one the load started from: a key a task got a
      forwarder for, or whose task still awaits its bind, holds the server
      its fingerprint decided; keys no entry binds are untouched. */
  ghost predicate CacheTracks(st0: WorkerState, done: seq<Prop>, p: Progress) {
    && p.st.nextId >= st0.nextId
    && |p.tasks| == |done|
    && (forall j :: 0 <= j < |done| && EntryKey(done[j]).Some? && (EntryKey(done[j]).value in p.obtained || p.tasks[j].Awaiting?) ==>
          && EntryKey(done[j]).value in p.st.cache
          && ReuseDecided(st0, EntryKey(done[j]).value, Fingerprint(Get(done[j].value, "ssl")), p.st.cache[EntryKey(done[j]).value]))
    && (forall k :: k in st0.cache && k !in DoneKeys(done) ==> k in p.st.cache && p.st.cache[k] == st0.cache[k])
    && (forall k :: k in p.st.cache && k !in DoneKeys(done) ==> k in st0.cache)
  }

  /** What one task's synchronous part does to the cache: at most its own
      key changes, and if the task got a forwarder or awaits its bind, that
      key holds the server decided by the fingerprint against `p`. */
  ghost predicate CacheStep(p: Progress, q: Progress, entry: Prop) {
    && |q.tasks| == |p.tasks| + 1
    && q.st.nextId >= p.st.nextId
    && (forall k :: Some(k) != EntryKey(entry) ==> (k in q.st.cache <==> k in p.st.cache))
    && (forall k :: Some(k) != EntryKey(entry) && k in p.st.cache ==> q.st.cache[k] == p.st.cache[k])
    && (EntryKey(entry).Some? && (EntryKey(entry).value in q.obtained - p.obtained || q.tasks[|p.tasks|].Awaiting?) ==>
          var k := EntryKey(entry).value;
          var fp := Fingerprint(Get(entry.value, "ssl"));
          && k in q.st.cache && q.st.cache[k].fingerprint == fp
          && if k in p.st.cache && p.st.cache[k].fingerprint == fp then q.st.cache[k].server == p.st.cache[k].server
             else q.st.cache[k].server.id >= p.st.nextId)
  }

  lemma SyncTaskCache(p: Progress, entry: Prop, o: PortOracle, cm: JsValue)
    requires SyncTask(p, entry, o, cm).Some?
    ensures |SyncTask(p, entry, o, cm).value.tasks| == |p.tasks| + 1
    ensures CacheStep(p, SyncTask(p, entry, o, cm).value, entry)
  {
    match Parse(entry.name)
    case None =>
    case Some(ps) => BindPortCache(p, entry, SpecKey(ps), o);
  }

  lemma BindPortCache(p: Progress, entry: Prop, key: string, o: PortOracle)
    requires EntryKey(entry) == Some(key)
    ensures CacheStep(p, BindPort(p, entry.name, key, entry.value, o), entry)
  {
    var (st1, made) := ServerForPortConfig(p.st, key, entry.value, o.constructError);
    if made.Created? || made.Reused? {
      ConnectListenerCache(Progress(st1, StripServer(p.tasks, key), p.obtained), entry.name, key, made.server, o);
    }
  }

  lemma ConnectListenerCache(p: Progress, spec: string, key: string, server: AppServer, o: PortOracle)
    ensures var q := ConnectListener(p, spec, key, server, o);
      && |q.tasks| == |p.tasks| + 1
      && q.st.cache == p.st.cache && q.st.nextId >= p.st.nextId
      && q.obtained <= p.obtained + {key}
      && (q.tasks[|p.tasks|].Awaiting? || key in q.obtained - p.obtained ==>
            q.tasks[|p.tasks|] == Awaiting(spec, key, server, true, true) || q.tasks[|p.tasks|] == Called(spec, None, Some(server)))
  {
    var (st2, got) := ObtainListener(p.st, key, o.listenError);
  }

  lemma CacheStepTracks(st0: WorkerState, done: seq<Prop>, p: Progress, q: Progress, entry: Prop)
    requires CacheTracks(st0, done, p) && p.obtained <= DoneKeys(done)
    requires EntryKey(entry).Some? ==> EntryKey(entry).value !in DoneKeys(done)
    requires ServedStep(p, q, entry) && CacheStep(p, q, entry)
    ensures CacheTracks(st0, done + [entry], q)
  {
    var all := done + [entry];
    DoneKeysAppend(done, entry, all);
    forall j | 0 <= j < |all| && EntryKey(all[j]).Some? && (EntryKey(all[j]).value in q.obtained || q.tasks[j].Awaiting?)
      ensures EntryKey(all[j]).value in q.st.cache
      ensures ReuseDecided(st0, EntryKey(all[j]).value, Fingerprint(Get(all[j].value, "ssl")), q.st.cache[EntryKey(all[j]).value])
    {
      if j < |done| {
        assert all[j] == done[j];
        assert EntryKey(done[j]).value in DoneKeys(done);
        assert Weakened(p.tasks[j], q.tasks[j]);
      } else {
        assert all[j] == entry;
      }
    }
  }

  lemma {:induction false} SyncPassCacheTracks(st0: WorkerState, entries: seq<Prop>, oracle: string -> PortOracle, cm: JsValue)
    requires DistinctKeys(entries) && Unattached(st0)
    requires SyncPass(st0, entries, oracle, cm).Some?
    ensures CacheTracks(st0, entries, SyncPass(st0, entries, oracle, cm).value)
    decreases |entries|
  {
    if entries != [] {
      var prefix := entries[..|entries| - 1];
      var last := entries[|entries| - 1];
      assert DistinctKeys(prefix);
      SyncPassCacheTracks(st0, prefix, oracle, cm);
      SyncPassTracks(st0, prefix, oracle, cm);
      var p := SyncPass(st0, prefix, oracle, cm).value;
      forall j | 0 <= j < |prefix| && EntryKey(prefix[j]).Some? && EntryKey(last).Some?
        ensures EntryKey(prefix[j]).value != EntryKey(last).value
      {
        assert entries[j] == prefix[j];
      }
      SplitLast(entries);
      PortTaskStarts(p, last, oracle(last.name), cm);
      SyncTaskState(p, last, oracle(last.name), cm);
      SyncTaskCache(p, last, oracle(last.name), cm);
      CacheStepTracks(st0, prefix, p, SyncPass(st0, entries, oracle, cm).value, last);
    }
  }

  lemma SettleAtCache(st0: WorkerState, entries: seq<Prop>, p: Progress, i: nat, oracle: string -> PortOracle)
    requires DistinctKeys(entries) && CacheTracks(st0, entries, p) && ServedTrack(st0, entries, p)
    requires i < |p.tasks| && SettleAt(p, i, oracle).Some?
    ensures CacheTracks(st0, entries, SettleAt(p, i, oracle).value)
  {
    SettleAtShape(p, i, oracle);
    if p.tasks[i].Awaiting? {
      CacheSettleStep(st0, entries, p, SettleAt(p, i, oracle).value, i);
    }
  }

  /** Ending one bind touches neither the cache nor the next server id,
      obtains at most the task's own key, and changes no other task. */
  lemma SettleAtShape(p: Progress, i: nat, oracle: string -> PortOracle)
    requires i < |p.tasks| && SettleAt(p, i, oracle).Some?
    ensures var q := SettleAt(p, i, oracle).value;
      && (!p.tasks[i].Awaiting? ==> q == p)
      && (p.tasks[i].Awaiting? ==>
            && q.st.cache == p.st.cache && q.st.nextId == p.st.nextId
            && q.obtained <= p.obtained + {p.tasks[i].key}
            && |q.tasks| == |p.tasks|
            && forall j :: 0 <= j < |p.tasks| && j != i ==> q.tasks[j] == p.tasks[j])
  {
    SettleAtFate(p, i, oracle);
  }

  lemma CacheSettleStep(st0: WorkerState, entries: seq<Prop>, p: Progress, q: Progress, i: nat)
    requires DistinctKeys(entries) && CacheTracks(st0, entries, p) && ServedTrack(st0, entries, p)
    requires i < |p.tasks| && p.tasks[i].Awaiting?
    requires q.st.cache == p.st.cache && q.st.nextId == p.st.nextId
    requires q.obtained <= p.obtained + {p.tasks[i].key}
    requires |q.tasks| == |p.tasks|
    requires forall j :: 0 <= j < |p.tasks| && j != i ==> q.tasks[j] == p.tasks[j]
    ensures CacheTracks(st0, entries, q)
  {
    var t := p.tasks[i];
    assert EntryKey(entries[i]) == Some(t.key);
    forall j | 0 <= j < |entries| && EntryKey(entries[j]).Some? && (EntryKey(entries[j]).value in q.obtained || q.tasks[j].Awaiting?)
      ensures EntryKey(entries[j]).value in p.obtained || p.tasks[j].Awaiting?
    {
      if j != i {
        assert q.tasks[j] == p.tasks[j];
      }
    }
  }

  lemma {:induction false} SettleFromCache(st0: WorkerState, entries: seq<Prop>, p: Progress, i: nat, oracle: string -> PortOracle)
    requires DistinctKeys(entries) && CacheTracks(st0, entries, p)
    requires ListenersTrack(st0, p) && ServedTrack(st0, entries, p)
    requires SettleFrom(p, i, oracle).Some?
    ensures CacheTracks(st0, entries, SettleFrom(p, i, oracle).value)
    decreases |p.tasks| - i
  {
    if i < |p.tasks| {
      SettleAtCache(st0, entries, p, i, oracle);
      SettleAtTracks(st0, entries, p, i, oracle);
      SettleFromCache(st0, entries, SettleAt(p, i, oracle).value, i + 1, oracle);
    }
  }

  // ---------------------------------------------------------------------
  // A whole load

  /** The synchronous pass of a load. */
  function Started(st: WorkerState, config: JsValue, oracle: string -> PortOracle): Option<Progress> {
    SyncPass(Unbound(st, config), PortEntries(config), oracle, Get(config, "middleware"))
  }

  lemma UnboundFacts(st: WorkerState, config: JsValue)
    ensures Unattached(Unbound(st, config))
    ensures Unbound(st, config).listeners.Keys == st.listeners.Keys
    ensures forall k :: k in st.listeners ==> Unbound(st, config).listeners[k].id == st.listeners[k].id
    ensures Unbound(st, config).cache == st.cache && Unbound(st, config).nextId == st.nextId
  {
  }

  lemma LoadUnfolds(st: WorkerState, config: JsValue, oracle: string -> PortOracle)
    requires !IsNullish(config)
    ensures var lo := LoadConfig(st, config, oracle);
      var sp := Started(st, config, oracle);
      && (lo.LoadThrew? <==> sp.None? || SettleFrom(sp.value, 0, oracle).None?)
      && (!lo.LoadThrew? ==>
            var q := SettleFrom(sp.value, 0, oracle).value;
            var reports := Reports(q.tasks);
            && (lo.Loaded? <==> AllCalled(q.tasks))
            && (lo.NeverLoaded? ==> lo.st == q.st)
            && (lo.Loaded? ==>
                  && lo.reports == reports && lo.obtained == q.obtained
                  && lo.st == GcServers(q.st.(servers := Servers(reports))).0
                  && lo.err == if ErrorsObject(reports) == [] then None else Some(ErrorsObject(reports))))
  {
    assert UnbindAll(st.(config := config)).(config := config) == Unbound(st, config);
  }

  /** After a completed load the registry holds exactly the keys whose port
      got a connection forwarder, each with exactly one forwarder and a
      cached application server; a key registered before and after keeps the
      very same listener. */
  lemma LoadKeepsExactlyObtainedListeners(st: WorkerState, config: JsValue, oracle: string -> PortOracle)
    requires LoadConfig(st, config, oracle).Loaded?
    ensures var r := LoadConfig(st, config, oracle);
      && r.st.listeners.Keys == r.obtained
      && (forall k :: k in r.st.listeners ==> r.st.listeners[k].observers == 1 && k in r.st.cache)
      && (forall k :: k in st.listeners && k in r.st.listeners ==> r.st.listeners[k].id == st.listeners[k].id)
  {
    var st0 := Unbound(st, config);
    var entries := PortEntries(config);
    LoadUnfolds(st, config, oracle);
    UnboundFacts(st, config);
    SyncPassTracks(st0, entries, oracle, Get(config, "middleware"));
    var p := Started(st, config, oracle).value;
    SettleFromTracks(st0, entries, p, 0, oracle);
  }

  /** For a configuration whose ports bind distinct keys: a port that ends up
      listening keeps its old application server exactly when the TLS
      fingerprint is unchanged, and otherwise gets a new one; either way
      the cache records the new fingerprint. */
  lemma LoadReplacesServerIffFingerprintChanged(st: WorkerState, config: JsValue, oracle: string -> PortOracle, i: int)
    requires FreshIds(st)
    requires LoadConfig(st, config, oracle).Loaded?
    requires DistinctKeys(PortEntries(config))
    requires 0 <= i < |PortEntries(config)| && EntryKey(PortEntries(config)[i]).Some?
    requires EntryKey(PortEntries(config)[i]).value in LoadConfig(st, config, oracle).st.listeners
    ensures var k := EntryKey(PortEntries(config)[i]).value;
      var fp := Fingerprint(Get(PortEntries(config)[i].value, "ssl"));
      var after := LoadConfig(st, config, oracle).st;
      && k in after.cache && after.cache[k].fingerprint == fp
      && ((k in st.cache && after.cache[k].server == st.cache[k].server) <==> (k in st.cache && st.cache[k].fingerprint == fp))
  {
    var st0 := Unbound(st, config);
    var entries := PortEntries(config);
    var cm := Get(config, "middleware");
    LoadUnfolds(st, config, oracle);
    UnboundFacts(st, config);
    SyncPassTracks(st0, entries, oracle, cm);
    SyncPassCacheTracks(st0, entries, oracle, cm);
    var p := Started(st, config, oracle).value;
    SettleFromTracks(st0, entries, p, 0, oracle);
    SettleFromCache(st0, entries, p, 0, oracle);
    LoadKeepsExactlyObtainedListeners(st, config, oracle);
  }

  // ---------------------------------------------------------------------
  // The errors object

  /** The errors object is empty exactly when no callback carried an
      error. */
  lemma {:induction false} ErrorsObjectEmptyIff(reports: seq<Report>)
    ensures ErrorsObject(reports) == [] <==> forall j :: 0 <= j < |reports| ==> reports[j].err.None?
    decreases |reports|
  {
    if reports != [] {
      var prefix := reports[..|reports| - 1];
      var last := reports[|reports| - 1];
      ErrorsObjectEmptyIff(prefix);
      assert forall j :: 0 <= j < |prefix| ==> prefix[j] == reports[j];
      if last.err.Some? {
        assert Lookup(ErrorsObject(reports), last.spec) == ErrorValue(last.err.value);
      }
    }
  }

  /** The errors object names no property but the specifications of the
      callbacks. */
  lemma {:induction false} ErrorsObjectNamesOnly(reports: seq<Report>, n: string)
    requires forall j :: 0 <= j < |reports| ==> reports[j].spec != n
    ensures Lookup(ErrorsObject(reports), n) == JUndefined
    decreases |reports|
  {
    if reports != [] {
      var prefix := reports[..|reports| - 1];
      assert forall j :: 0 <= j < |prefix| ==> prefix[j] == reports[j];
      ErrorsObjectNamesOnly(prefix, n);
    }
  }

  /** With distinct specifications, the errors object holds under each one
      exactly the error its callback carried, and nothing for a callback
      without an error. */
  lemma {:induction false} ErrorsObjectLookup(reports: seq<Report>, j: int)
    requires forall i, k :: 0 <= i < k < |reports| ==> reports[i].spec != reports[k].spec
    requires 0 <= j < |reports|
    ensures Lookup(ErrorsObject(reports), reports[j].spec) == ErrorOf(reports[j])
    decreases |reports|
  {
    var prefix := reports[..|reports| - 1];
    var last := reports[|reports| - 1];
    assert forall i :: 0 <= i < |prefix| ==> prefix[i] == reports[i];
    if j == |reports| - 1 {
      if last.err.None? {
        ErrorsObjectNamesOnly(prefix, last.spec);
      }
    } else {
      ErrorsObjectLookup(prefix, j);
    }
  }

  // ---------------------------------------------------------------------
  // Tasks across a whole load

  /** What a load that did not throw went through: the synchronous pass
      and the invariants it leaves, then every task's fate. */
  lemma LoadTasks(st: WorkerState, config: JsValue, oracle: string -> PortOracle)
    requires !IsNullish(config) && !LoadConfig(st, config, oracle).LoadThrew?
    ensures Started(st, config, oracle).Some?
    ensures var st0 := Unbound(st, config);
      var entries := PortEntries(config);
      var p := Started(st, config, oracle).value;
      && SettleFrom(p, 0, oracle).Some?
      && ListenersTrack(st0, p) && ServedTrack(st0, entries, p) && PassTrack(oracle, entries, p)
      && var q := SettleFrom(p, 0, oracle).value;
      && ListenersTrack(st0, q) && ServedTrack(st0, entries, q)
      && |q.tasks| == |entries|
      && forall j :: 0 <= j < |entries| ==> Fate(p.tasks[j], oracle(entries[j].name)) == Some(q.tasks[j])
  {
    var st0 := Unbound(st, config);
    var entries := PortEntries(config);
    LoadUnfolds(st, config, oracle);
    UnboundFacts(st, config);
    SyncPassTracks(st0, entries, oracle, Get(config, "middleware"));
    var p := Started(st, config, oracle).value;
    SettleFromTracks(st0, entries, p, 0, oracle);
    SettleFromFates(p, 0, oracle);
  }

  lemma ParsedIffDigit(entries: seq<Prop>)
    ensures forall j :: 0 <= j < |entries| ==> (EntryKey(entries[j]).None? <==> NoDigit(entries[j].name))
  {
    forall j | 0 <= j < |entries| ensures EntryKey(entries[j]).None? <==> NoDigit(entries[j].name) {
      ParseFailsIffNoDigit(entries[j].name);
    }
  }

  /** Every port reports through its own callback once a load completes:
      one report per entry, in port order; the error argument is `null`
      exactly when no port failed; the errors object names ports only and,
      the specifications being distinct, holds each port's own error; the
      active servers are the ones the ports reported. */
  lemma LoadReportsEveryPort(st: WorkerState, config: JsValue, oracle: string -> PortOracle)
    requires LoadConfig(st, config, oracle).Loaded?
    ensures var r := LoadConfig(st, config, oracle);
      var entries := PortEntries(config);
      && |r.reports| == |entries|
      && (forall j :: 0 <= j < |entries| ==> r.reports[j].spec == entries[j].name)
      && (r.err.None? <==> forall j :: 0 <= j < |r.reports| ==> r.reports[j].err.None?)
      && (r.err.Some? ==> forall n :: n !in Names(entries) ==> Lookup(r.err.value, n) == JUndefined)
      && (r.err.Some? && DistinctNames(entries) ==>
            forall j :: 0 <= j < |entries| ==> Lookup(r.err.value, entries[j].name) == ErrorOf(r.reports[j]))
      && (forall s :: s in r.st.servers <==> exists j :: 0 <= j < |r.reports| && r.reports[j].server == Some(s))
  {
    var r := LoadConfig(st, config, oracle);
    var entries := PortEntries(config);
    LoadUnfolds(st, config, oracle);
    LoadTasks(st, config, oracle);
    assert forall j :: 0 <= j < |entries| ==> r.reports[j].spec == entries[j].name;
    ErrorsObjectForEntries(r.reports, entries);
  }

  lemma SpecsAreNames(reports: seq<Report>, entries: seq<Prop>)
    requires |reports| == |entries|
    requires forall j :: 0 <= j < |entries| ==> reports[j].spec == entries[j].name
    ensures forall j :: 0 <= j < |reports| ==> reports[j].spec in Names(entries)
  {
    forall j | 0 <= j < |reports| ensures reports[j].spec in Names(entries) {
      assert entries[j].name in Names(entries);
    }
  }

  /** The errors object of callbacks made in port order: empty exactly when
      no callback carried an error, naming no property but the port
      specifications, and holding each port's error when the specifications
      are distinct. */
  lemma ErrorsObjectForEntries(reports: seq<Report>, entries: seq<Prop>)
    requires |reports| == |entries|
    requires forall j :: 0 <= j < |entries| ==> reports[j].spec == entries[j].name
    ensures ErrorsObject(reports) == [] <==> forall j :: 0 <= j < |reports| ==> reports[j].err.None?
    ensures forall n :: n !in Names(entries) ==> Lookup(ErrorsObject(reports), n) == JUndefined
    ensures DistinctNames(entries) ==>
      forall j :: 0 <= j < |entries| ==> Lookup(ErrorsObject(reports), entries[j].name) == ErrorOf(reports[j])
  {
    ErrorsObjectEmptyIff(reports);
    SpecsAreNames(reports, entries);
    forall n | n !in Names(entries) ensures Lookup(ErrorsObject(reports), n) == JUndefined {
      ErrorsObjectNamesOnly(reports, n);
    }
    if DistinctNames(entries) {
      ErrorsObjectLookupAll(reports, entries);
    }
  }

  lemma ErrorsObjectLookupAll(reports: seq<Report>, entries: seq<Prop>)
    requires |reports| == |entries| && DistinctNames(entries)
    requires forall j :: 0 <= j < |entries| ==> reports[j].spec == entries[j].name
    ensures forall j :: 0 <= j < |entries| ==> Lookup(ErrorsObject(reports), entries[j].name) == ErrorOf(reports[j])
  {
    forall j | 0 <= j < |entries| ensures Lookup(ErrorsObject(reports), entries[j].name) == ErrorOf(reports[j]) {
      ErrorsObjectLookup(reports, j);
    }
  }

  /** A load whose port specifications include one without a digit never
      completes: that task is never called back. */
  lemma UnmatchedPortStalls(st: WorkerState, config: JsValue, oracle: string -> PortOracle, j: int)
    requires 0 <= j < |PortEntries(config)| && NoDigit(PortEntries(config)[j].name)
    ensures !LoadConfig(st, config, oracle).Loaded?
  {
    if !IsNullish(config) && !LoadConfig(st, config, oracle).LoadThrew? {
      LoadUnfolds(st, config, oracle);
      LoadTasks(st, config, oracle);
      ParsedIffDigit(PortEntries(config));
    }
  }

  lemma DistinctKeysAllCalled(oracle: string -> PortOracle, entries: seq<Prop>, started: seq<Task>, settled: seq<Task>)
    requires DistinctKeys(entries)
    requires |started| == |entries| == |settled|
    requires forall j :: 0 <= j < |entries| ==> PassFits(oracle, entries, j, started[j])
    requires forall j :: 0 <= j < |entries| ==> Fate(started[j], oracle(entries[j].name)) == Some(settled[j])
    requires forall j :: 0 <= j < |entries| ==> EntryKey(entries[j]).Some?
    ensures AllCalled(settled)
  {
    forall j | 0 <= j < |entries| ensures settled[j].Called? {
      assert PassFits(oracle, entries, j, started[j]);
      if started[j].Awaiting? {
        assert NoLaterKey(entries, j);
      }
    }
  }

  /** For a configuration whose ports bind distinct keys, a load that does
      not throw stalls, never collecting or reporting, exactly when some
      port specification has no digit for the pattern to match. */
  lemma LoadStallsIffUnmatchedPort(st: WorkerState, config: JsValue, oracle: string -> PortOracle)
    requires !IsNullish(config)
    requires !LoadConfig(st, config, oracle).LoadThrew?
    requires DistinctKeys(PortEntries(config))
    ensures LoadConfig(st, config, oracle).NeverLoaded? <==>
      exists j :: 0 <= j < |PortEntries(config)| && NoDigit(PortEntries(config)[j].name)
  {
    var entries := PortEntries(config);
    if j :| 0 <= j < |entries| && NoDigit(entries[j].name) {
      UnmatchedPortStalls(st, config, oracle, j);
    } else {
      LoadUnfolds(st, config, oracle);
      LoadTasks(st, config, oracle);
      ParsedIffDigit(entries);
      var p := Started(st, config, oracle).value;
      DistinctKeysAllCalled(oracle, entries, p.tasks, SettleFrom(p, 0, oracle).value.tasks);
    }
  }

  // ---------------------------------------------------------------------
  // Ports that share a key

  lemma SyncTaskThrowsIff(p: Progress, entry: Prop, o: PortOracle, cm: JsValue)
    ensures SyncTask(p, entry, o, cm).None? <==> EntryKey(entry).Some? && entry.value.JNull?
  {
  }

  lemma SyncPassStep(start: WorkerState, entries: seq<Prop>, oracle: string -> PortOracle, cm: JsValue)
    requires entries != []
    ensures var prefix := SyncPass(start, entries[..|entries| - 1], oracle, cm);
      var last := entries[|entries| - 1];
      SyncPass(start, entries, oracle, cm) == if prefix.None? then None else SyncTask(prefix.value, last, oracle(last.name), cm)
  {
  }

  /** The synchronous pass throws exactly when a port entry the pattern
      matches has a `null` configuration. */
  lemma {:induction false} SyncPassThrowsIff(start: WorkerState, entries: seq<Prop>, oracle: string -> PortOracle, cm: JsValue)
    ensures SyncPass(start, entries, oracle, cm).None? <==>
      exists j :: 0 <= j < |entries| && EntryKey(entries[j]).Some? && entries[j].value.JNull?
    decreases |entries|
  {
    if entries != [] {
      var prefix := entries[..|entries| - 1];
      var last := entries[|entries| - 1];
      SyncPassThrowsIff(start, prefix, oracle, cm);
      SyncPassThrowStep(start, entries, oracle, cm);
      NullKeyedAppend(entries);
    }
  }

  lemma NullKeyedAppend(entries: seq<Prop>)
    requires entries != []
    ensures var prefix := entries[..|entries| - 1]; var last := entries[|entries| - 1];
      (exists j :: 0 <= j < |entries| && EntryKey(entries[j]).Some? && entries[j].value.JNull?) <==>
        (exists j :: 0 <= j < |prefix| && EntryKey(prefix[j]).Some? && prefix[j].value.JNull?)
        || (EntryKey(last).Some? && last.value.JNull?)
  {
    var prefix := entries[..|entries| - 1];
    assert forall j :: 0 <= j < |prefix| ==> prefix[j] == entries[j];
  }

  lemma SyncPassThrowStep(start: WorkerState, entries: seq<Prop>, oracle: string -> PortOracle, cm: JsValue)
    requires entries != []
    ensures var last := entries[|entries| - 1];
      SyncPass(start, entries, oracle, cm).None? <==>
        SyncPass(start, entries[..|entries| - 1], oracle, cm).None? || (EntryKey(last).Some? && last.value.JNull?)
  {
    var last := entries[|entries| - 1];
    var sp := SyncPass(start, entries[..|entries| - 1], oracle, cm);
    if sp.Some? {
      SyncTaskThrowsIff(sp.value, last, oracle(last.name), cm);
    }
  }

  /** The synchronous pass over a prefix of the entries ran as part of the
      whole one, and later tasks only ever remove hooks from earlier ones. */
  lemma {:induction false} SyncPassPrefix(start: WorkerState, entries: seq<Prop>, n: int, oracle: string -> PortOracle, cm: JsValue)
    requires 0 <= n <= |entries|
    requires SyncPass(start, entries, oracle, cm).Some?
    ensures SyncPass(start, entries[..n], oracle, cm).Some?
    ensures var before := SyncPass(start, entries[..n], oracle, cm).value.tasks;
      var after := SyncPass(start, entries, oracle, cm).value.tasks;
      |before| == n && |after| == |entries| && forall m :: 0 <= m < n ==> Weakened(before[m], after[m])
    decreases |entries|
  {
    if n == |entries| {
      assert entries[..n] == entries;
      SyncPassLength(start, entries, oracle, cm);
    } else {
      var prefix := entries[..|entries| - 1];
      SyncPassWeakens(start, entries, oracle, cm);
      SyncPassPrefix(start, prefix, n, oracle, cm);
      assert prefix[..n] == entries[..n];
    }
  }

  lemma {:induction false} SyncPassLength(start: WorkerState, entries: seq<Prop>, oracle: string -> PortOracle, cm: JsValue)
    requires SyncPass(start, entries, oracle, cm).Some?
    ensures |SyncPass(start, entries, oracle, cm).value.tasks| == |entries|
    decreases |entries|
  {
    if entries != [] {
      SyncPassWeakens(start, entries, oracle, cm);
      SyncPassLength(start, entries[..|entries| - 1], oracle, cm);
    }
  }

  /** One step of the synchronous pass appends one task and only weakens the
      earlier ones. */
  lemma SyncPassWeakens(start: WorkerState, entries: seq<Prop>, oracle: string -> PortOracle, cm: JsValue)
    requires entries != [] && SyncPass(start, entries, oracle, cm).Some?
    ensures SyncPass(start, entries[..|entries| - 1], oracle, cm).Some?
    ensures var before := SyncPass(start, entries[..|entries| - 1], oracle, cm).value.tasks;
      var after := SyncPass(start, entries, oracle, cm).value.tasks;
      |after| == |before| + 1 && forall m :: 0 <= m < |before| ==> Weakened(before[m], after[m])
  {
    var last := entries[|entries| - 1];
    PortTaskStarts(SyncPass(start, entries[..|entries| - 1], oracle, cm).value, last, oracle(last.name), cm);
  }

  /** A task whose key is not registered yet, whose server can be built and
      whose `listen` does not throw, is left awaiting its bind. */
  lemma NewKeyAwaits(p: Progress, entry: Prop, o: PortOracle, cm: JsValue)
    requires EntryKey(entry).Some? && EntryKey(entry).value !in p.st.listeners && !entry.value.JUndefined?
    requires o.constructError.None? && o.listenError.None?
    requires SyncTask(p, entry, o, cm).Some?
    ensures |SyncTask(p, entry, o, cm).value.tasks| == |p.tasks| + 1
    ensures SyncTask(p, entry, o, cm).value.tasks[|p.tasks|].Awaiting?
  {
    var key := EntryKey(entry).value;
    var (st1, made) := ServerForPortConfig(p.st, key, entry.value, o.constructError);
    assert st1.listeners == p.st.listeners;
  }

  /** The first entry that binds the key the `i`-th binds. */
  lemma FirstWithKey(entries: seq<Prop>, i: int) returns (first: int)
    requires 0 <= i < |entries|
    ensures 0 <= first <= i && EntryKey(entries[first]) == EntryKey(entries[i])
    ensures forall m :: 0 <= m < first ==> EntryKey(entries[m]) != EntryKey(entries[i])
    decreases i
  {
    if m :| 0 <= m < i && EntryKey(entries[m]) == EntryKey(entries[i]) {
      first := FirstWithKey(entries, m);
    } else {
      first := i;
    }
  }

  /** The first entry binding a key not registered before the load, whose
      server can be built and whose `listen` does not throw, is still
      awaiting its bind when the synchronous pass ends. */
  lemma SyncPassAwaits(st0: WorkerState, entries: seq<Prop>, i: int, oracle: string -> PortOracle, cm: JsValue)
    requires Unattached(st0)
    requires 0 <= i < |entries| && EntryKey(entries[i]).Some? && EntryKey(entries[i]).value !in st0.listeners
    requires forall m :: 0 <= m < i ==> EntryKey(entries[m]) != EntryKey(entries[i])
    requires oracle(entries[i].name).constructError.None? && oracle(entries[i].name).listenError.None?
    requires !entries[i].value.JUndefined?
    requires SyncPass(st0, entries, oracle, cm).Some?
    ensures |SyncPass(st0, entries, oracle, cm).value.tasks| == |entries|
    ensures SyncPass(st0, entries, oracle, cm).value.tasks[i].Awaiting?
  {
    SyncPassPrefix(st0, entries, i, oracle, cm);
    SyncPassPrefix(st0, entries, i + 1, oracle, cm);
    var done := entries[..i];
    var upto := entries[..i + 1];
    var pi := SyncPass(st0, done, oracle, cm).value;
    assert upto[..|upto| - 1] == done && upto[|upto| - 1] == entries[i];
    SyncPassStep(st0, upto, oracle, cm);
    SyncPassTracks(st0, done, oracle, cm);
    assert EntryKey(entries[i]).value !in DoneKeys(done) by {
      forall m | 0 <= m < |done| ensures EntryKey(done[m]) != EntryKey(entries[i]) {
        assert done[m] == entries[m];
      }
    }
    NewKeyAwaits(pi, entries[i], oracle(entries[i].name), cm);
  }

  /** Two port entries that reach the server cache under the same key, not
      listening before the load, stall it (or make it throw): the first
      one's new listener is
      still binding when the second finds it registered, takes its server
      and its listener away from the first task, and that task never calls
      back. */
  lemma SharedFreshKeyStalls(st: WorkerState, config: JsValue, oracle: string -> PortOracle, i: int, j: int)
    requires 0 <= i < j < |PortEntries(config)|
    requires ReachedKey(PortEntries(config)[i]).Some?
    requires ReachedKey(PortEntries(config)[j]) == ReachedKey(PortEntries(config)[i])
    requires ReachedKey(PortEntries(config)[i]).value !in st.listeners
    requires forall m :: 0 <= m < i ==> EntryKey(PortEntries(config)[m]) != EntryKey(PortEntries(config)[i])
    requires var o := oracle(PortEntries(config)[i].name);
      o.constructError.None? && o.listenError.None? && o.bindError.None?
    ensures !LoadConfig(st, config, oracle).Loaded?
  {
    if !IsNullish(config) && !LoadConfig(st, config, oracle).LoadThrew? {
      var entries := PortEntries(config);
      LoadUnfolds(st, config, oracle);
      LoadTasks(st, config, oracle);
      UnboundFacts(st, config);
      SyncPassAwaits(Unbound(st, config), entries, i, oracle, Get(config, "middleware"));
      var p := Started(st, config, oracle).value;
      assert PassFits(oracle, entries, i, p.tasks[i]);
      assert !NoLaterKey(entries, i);
      assert !SettleFrom(p, 0, oracle).value.tasks[i].Called?;
    }
  }

  // ---------------------------------------------------------------------
  // Loads the environment lets through

  /** The environment lets every port through (no constructor throws, no
      `listen` throws, every bind succeeds, no server errors early) and every
      port entry is matched and configured. */
  ghost predicate CleanRun(entries: seq<Prop>, oracle: string -> PortOracle) {
    forall j :: 0 <= j < |entries| ==>
      && !NoDigit(entries[j].name)
      && !IsNullish(entries[j].value)
      && oracle(entries[j].name) == Clean
  }

  lemma CleanLoadNeverThrows(st: WorkerState, config: JsValue, oracle: string -> PortOracle)
    requires !IsNullish(config) && CleanRun(PortEntries(config), oracle)
    ensures !LoadConfig(st, config, oracle).LoadThrew?
  {
    var entries := PortEntries(config);
    var st0 := Unbound(st, config);
    LoadUnfolds(st, config, oracle);
    UnboundFacts(st, config);
    ParsedIffDigit(entries);
    SyncPassThrowsIff(st0, entries, oracle, Get(config, "middleware"));
    SyncPassTracks(st0, entries, oracle, Get(config, "middleware"));
    var p := Started(st, config, oracle).value;
    SettleFromFates(p, 0, oracle);
  }

  lemma CleanTasks(st0: WorkerState, entries: seq<Prop>, oracle: string -> PortOracle, p: Progress, q: Progress)
    requires CleanRun(entries, oracle)
    requires ListenersTrack(st0, p) && ServedTrack(st0, entries, p) && PassTrack(oracle, entries, p)
    requires |q.tasks| == |entries|
    requires forall j :: 0 <= j < |entries| ==> Fate(p.tasks[j], oracle(entries[j].name)) == Some(q.tasks[j])
    ensures SharedKeysListening(entries, st0.listeners.Keys) ==> AllCalled(q.tasks)
    ensures forall j :: 0 <= j < |entries| && q.tasks[j].Called? ==> q.tasks[j].err.None? && q.tasks[j].server.Some?
  {
    ParsedIffDigit(entries);
    forall j | 0 <= j < |entries|
      ensures q.tasks[j].Called? ==> q.tasks[j].err.None? && q.tasks[j].server.Some?
      ensures SharedKeysListening(entries, st0.listeners.Keys) ==> q.tasks[j].Called?
    {
      assert PassFits(oracle, entries, j, p.tasks[j]);
      if p.tasks[j].Awaiting? && SharedKeysListening(entries, st0.listeners.Keys) {
        assert AwaitFits(st0, p, p.tasks[j]);
        assert NoLaterKey(entries, j);
      }
    }
  }

  lemma CleanLoadCompletesIfShared(st: WorkerState, config: JsValue, oracle: string -> PortOracle)
    requires !IsNullish(config) && CleanRun(PortEntries(config), oracle)
    requires SharedKeysListening(PortEntries(config), st.listeners.Keys)
    ensures LoadConfig(st, config, oracle).Loaded?
  {
    CleanLoadNeverThrows(st, config, oracle);
    LoadUnfolds(st, config, oracle);
    LoadTasks(st, config, oracle);
    UnboundFacts(st, config);
    var p := Started(st, config, oracle).value;
    CleanTasks(Unbound(st, config), PortEntries(config), oracle, p, SettleFrom(p, 0, oracle).value);
  }

  lemma CleanLoadStallsIfFresh(st: WorkerState, config: JsValue, oracle: string -> PortOracle)
    requires CleanRun(PortEntries(config), oracle)
    requires !SharedKeysListening(PortEntries(config), st.listeners.Keys)
    ensures !LoadConfig(st, config, oracle).Loaded?
  {
    var entries := PortEntries(config);
    var i, j :| 0 <= i < j < |entries| && EntryKey(entries[i]).Some? && EntryKey(entries[j]) == EntryKey(entries[i])
      && EntryKey(entries[i]).value !in st.listeners.Keys;
    var first := FirstWithKey(entries, i);
    SharedFreshKeyStalls(st, config, oracle, first, j);
  }

  lemma ServedKeys(st0: WorkerState, entries: seq<Prop>, q: Progress)
    requires ServedTrack(st0, entries, q)
    requires forall j :: 0 <= j < |entries| ==> q.tasks[j].Called? && q.tasks[j].server.Some?
    ensures q.obtained == DoneKeys(entries)
  {
    forall k | k in DoneKeys(entries) ensures k in q.obtained {
      var j :| 0 <= j < |entries| && EntryKey(entries[j]).Some? && EntryKey(entries[j]).value == k;
      assert q.tasks[j].Called?;
    }
  }

  lemma CleanSettled(st0: WorkerState, entries: seq<Prop>, oracle: string -> PortOracle, p: Progress, q: Progress)
    requires CleanRun(entries, oracle)
    requires ListenersTrack(st0, p) && ServedTrack(st0, entries, p) && PassTrack(oracle, entries, p)
    requires ServedTrack(st0, entries, q) && AllCalled(q.tasks)
    requires forall j :: 0 <= j < |entries| ==> Fate(p.tasks[j], oracle(entries[j].name)) == Some(q.tasks[j])
    ensures ErrorsObject(Reports(q.tasks)) == []
    ensures q.obtained == DoneKeys(entries)
  {
    assert forall j :: 0 <= j < |entries| ==> q.tasks[j].err.None? && q.tasks[j].server.Some? by {
      CleanTasks(st0, entries, oracle, p, q);
    }
    ErrorsObjectEmptyIff(Reports(q.tasks));
    ServedKeys(st0, entries, q);
  }

  lemma CleanLoadResult(st: WorkerState, config: JsValue, oracle: string -> PortOracle)
    requires CleanRun(PortEntries(config), oracle)
    requires LoadConfig(st, config, oracle).Loaded?
    ensures LoadConfig(st, config, oracle).err.None?
    ensures LoadConfig(st, config, oracle).st.listeners.Keys == DoneKeys(PortEntries(config))
  {
    LoadUnfolds(st, config, oracle);
    LoadTasks(st, config, oracle);
    var p := Started(st, config, oracle).value;
    CleanSettled(Unbound(st, config), PortEntries(config), oracle, p, SettleFrom(p, 0, oracle).value);
    LoadKeepsExactlyObtainedListeners(st, config, oracle);
  }

  /** For a configuration the environment lets through, a load never throws;
      it completes exactly when every key two ports share was already
      listening before it, and then reports no error and leaves listening
      exactly the keys of its ports. */
  lemma CleanLoadBindsEveryPort(st: WorkerState, config: JsValue, oracle: string -> PortOracle)
    requires !IsNullish(config)
    requires CleanRun(PortEntries(config), oracle)
    ensures !LoadConfig(st, config, oracle).LoadThrew?
    ensures LoadConfig(st, config, oracle).Loaded? <==> SharedKeysListening(PortEntries(config), st.listeners.Keys)
    ensures LoadConfig(st, config, oracle).Loaded? ==>
      && LoadConfig(st, config, oracle).err.None?
      && LoadConfig(st, config, oracle).st.listeners.Keys == DoneKeys(PortEntries(config))
  {
    CleanLoadNeverThrows(st, config, oracle);
    if SharedKeysListening(PortEntries(config), st.listeners.Keys) {
      CleanLoadCompletesIfShared(st, config, oracle);
      CleanLoadResult(st, config, oracle);
    } else {
      CleanLoadStallsIfFresh(st, config, oracle);
    }
  }

  /** Reloading from one configuration to another and back listens on the
      same keys as the first load did, when the environment lets every port
      of both through and no load meets a key two of its ports share that
      is not listening already. */
  lemma ReloadRoundTripRestoresPorts(st: WorkerState, c1: JsValue, c2: JsValue, oracle: string -> PortOracle)
    requires !IsNullish(c1) && !IsNullish(c2)
    requires CleanRun(PortEntries(c1), oracle) && CleanRun(PortEntries(c2), oracle)
    requires SharedKeysListening(PortEntries(c1), st.listeners.Keys)
    requires SharedKeysListening(PortEntries(c2), DoneKeys(PortEntries(c1)))
    requires SharedKeysListening(PortEntries(c1), DoneKeys(PortEntries(c2)))
    ensures LoadConfig(st, c1, oracle).Loaded?
    ensures var s1 := LoadConfig(st, c1, oracle).st;
      && LoadConfig(s1, c2, oracle).Loaded?
      && LoadConfig(s1, c2, oracle).st.listeners.Keys == DoneKeys(PortEntries(c2))
      && LoadConfig(LoadConfig(s1, c2, oracle).st, c1, oracle).Loaded?
      && LoadConfig(LoadConfig(s1, c2, oracle).st, c1, oracle).st.listeners.Keys == s1.listeners.Keys
  {
    CleanLoadBindsEveryPort(st, c1, oracle);
    var s1 := LoadConfig(st, c1, oracle).st;
    CleanLoadBindsEveryPort(s1, c2, oracle);
    CleanLoadBindsEveryPort(LoadConfig(s1, c2, oracle).st, c1, oracle);
  }

  /** A configuration without ports closes every listener the worker had. */
  lemma EmptyLoadClosesEverything(st: WorkerState, config: JsValue, oracle: string -> PortOracle)
    requires !IsNullish(config)
    requires PortEntries(config) == []
    ensures LoadConfig(st, config, oracle).Loaded?
    ensures LoadConfig(st, config, oracle).st.listeners == map[]
    ensures LoadConfig(st, config, oracle).st.servers == []
  {
    CleanLoadBindsEveryPort(st, config, oracle);
    LoadUnfolds(st, config, oracle);
    LoadTasks(st, config, oracle);
  }

  function TwoPortConfig(): JsValue {
    JObj([Prop("ports", JObj([Prop("80", JStr("http://localhost:8080")), Prop("0080", JStr("http://localhost:8081"))]))])
  }

  lemma TwoPortEntries()
    ensures PortEntries(TwoPortConfig()) == [Prop("80", JStr("http://localhost:8080")), Prop("0080", JStr("http://localhost:8081"))]
  {
  }

  lemma TwoPortKeys()
    ensures EntryKey(Prop("80", JStr("http://localhost:8080"))) == Some("80")
    ensures EntryKey(Prop("0080", JStr("http://localhost:8081"))) == Some("80")
  {
    LeadingZerosShareKey();
  }

  /** The concrete case: a fresh worker given ports `80` and `0080`, which
      bind the same key, never completes its load even though every bind
      succeeds. */
  lemma FreshDuplicatePortStalls(oracle: string -> PortOracle)
    requires oracle("80") == Clean && oracle("0080") == Clean
    ensures LoadConfig(NewWorker(JUndefined), TwoPortConfig(), oracle).NeverLoaded?
  {
    var entries := PortEntries(TwoPortConfig());
    TwoPortEntries();
    TwoPortKeys();
    ParsedIffDigit(entries);
    CleanRunPair(entries[0], entries[1], oracle);
    CleanPairSharingKeyStalls(NewWorker(JUndefined), TwoPortConfig(), oracle);
  }

  lemma CleanRunPair(a: Prop, b: Prop, oracle: string -> PortOracle)
    requires !NoDigit(a.name) && !IsNullish(a.value) && oracle(a.name) == Clean
    requires !NoDigit(b.name) && !IsNullish(b.value) && oracle(b.name) == Clean
    ensures CleanRun([a, b], oracle)
  {
  }

  /** Two clean port entries sharing a key that is not listening: the load
      never throws and never completes. */
  lemma CleanPairSharingKeyStalls(st: WorkerState, config: JsValue, oracle: string -> PortOracle)
    requires !IsNullish(config) && CleanRun(PortEntries(config), oracle) && |PortEntries(config)| == 2
    requires EntryKey(PortEntries(config)[0]).Some?
    requires EntryKey(PortEntries(config)[1]) == EntryKey(PortEntries(config)[0])
    requires EntryKey(PortEntries(config)[0]).value !in st.listeners
    ensures LoadConfig(st, config, oracle).NeverLoaded?
  {
    CleanLoadNeverThrows(st, config, oracle);
    SharedFreshKeyStalls(st, config, oracle, 0, 1);
  }

  // ---------------------------------------------------------------------
  // How one bind ends

  /** A bind that fails reaches its task exactly when the task still holds
      its listener hook and its server has not failed early; the task then
      reports the bind error and no server, and the key is no longer
      registered. */
  lemma BindErrorReachesTaskIff(p: Progress, i: nat, oracle: string -> PortOracle)
    requires i < |p.tasks| && p.tasks[i].Awaiting?
    requires oracle(p.tasks[i].spec).bindError.Some?
    ensures SettleAt(p, i, oracle).Some? <==> p.tasks[i].listenerHooked && oracle(p.tasks[i].spec).earlyError.None?
    ensures SettleAt(p, i, oracle).Some? ==>
      && SettleAt(p, i, oracle).value.tasks[i] == Called(p.tasks[i].spec, oracle(p.tasks[i].spec).bindError, None)
      && p.tasks[i].key !in SettleAt(p, i, oracle).value.st.listeners
  {
  }

  /** A bind that succeeds calls its task back with its server exactly when
      the task holds both hooks or its server failed early (the callback then
      carries that error too); otherwise the task never calls back. */
  lemma BindSuccessServesIff(p: Progress, i: nat, oracle: string -> PortOracle)
    requires i < |p.tasks| && p.tasks[i].Awaiting?
    requires oracle(p.tasks[i].spec).bindError.None?
    requires oracle(p.tasks[i].spec).earlyError.Some? ==> p.tasks[i].serverHooked
    ensures SettleAt(p, i, oracle).Some?
    ensures var t := p.tasks[i]; var after := SettleAt(p, i, oracle).value.tasks[i];
      && (after.Called? <==> (t.serverHooked && t.listenerHooked) || oracle(t.spec).earlyError.Some?)
      && (after.Called? ==> after == Called(t.spec, oracle(t.spec).earlyError, Some(t.app)))
      && (!after.Called? ==> after == Silent(t.spec))
  {
  }

  /** An early server error without the server hook, or a failed bind after
      an early error, makes the worker throw. */
  lemma FailedBindAfterEarlyErrorThrows(p: Progress, i: nat, oracle: string -> PortOracle)
    requires i < |p.tasks| && p.tasks[i].Awaiting?
    requires oracle(p.tasks[i].spec).earlyError.Some?
    requires oracle(p.tasks[i].spec).bindError.Some? || !p.tasks[i].serverHooked
    ensures SettleAt(p, i, oracle).None?
  {
  }

  /** A fresh listener whose server emitted `error` before it was ready
      still serves: the callback carries both the error and the server, and
      the listener gets its forwarder. */
  lemma EarlyErrorStillServes(st0: WorkerState, p: Progress, i: nat, oracle: string -> PortOracle, e: NodeError)
    requires ListenersTrack(st0, p)
    requires i < |p.tasks| && p.tasks[i].Awaiting? && p.tasks[i].serverHooked && p.tasks[i].listenerHooked
    requires oracle(p.tasks[i].spec).bindError.None? && oracle(p.tasks[i].spec).earlyError == Some(e)
    ensures SettleAt(p, i, oracle).Some?
    ensures var q := SettleAt(p, i, oracle).value;
      && q.tasks[i] == Called(p.tasks[i].spec, Some(e), Some(p.tasks[i].app))
      && p.tasks[i].key in q.obtained
      && p.tasks[i].key in q.st.listeners && q.st.listeners[p.tasks[i].key].observers == 1
  {
    assert AwaitFits(st0, p, p.tasks[i]);
  }

  // ---------------------------------------------------------------------
  // What a completed load reports

  /** Every port specification of a completed load contains a digit. */
  lemma LoadedSpecsHaveDigits(st: WorkerState, config: JsValue, oracle: string -> PortOracle)
    requires LoadConfig(st, config, oracle).Loaded?
    ensures forall j :: 0 <= j < |PortEntries(config)| ==> !NoDigit(PortEntries(config)[j].name)
  {
    forall j | 0 <= j < |PortEntries(config)| ensures !NoDigit(PortEntries(config)[j].name) {
      if NoDigit(PortEntries(config)[j].name) {
        UnmatchedPortStalls(st, config, oracle, j);
      }
    }
  }

  /** The errors object of a completed load has no property but port
      specifications. */
  lemma LoadedErrorsNameOnlyPorts(st: WorkerState, config: JsValue, oracle: string -> PortOracle, n: string)
    requires LoadConfig(st, config, oracle).Loaded? && LoadConfig(st, config, oracle).err.Some?
    requires n !in Names(PortEntries(config))
    ensures Lookup(LoadConfig(st, config, oracle).err.value, n) == JUndefined
  {
    LoadReportsEveryPort(st, config, oracle);
  }

  /** A load of a single port whose fresh listener fails to bind completes
      and reports that error and no server for it. */
  lemma SinglePortBindFails(st: WorkerState, config: JsValue, entry: Prop, oracle: string -> PortOracle, e: NodeError)
    requires PortEntries(config) == [entry] && !IsNullish(config)
    requires EntryKey(entry).Some? && EntryKey(entry).value !in st.listeners && !IsNullish(entry.value)
    requires oracle(entry.name) == PortOracle(None, None, Some(e), None)
    ensures LoadConfig(st, config, oracle).Loaded?
    ensures LoadConfig(st, config, oracle).reports == [Report(entry.name, Some(e), None)]
  {
    var st0 := Unbound(st, config);
    var cm := Get(config, "middleware");
    LoadUnfolds(st, config, oracle);
    UnboundFacts(st, config);
    SyncPassThrowsIff(st0, [entry], oracle, cm);
    SyncPassTracks(st0, [entry], oracle, cm);
    SyncPassAwaits(st0, [entry], 0, oracle, cm);
    var p := Started(st, config, oracle).value;
    assert PassFits(oracle, [entry], 0, p.tasks[0]);
    assert NoLaterKey([entry], 0);
    LoneRefusedBindReports(p, oracle, e);
  }

  /** A lone task whose bind is refused, still holding its listener hook,
      is called back with the bind error and no server. */
  lemma LoneRefusedBindReports(p: Progress, oracle: string -> PortOracle, e: NodeError)
    requires |p.tasks| == 1 && p.tasks[0].Awaiting? && p.tasks[0].listenerHooked
    requires oracle(p.tasks[0].spec) == PortOracle(None, None, Some(e), None)
    ensures SettleFrom(p, 0, oracle).Some?
    ensures SettleFrom(p, 0, oracle).value.tasks == [Called(p.tasks[0].spec, Some(e), None)]
  {
    SettleFromFates(p, 0, oracle);
  }
}
